=== FILE: README.md ===
# ASPASIA parameter-file generation, modelled in Dafny

ASPASIA (Automated Simulation Parameter Alteration and SensItivity
Analysis) turns a baseline SBML model into many parameter files, one per
sampled parameter set. This project models that core as pure functions over
immutable data:

- **Engine** (`WriteParameterFile_SBML`): the document template engine. It
  cleans the baseline tree, drops whitespace text and comments, and trims the
  remaining text. It then clones the tree. Every child of a
  `listOfParameters` has its `value` replaced by the override for its `id`,
  and every child of a `listOfSpecies` has its `initialConcentration`
  replaced when species changes are on. The tree is `Dom`; the engine is
  `Engine`.
- **SampleRows** (`FileCreationUtilities.makeParameterValMap`): the two
  sample-row readers. Each turns a comma-separated line into the override map.
  The two-argument form unquotes its tokens and stores 0.0 for a value whose
  exponent text after the last `-` exceeds 300. `Tokenizer` models
  `StringTokenizer` on commas.
- **Settings** (`XMLFileUtilities`): the settings getters and
  `readParameterInfo`. These reset and fill the six per-parameter lists and
  `sbmlSetValues`. They also report every missing required field through the
  sticky `errorCheck` flag.
- **Intervention** (`SBMLFileFromSolverOutput`): a new model built from the
  header and last line of a solver's results file. The analysed parameters are
  overwritten from `sbmlSetValues`.
- **SpartanScripts** (`GenerateSpartan{LHC,OAT,EFAST}File`): the three R
  sampling-script generators. Each script is given as its exact list of lines.
- **ParameterFiles**, **Robustness**, **Efast** (`Create_Robustness_Models`,
  `Create_eFAST_Models`): the two experiment drivers. Each reads its settings
  and writes its sampling script. When spartan's exit code is 0, it turns
  every row of every sample file into one parameter file. A failing file
  stops at its first bad row and does not stop the next file.

Java's static state becomes a `Registry` record threaded through the calls,
and exceptions become the `Exception` datatype inside `Result`. Null becomes
`Option.None`; string concatenation prints it as "null". Files are given as
maps from path to lines, and baseline documents as maps from path to parsed
tree. `Double.parseDouble`, `Integer.parseInt` and `Double.toString` are the
fields of a `NumberCodec` passed as a parameter. A double is a real or one
of the three special values.

Source behaviour worth noting:
- `findAndSetTagValues` does not skip text children. A container holding
  text therefore fails with `InvalidCharacter("#text")`, and the whole file
  is not written.
- A clone puts its first-level text before its element children.
- A container child's own text is dropped.
- The SBML writer is called with a null file name from both drivers. Every
  row of a sample file therefore targets `directory + "/null"`.
- eFAST's dummy parameter extends only the name, type, min and max lists.
- Writing a baseline with no overrides reproduces it only for trees with
  canonical containers (`Engine.WriteWithoutOverridesIsIdentity`).

## Model

| member | source | states |
|---|---|---|
| Engine.CheckArrayList | src/modelCreation/WriteParameterFile_SBML.java:54-71 | returns "yes" exactly when the name is in the list, and "null" otherwise |
| Dom.CleanIsClean | src/modelCreation/WriteParameterFile_SBML.java:81-103 | after cleaning, no comment, no blank text and no untrimmed text remains at any depth |
| Dom.CleanFixesClean | src/modelCreation/WriteParameterFile_SBML.java:81-103 | a tree that is already clean is left unchanged |
| Dom.CleanIdempotent | src/modelCreation/WriteParameterFile_SBML.java:81-103 | cleaning twice is the same as cleaning once, which is why the inner `clean` calls on already-cleaned children change nothing |
| Dom.CleanKeepsElements | src/modelCreation/WriteParameterFile_SBML.java:81-103 | the element children survive cleaning, in order, each cleaned in turn; the children dropped are comments and blank text |
| Dom.CleanTrimsTexts | src/modelCreation/WriteParameterFile_SBML.java:89-98 | the direct texts after cleaning are exactly the trims of the texts before it that do not trim to nothing, in their order |
| Dom.CleanInPlace | src/modelCreation/WriteParameterFile_SBML.java:81-103 | each child is handled where it stands: a non-blank text becomes its trim and an element its cleaned self, between the cleaned siblings before and after it; a comment or blank text leaves nothing there |
| Dom.CleanKeepsWellFormed | src/modelCreation/WriteParameterFile_SBML.java:81-103 | cleaning keeps element names valid and attribute names unique |
| Dom.FirstLevelTextAppend | src/modelCreation/WriteParameterFile_SBML.java:131-142 | the first-level text grows by a child's content exactly when that child is a text node |
| Dom.FirstLevelTextOfNoText | src/modelCreation/WriteParameterFile_SBML.java:131-142 | a node without text children has empty first-level text |
| Dom.ElementsOfElements | src/modelCreation/WriteParameterFile_SBML.java:157-171 | the clone loop's element filter keeps a list of elements whole |
| Engine.SetAttribute | src/modelCreation/WriteParameterFile_SBML.java:112-119 | `setAttribute` with a new name adds the attribute after the others, which is where the DOM's name order puts it when names arrive in name order, as they do when copied from a parsed element |
| Engine.SetAttributeOverwrites | src/modelCreation/WriteParameterFile_SBML.java:112-119 | `setAttribute` with an existing name replaces that attribute's value in place |
| Engine.AddAllCopies | src/modelCreation/WriteParameterFile_SBML.java:112-119 | copying uniquely named attributes onto an element without them appends them all, in order |
| Engine.SubstituteAttributesCorrect | src/modelCreation/WriteParameterFile_SBML.java:250-295 | the attribute loop gives the target attribute the override of the last `id` seen before it, when that `id` is a key, and copies every other attribute unchanged |
| Engine.CloneChildrenFaithful | src/modelCreation/WriteParameterFile_SBML.java:154-227 | every successful clone list has one clone per element child, in order. A clone keeps its tag and attributes and puts the first-level text first. Its children are handled in the context its tag selects |
| Engine.CloneNodeFaithful | src/modelCreation/WriteParameterFile_SBML.java:157-224 | a cloned element is a faithful instance of the original |
| Engine.SubstituteChildrenFaithful | src/modelCreation/WriteParameterFile_SBML.java:244-309 | each container child becomes an element of the same tag with its attributes substituted, its own text dropped and its children cloned |
| Engine.SubstituteNodeFaithful | src/modelCreation/WriteParameterFile_SBML.java:250-307 | one container child is cloned with its attributes substituted |
| Engine.CloneChildrenSucceeds | src/modelCreation/WriteParameterFile_SBML.java:154-227 | cloning succeeds exactly when no comment is met at any depth and no substituted container holds a text child (the `createElement("#text")` failure) |
| Engine.SubstituteChildrenSucceeds | src/modelCreation/WriteParameterFile_SBML.java:244-309 | substituting a container succeeds exactly when all its children are elements and their subtrees are clonable |
| Engine.ParametersAlwaysSubstituted | src/modelCreation/WriteParameterFile_SBML.java:202-211 | a `listOfParameters` has its children's `value` substituted, whatever the species flag |
| Engine.SpeciesSubstitutedOnlyWhenFlagged | src/modelCreation/WriteParameterFile_SBML.java:178-201 | a `listOfSpecies` has its children's `initialConcentration` substituted when species changes are on, and is cloned plainly otherwise |
| Engine.OverridesNeedContainers | src/modelCreation/WriteParameterFile_SBML.java:178-221 | without a parameter or species container anywhere, neither the overrides nor the flag change the clone |
| Engine.SpeciesFlagNeedsSpecies | src/modelCreation/WriteParameterFile_SBML.java:178-201 | without a species container, the species flag changes nothing |
| Engine.InstanceKeepsShape | src/modelCreation/WriteParameterFile_SBML.java:157-307 | a clone has the same tag skeleton as its original |
| Engine.WriteSimParameterFiles | src/modelCreation/WriteParameterFile_SBML.java:330-387 | an unreadable baseline is the only document error. Otherwise the file goes to `outputFolder + "/" + name`, with "null" for a missing name |
| Engine.WriteSimParameterFilesFaithful | src/modelCreation/WriteParameterFile_SBML.java:349-369 | the written root keeps the cleaned root's tag and attributes, and its children are faithful clones with species changes on |
| Engine.WriteKeepsShape | src/modelCreation/WriteParameterFile_SBML.java:349-369 | the written document has the skeleton of the cleaned baseline |
| Engine.WriteWithoutOverridesIsIdentity | src/modelCreation/WriteParameterFile_SBML.java:349-369 | with no overrides, a cleaned baseline of canonical containers is written back unchanged |
| JavaText.Trim | src/modelCreation/WriteParameterFile_SBML.java:94-98 | the trimmed text is the slice of the text between a leading and a trailing run of characters up to U+0020; it is empty exactly when the text is all such characters, and otherwise starts and ends with a non-space |
| JavaText.TrimIdempotent | src/modelCreation/WriteParameterFile_SBML.java:94-98 | trimming twice is trimming once |
| Tokenizer.Tokens | src/xmlFileUtilities/FileCreationUtilities.java:29-36 | the tokens are non-empty and comma-free |
| Tokenizer.JoinFields | src/xmlFileUtilities/FileCreationUtilities.java:29 | joining the comma-separated fields with commas gives back the text |
| Tokenizer.FieldsOfJoin | src/xmlFileUtilities/FileCreationUtilities.java:29 | splitting the comma-join of comma-free items gives back the items |
| Tokenizer.TokensOfJoin | src/xmlFileUtilities/XMLFileUtilities.java:182-196 | tokenising the comma-join of non-empty comma-free items gives back the items |
| Tokenizer.OnlyCommasHaveNoTokens | src/xmlFileUtilities/FileCreationUtilities.java:29 | a text of commas alone has no tokens |
| SampleRows.ParseOrThrow | src/xmlFileUtilities/FileCreationUtilities.java:81 | parsing succeeds exactly when the codec reads the text; otherwise it raises `NumberFormatException` on that text |
| SampleRows.Zip | src/xmlFileUtilities/FileCreationUtilities.java:32-36 | the zip succeeds exactly when there are enough tokens and each reads. The keys are the names, and each name holds the value at its last occurrence |
| SampleRows.ZipFailure | src/xmlFileUtilities/FileCreationUtilities.java:32-36 | a failed zip reports `NoSuchElementException` or the exception of a token that does not read; when every available token reads, it is `NoSuchElementException` |
| SampleRows.FromSampleLine | src/xmlFileUtilities/FileCreationUtilities.java:24-39 | the one-argument reader succeeds exactly when the line has a parsable token for every analysed name. It maps each name to the token at its last position |
| SampleRows.SurplusTokensIgnored | src/xmlFileUtilities/FileCreationUtilities.java:32-36 | tokens beyond the names are never read |
| SampleRows.ZipSameReadings | src/xmlFileUtilities/FileCreationUtilities.java:60-83 | two token lists that read the same give the same map |
| SampleRows.UnquoteQuoted | src/xmlFileUtilities/FileCreationUtilities.java:65-66 | removing quotes undoes wrapping a quote-free text in quotes |
| SampleRows.UnquoteAll | src/xmlFileUtilities/FileCreationUtilities.java:65-66 | every token is unquoted in place |
| JavaText.RemoveChar | src/xmlFileUtilities/FileCreationUtilities.java:65-66 | `replace("\"", "")` deletes every quote and keeps every other character, as often as it occurs and in its order (multiset and subsequence), so the result is one quote-count shorter |
| JavaText.RemoveCharAppend | src/xmlFileUtilities/FileCreationUtilities.java:65-66 | removing a character distributes over concatenation |
| JavaText.Contains | src/xmlFileUtilities/FileCreationUtilities.java:68 | `contains` holds exactly when the text occurs at some position |
| JavaText.NotContainsWithoutFirst | src/xmlFileUtilities/FileCreationUtilities.java:68 | a text without the pattern's first character does not contain the pattern |
| JavaText.LastIndexOf | src/xmlFileUtilities/FileCreationUtilities.java:70 | `lastIndexOf` is -1 exactly when the character is absent; otherwise it is the last position holding it |
| SampleRows.ExponentText | src/xmlFileUtilities/FileCreationUtilities.java:70 | the text after the last '-' is shorter than the value and holds no '-' |
| SampleRows.ParseValue | src/xmlFileUtilities/FileCreationUtilities.java:68-82 | a result other than 0.0 is the parser's reading of the token itself; a failure is `NumberFormatException` on the token or on its exponent text, the latter when the exponent text will not parse; a token without "e-" is parsed as written |
| SampleRows.ClampThreshold | src/xmlFileUtilities/FileCreationUtilities.java:68-77 | for a parser that reads digit strings as `Double.parseDouble` does (exact up to 2^53, never below 2^53 or infinite above), a decimal exponent above 300 stores exactly 0.0 and one of at most 300 parses the token as written |
| SampleRows.ClampExample | src/xmlFileUtilities/FileCreationUtilities.java:70-72 | "-1e-320" is stored as 0.0 |
| SampleRows.NoClampExample | src/xmlFileUtilities/FileCreationUtilities.java:74-76 | "1e-50" is parsed as written |
| SampleRows.FromHeaderAndLine | src/xmlFileUtilities/FileCreationUtilities.java:51-86 | the two-argument reader runs over the header's tokens and succeeds exactly when each has a value token that reads. Each unquoted name maps to the value at its last position |
| SampleRows.QuotingIsTransparent | src/xmlFileUtilities/FileCreationUtilities.java:62-66 | quoting every header and value field gives the same map as leaving them bare |
| SampleRows.TokensOfQuoted | src/xmlFileUtilities/FileCreationUtilities.java:55-56 | a quoted comma-join of plain fields tokenises back to the quoted fields |
| JavaText.ParseBoolean | src/xmlFileUtilities/XMLFileUtilities.java:141-144 | true exactly when the text is present and equals "true" ignoring ASCII letter case |
| Settings.GetParamInteger | src/xmlFileUtilities/XMLFileUtilities.java:155-158 | succeeds exactly when the setting is present and parses, with the parsed value |
| Settings.ParseAllSpec | src/xmlFileUtilities/XMLFileUtilities.java:214-217 | parsing a token list succeeds exactly when every token parses, and gives each token's value at its position; a failure is `NumberFormatException` on the first rejected token |
| Settings.GetParamStringList | src/xmlFileUtilities/XMLFileUtilities.java:182-196 | a missing setting raises `NullPointerException`; otherwise the list is its non-empty comma-free tokens |
| Settings.GetParamIntegerList | src/xmlFileUtilities/XMLFileUtilities.java:206-220 | a missing setting raises `NullPointerException`; a present one succeeds exactly when every comma token is an integer, giving the values in order, and otherwise raises `NumberFormatException` on the first token that is not |
| Settings.GetParamDoubleList | src/xmlFileUtilities/XMLFileUtilities.java:230-244 | a missing setting raises `NullPointerException`; a present one succeeds exactly when every comma token is a double, giving the values in order, and otherwise raises `NumberFormatException` on the first token that is not |
| Settings.StringListRoundTrip | src/xmlFileUtilities/XMLFileUtilities.java:182-196 | a list written as its comma-join is read back unchanged |
| Settings.CheckValueEntered | src/xmlFileUtilities/XMLFileUtilities.java:350-359 | a missing field logs one report and clears `errorCheck`; a present one changes nothing |
| Settings.CheckField | src/xmlFileUtilities/XMLFileUtilities.java:313-320 | one field check appends its reports and clears the flag exactly when it reports |
| Settings.CheckRange | src/xmlFileUtilities/XMLFileUtilities.java:323-330 | eFAST and LHC report a missing min and then a missing max |
| Settings.CheckOat | src/xmlFileUtilities/XMLFileUtilities.java:290-321 | OAT reports missing min, max, inc and baseline only when `values` is absent |
| Settings.Validate | src/xmlFileUtilities/XMLFileUtilities.java:290-335 | one parameter's checks log exactly its missing fields for the method. An OAT `values` list is recorded and sets the flag |
| Settings.MissingOf | src/xmlFileUtilities/XMLFileUtilities.java:290-335 | every report names a field the parameter lacks, the parameter and the method |
| Settings.AddSetValue | src/xmlFileUtilities/XMLFileUtilities.java:280-283 | a present `value` is parsed and appended, and one that does not parse raises; an absent one appends nothing |
| Settings.ReadParametersSucceeds | src/xmlFileUtilities/XMLFileUtilities.java:268-336 | reading the parameters fails only on a `value` that does not parse |
| Settings.ReadParameterInfoSpec | src/xmlFileUtilities/XMLFileUtilities.java:253-339 | after the reset, the six lists are the parameters' names and attributes, and `sbmlSetValues` holds the parsed values of those that carry one. Every missing field is reported, and `errorCheck` stays true only if nothing was missing |
| Settings.ReadParameterInfoColumns | src/xmlFileUtilities/XMLFileUtilities.java:255-278 | the six lists hold each parameter's text and attributes, null where absent |
| Settings.ReadParameterInfoValues | src/xmlFileUtilities/XMLFileUtilities.java:261-283 | `sbmlSetValues` is the parse of the present `value` attributes, in order |
| Settings.ReadParameterInfoChecks | src/xmlFileUtilities/XMLFileUtilities.java:285-337 | the reports, the OAT values list and flag, and the verdict after all parameters |
| Settings.ErrorCheckIsSticky | src/xmlFileUtilities/XMLFileUtilities.java:87 | once `errorCheck` is false, no later read reports success |
| Settings.ListsStayAligned | src/xmlFileUtilities/XMLFileUtilities.java:268-278 | the six per-parameter lists always have one entry per parameter |
| Intervention.OverwriteSpec | src/modelCreation/SBMLFileFromSolverOutput.java:136-146 | the loop fails exactly at the first key position past the end of `sbmlSetValues`. Otherwise the key set is kept, other keys keep their values, and each analysed key takes the value at its last position |
| Intervention.OverwriteAlignedSucceeds | src/modelCreation/SBMLFileFromSolverOutput.java:136-146 | with a value for every position, the loop never fails |
| Intervention.NewModelFromSteadyState | src/modelCreation/SBMLFileFromSolverOutput.java:112-161 | a missing results file, an empty one and a bad row each give their exception; a model is written under the configured name |
| Intervention.NewModelOverwritesResults | src/modelCreation/SBMLFileFromSolverOutput.java:120-153 | the written map is the results file's last row with the analysed parameters overwritten, and no name is added |
| Intervention.Create | src/modelCreation/SBMLFileFromSolverOutput.java:63-104 | a missing required setting only reports an error. Otherwise the SBMLMod read is done, its verdict ignored, and the model is built from the settings |
| Intervention.NothingMissingUnderSbmlMod | src/xmlFileUtilities/XMLFileUtilities.java:331-335 | SBMLMod reports nothing exactly when every parameter has a `value` |
| Intervention.SetValuesAlignWhenComplete | src/modelCreation/SBMLFileFromSolverOutput.java:141-144 | when the SBMLMod checks pass, `sbmlSetValues[i]` is parameter i's own value |
| Intervention.MisalignedValueIsTaken | src/modelCreation/SBMLFileFromSolverOutput.java:136-146 | with A lacking a value and B holding "5", A is overwritten with B's value |
| Intervention.OverwriteOwnSpec | src/modelCreation/SBMLFileFromSolverOutput.java:136-146 | the corrected overwrite keeps the key set, keeps other keys, and gives each key its own parameter's value. A key whose parameter has none keeps its results value |
| Intervention.OverwriteAgreesWhenComplete | src/modelCreation/SBMLFileFromSolverOutput.java:136-146 | when the SBMLMod checks pass, the loop as written equals the corrected overwrite |
| SpartanScripts.Shortfall | src/spartanLink/GenerateSpartanOATFile.java:54-67 | the generator fails exactly when there is no parameter (`get(-1)`) or a list is shorter than the names; the index reported is the shortest length |
| SpartanScripts.LhcScript | src/spartanLink/GenerateSpartanLHCFile.java:35-83 | the LHC script is written to `LHC_Sampling.R` exactly when the bounds cover the parameters, with its exact lines |
| SpartanScripts.LhcLines | src/spartanLink/GenerateSpartanLHCFile.java:41-73 | the nine lines, with the vectors as comma-joins of the quoted names and printed bounds |
| SpartanScripts.OatScript | src/spartanLink/GenerateSpartanOATFile.java:35-86 | the OAT script is written to `OAT_Sampling.R` exactly when all four lists cover the parameters |
| SpartanScripts.OatLines | src/spartanLink/GenerateSpartanOATFile.java:42-76 | the eight lines, with min, max, baseline and increment vectors |
| SpartanScripts.EfastScript | src/spartanLink/GenerateSpartanEFASTFile.java:35-90 | the eFAST script is written to `EFAST_Sampling.R` exactly when the bounds cover the parameters |
| SpartanScripts.EfastLines | src/spartanLink/GenerateSpartanEFASTFile.java:41-80 | the lines, with curve and sample counts and the OS-dependent path |
| SpartanScripts.EfastPath | src/spartanLink/GenerateSpartanEFASTFile.java:44-54 | on Windows every backslash becomes '/', and nothing else changes; elsewhere the path is kept |
| SpartanScripts.WindowsDetected | src/spartanLink/GenerateSpartanEFASTFile.java:44-45 | "Windows 10" is detected as Windows |
| SpartanScripts.LinuxKeepsBackslashes | src/spartanLink/GenerateSpartanEFASTFile.java:44-45 | "Linux" is not |
| SpartanScripts.ParametersRoundTrip | src/spartanLink/GenerateSpartanLHCFile.java:48-62 | the PARAMETERS line reads back as the quoted names |
| SpartanScripts.BoundsRoundTrip | src/spartanLink/GenerateSpartanLHCFile.java:48-64 | a bounds line splits back into the bounds |
| JavaText.NatToStringRoundTrip | src/spartanLink/GenerateSpartanEFASTFile.java:56-57 | a printed count reads back as the same number |
| JavaText.NatToStringInjective | src/modelCreation/Create_eFAST_Models.java:149-153 | distinct curve numbers print differently, so distinct curves use distinct paths |
| JavaText.IntToString | src/spartanLink/GenerateSpartanEFASTFile.java:56-57 | a printed integer is decimal digits denoting its magnitude, behind '-' when negative |
| ParameterFiles.WriteRow | src/modelCreation/Create_Robustness_Models.java:199-213 | the SBML writer is used exactly when `sbmlFormat` is set, and always targets `dir + "/null"`; a missing baseline path gives `NullPointerException` inside the writer, which catches it, so the row loop carries on |
| ParameterFiles.ReadRowsCompletes | src/modelCreation/Create_Robustness_Models.java:176-219 | the row loop reaches the end exactly when every row reads |
| ParameterFiles.ReadRowsJobs | src/modelCreation/Create_Robustness_Models.java:176-219 | the rows before the stop are written in order with counters i, i+1, ... |
| ParameterFiles.ReadRowsStops | src/modelCreation/Create_Robustness_Models.java:176-230 | the loop stops at the first bad row, with that row's exception |
| ParameterFiles.ProcessFile | src/modelCreation/Create_Robustness_Models.java:157-230 | a missing file raises `FileNotFoundException`, and a file of at most one line has no rows |
| ParameterFiles.ProcessFileCompletes | src/modelCreation/Create_eFAST_Models.java:192-262 | a readable file is written to the end exactly when every line after the header reads |
| ParameterFiles.ProcessFileJobs | src/modelCreation/Create_eFAST_Models.java:202-249 | job k is line k+1 read as a map, with counter k |
| ParameterFiles.ProcessFileStops | src/modelCreation/Create_eFAST_Models.java:202-261 | a file that stops early stops at its first bad line after the header |
| ParameterFiles.HeaderIgnored | src/modelCreation/Create_eFAST_Models.java:202 | the header line is never read |
| ParameterFiles.SbmlRowsShareOnePath | src/modelCreation/Create_eFAST_Models.java:233-238 | every SBML row of a file is written to the same `dir + "/null"` |
| Settings.OutputFolder | src/modelCreation/Create_Robustness_Models.java:83-84 | the output folder is the configured folder plus "/Robustness/" (or "/eFAST/", `Create_eFAST_Models.java` lines 96-97), with "null" for a missing setting |
| Robustness.OatRunsPerParameter | src/modelCreation/Create_Robustness_Models.java:145-155 | run k reads the k-th parameter's `_OAT_Values.csv` and writes to its folder |
| Robustness.Create | src/modelCreation/Create_Robustness_Models.java:69-132 | failed checks generate nothing. Otherwise the OAT script is generated, and files are written exactly when spartan exits with 0 |
| Robustness.GeneratedRunsFollowSettings | src/modelCreation/Create_Robustness_Models.java:137-237 | generated runs follow the settings' parameters, one sample file each |
| Robustness.ScriptWrittenWhenSettingsPass | src/modelCreation/Create_Robustness_Models.java:89-97 | with at least one parameter, passing settings produce a script |
| Robustness.NoParametersNoScript | src/spartanLink/GenerateSpartanOATFile.java:63 | with no parameter the script fails on `get(-1)` |
| Efast.AddDummy | src/modelCreation/Create_eFAST_Models.java:110-114 | "dummy" is added with type double, min 1 and max 10; increments and baselines are unchanged |
| Efast.CurveRunsPerParameter | src/modelCreation/Create_eFAST_Models.java:141-160 | within a curve, run k reads `Curve<c>_<name>.csv` of the k-th parameter |
| Efast.AllCurvesAt | src/modelCreation/Create_eFAST_Models.java:134-161 | the curve loop holds curve c's runs at position c - first |
| Efast.SampleCountIsLastCompleted | src/modelCreation/Create_eFAST_Models.java:255 | `numEFastSamples` is set by the last file read to the end, to its row count plus one |
| Efast.CurvesSampleCountAllFailed | src/modelCreation/Create_eFAST_Models.java:255 | if every file fails, the prior count is kept |
| Efast.CurvesSampleCountIsLastCompleted | src/modelCreation/Create_eFAST_Models.java:134-158 | over all curves, the count keeps its prior value when no file was read to the end, and is otherwise set by the last such file in curve-then-parameter order |
| Efast.CurvesSampleCountLast | src/modelCreation/Create_eFAST_Models.java:255 | the count comes from the last curve's last completed file |
| Efast.Create | src/modelCreation/Create_eFAST_Models.java:82-182 | the counts and settings are read without catching exceptions, and the verdict is ignored. The script is always generated, and the curve loop runs exactly when spartan exits with 0 |
| Efast.ScriptAlwaysWritten | src/modelCreation/Create_eFAST_Models.java:108-119 | the dummy guarantees the script is written |
| Efast.GeneratedRunsFollowCurves | src/modelCreation/Create_eFAST_Models.java:134-158 | run k of curve c reads the k-th parameter's curve file, dummy last |
| Efast.GeneratedSampleCount | src/modelCreation/Create_eFAST_Models.java:255 | the final count is 0 when no file was read to the end, and otherwise the row count plus one of the last file read to the end in curve-then-parameter order (the last curve's last completed file when it has one) |

## Left out

- XML parsing and serialisation (JDOM, DOM, transformer, indentation): documents are given as parsed trees, and a written file is its tree.
- File I/O: readers, `ReversedLinesFileReader`, `PrintWriter`, `mkdirs`. Files are maps from path to lines, and a script is its path and lines.
- Running R (`SpartanUtilities.generateParameterSamples`): its exit code is an input. The path it is given (`folder + "OAT_Sampling.R"`) is not modelled.
- `System.getProperty("os.name")`: an input string. Case folding is ASCII only.
- Floating point: parsing and printing doubles are functions of a `NumberCodec`. Negative zero is not distinguished.
- Java `int` width: integers are unbounded. `parseInt` is not limited to the 32-bit range, so "3000000000" is accepted where Java throws `NumberFormatException`. The eFAST curve loop `c <= efastCurves` stops after `efastCurves` curves, whereas Java's loop never ends when `efastCurves` is `Integer.MAX_VALUE`, because `c` wraps around. The row counter `i` and `numEFastSamples` do not wrap.
- Attribute order: a tree lists an element's attributes in the order given, while the JDK DOM lists them sorted by name. On a parsed document `id` therefore always comes before `initialConcentration` and `value`, so the case of a target attribute before any `id` (covered by `Engine.SubstituteAttributesCorrect`) does not arise from parsed input.
- The plain-XML writer `WriteParameterFile` and `Create_LHC_Models` are not part of this model. The plain writer's output is only marked `PlainFile`.
- `GenerateSpartanLHCFile.main`, the launcher and the console messages are left out, because they are a demonstration and user interface.
- The static counter `count` of `WriteParameterFile_SBML` is never read, so it is left out.
- `readSettingsFile` is left out: an unreadable settings file exits the program. The settings are a parsed record.
- The contents of a script partly written before an exception are not modelled: a failed generator yields only its exception.
- Static state left half-filled by an uncaught exception is not modelled: the outcome is the exception alone.
- `writeSimParameterFiles`' `params`, `types`, `paramFileNum` and `analysis` arguments play no part in the source and are omitted.
- ParameterFiles.WriteRow: the plain writer is assumed never to throw, so a plain-format row never stops its file's loop.
- The `normalize` and `normalizeDocument` calls, CDATA sections and processing instructions: documents are taken as already normalised, and a tree has only elements, text and comments.
- Engine.CloneChildren: the error contract says only which exceptions can arise; when they arise is stated by `Engine.CloneChildrenSucceeds`.

## Findings

| source | as written | input that shows it | evidently intended | confidence | as-written member | corrected member |
|---|---|---|---|---|---|---|
| src/modelCreation/SBMLFileFromSolverOutput.java:136-146 | the overwrite reads `sbmlSetValues` by parameter position, but that list only holds the parameters that carry a `value` | parameters A (no `value`) and B (`value="5"`), results header naming A: A is set to 5 | each analysed parameter takes its own `value`, and one without a value keeps the results file's value | not executed | Intervention.MisalignedValueIsTaken | Intervention.OverwriteOwnSpec |

The model of `newModelFromSteadyState` keeps the code as written.
`Intervention.OverwriteAgreesWhenComplete` proves that the written loop and
the corrected overwrite agree whenever the settings pass the SBMLMod checks.

=== FILE: dom.dfy ===
/** The parsed XML tree the template engine reads and writes, with the two
    DOM helpers of `WriteParameterFile_SBML` that only look at a tree:
    `clean` and `getFirstLevelTextContent`. */
module Dom {
  import opened JavaText

  datatype Attribute = Attribute(name: string, value: string)

  /** A DOM node: an element with its attributes in the order the DOM lists
      them, a text node, or a comment. */
  datatype Node =
    | Element(tag: string, attributes: seq<Attribute>, children: seq<Node>)
    | Text(content: string)
    | Comment(content: string)

  /** A document's root is always an element. */
  type Tree = n: Node | n.Element? witness Element("", [], [])

  /** `Node.getNodeName`. */
  function NodeName(n: Node): string {
    match n
    case Element(tag, _, _) => tag
    case Text(_) => "#text"
    case Comment(_) => "#comment"
  }

  /** The attribute names of an element, in order. */
  function Names(attrs: seq<Attribute>): (r: seq<string>)
    ensures |r| == |attrs|
    ensures forall i :: 0 <= i < |attrs| ==> r[i] == attrs[i].name
  {
    if |attrs| == 0 then [] else [attrs[0].name] + Names(attrs[1..])
  }

  /** A DOM element never holds two attributes with the same name. */
  predicate UniqueNames(attrs: seq<Attribute>) {
    forall i, j :: 0 <= i < j < |attrs| ==> attrs[i].name != attrs[j].name
  }

  /** An element name as a parser produces it: never empty and never
      starting with '#', the mark of the names DOM gives text and comment
      nodes. */
  predicate ElementName(tag: string) {
    tag != "" && tag[0] != '#'
  }

  /** What a parser guarantees of every element of the tree: a proper
      element name and uniquely named attributes. */
  predicate WellFormed(n: Node) {
    n.Element? ==>
      ElementName(n.tag) && UniqueNames(n.attributes)
      && forall i :: 0 <= i < |n.children| ==> WellFormed(n.children[i])
  }

  /** The element children, in order. */
  function Elements(ns: seq<Node>): (r: seq<Node>)
    ensures |r| <= |ns|
    ensures forall i :: 0 <= i < |r| ==> r[i].Element? && r[i] in ns
  {
    if |ns| == 0 then []
    else if ns[0].Element? then [ns[0]] + Elements(ns[1..])
    else Elements(ns[1..])
  }

  // ---------------------------------------------------------------------
  // clean
  // ---------------------------------------------------------------------

  /** `clean(node)`: in every element of the subtree, comment children are
      removed, text children that trim to nothing are removed and the other
      text children are trimmed. Elements keep their place. */
  function Clean(n: Node): Node
    decreases n, 0
  {
    match n
    case Element(tag, attrs, cs) => Element(tag, attrs, CleanChildren(cs))
    case _ => n
  }

  function CleanChildren(ns: seq<Node>): seq<Node>
    decreases ns
  {
    if |ns| == 0 then [] else CleanChild(ns[0]) + CleanChildren(ns[1..])
  }

  /** What one child turns into: nothing, or its cleaned self. */
  function CleanChild(n: Node): seq<Node>
    decreases n, 1
  {
    match n
    case Element(_, _, _) => [Clean(n)]
    case Text(t) => if Trim(t) == "" then [] else [Text(Trim(t))]
    case Comment(_) => []
  }

  /** A child as `clean` leaves it: an element cleaned all the way down, or
      a non-empty text with nothing left to trim; never a comment. */
  predicate IsCleanChild(n: Node)
    decreases n, 1
  {
    match n
    case Element(_, _, _) => IsClean(n)
    case Text(t) => t != "" && Trim(t) == t
    case Comment(_) => false
  }

  predicate IsClean(n: Node)
    decreases n, 0
  {
    n.Element? ==> forall i :: 0 <= i < |n.children| ==> IsCleanChild(n.children[i])
  }

  /** `clean` leaves no comment, no blank text and no untrimmed text. */
  lemma {:induction false} CleanIsClean(n: Node)
    ensures IsClean(Clean(n))
    decreases n, 0
  {
    if n.Element? {
      CleanChildrenAreClean(n.children);
    }
  }

  lemma {:induction false} CleanChildrenAreClean(ns: seq<Node>)
    ensures forall i :: 0 <= i < |CleanChildren(ns)| ==> IsCleanChild(CleanChildren(ns)[i])
    decreases ns
  {
    if |ns| > 0 {
      CleanChildrenAreClean(ns[1..]);
      if ns[0].Element? {
        CleanIsClean(ns[0]);
      } else if ns[0].Text? {
        TrimIdempotent(ns[0].content);
      }
      var h := CleanChild(ns[0]);
      var t := CleanChildren(ns[1..]);
      assert CleanChildren(ns) == h + t;
      forall i | 0 <= i < |h + t| ensures IsCleanChild((h + t)[i]) {
        if i >= |h| {
          assert (h + t)[i] == t[i - |h|];
        }
      }
    }
  }

  /** `clean` changes nothing in a tree it has already cleaned. */
  lemma {:induction false} CleanFixesClean(n: Node)
    requires IsClean(n)
    ensures Clean(n) == n
    decreases n, 0
  {
    if n.Element? {
      CleanChildrenFixClean(n.children);
    }
  }

  lemma {:induction false} CleanChildrenFixClean(ns: seq<Node>)
    requires forall i :: 0 <= i < |ns| ==> IsCleanChild(ns[i])
    ensures CleanChildren(ns) == ns
    decreases ns
  {
    if |ns| > 0 {
      CleanChildrenFixClean(ns[1..]);
      if ns[0].Element? {
        CleanFixesClean(ns[0]);
      }
      assert [ns[0]] + ns[1..] == ns;
    }
  }

  /** `clean` is idempotent. */
  lemma CleanIdempotent(n: Node)
    ensures Clean(Clean(n)) == Clean(n)
  {
    CleanIsClean(n);
    CleanFixesClean(Clean(n));
  }

  /** `clean` keeps the element children, in order, each cleaned. */
  lemma {:induction false} CleanKeepsElements(ns: seq<Node>)
    ensures |Elements(CleanChildren(ns))| == |Elements(ns)|
    ensures forall i :: 0 <= i < |Elements(ns)| ==> Elements(CleanChildren(ns))[i] == Clean(Elements(ns)[i])
    decreases ns
  {
    if |ns| > 0 {
      CleanKeepsElements(ns[1..]);
      var h := CleanChild(ns[0]);
      ElementsAppend(h, CleanChildren(ns[1..]));
      if ns[0].Element? {
        assert Elements(h) == [Clean(ns[0])] by {
          assert h[1..] == [];
        }
        assert Elements(ns) == [ns[0]] + Elements(ns[1..]);
      } else {
        assert Elements(h) == [] by {
          if |h| > 0 {
            assert h[0].Text? && h[1..] == [];
          }
        }
      }
    }
  }

  /** Cleaning a list of children distributes over concatenation. */
  lemma {:induction false} CleanChildrenAppend(a: seq<Node>, b: seq<Node>)
    ensures CleanChildren(a + b) == CleanChildren(a) + CleanChildren(b)
    decreases a
  {
    if |a| == 0 {
      assert a + b == b;
    } else {
      assert (a + b)[0] == a[0];
      assert (a + b)[1..] == a[1..] + b;
      CleanChildrenAppend(a[1..], b);
    }
  }

  /** Every child is cleaned where it stands: a non-blank text child
      becomes its trim, an element its cleaned self, and a comment or blank
      text child leaves no gap between the cleaned siblings around it. */
  lemma CleanInPlace(ns: seq<Node>, i: int)
    requires 0 <= i < |ns|
    ensures ns[i].Text? && Trim(ns[i].content) != "" ==>
              CleanChildren(ns) == CleanChildren(ns[..i]) + [Text(Trim(ns[i].content))] + CleanChildren(ns[i + 1..])
    ensures ns[i].Element? ==>
              CleanChildren(ns) == CleanChildren(ns[..i]) + [Clean(ns[i])] + CleanChildren(ns[i + 1..])
    ensures ns[i].Comment? || (ns[i].Text? && Trim(ns[i].content) == "") ==>
              CleanChildren(ns) == CleanChildren(ns[..i]) + CleanChildren(ns[i + 1..])
  {
    var pre, rest := ns[..i], [ns[i]] + ns[i + 1..];
    assert ns == pre + rest;
    CleanChildrenAppend(pre, rest);
    assert rest[0] == ns[i] && rest[1..] == ns[i + 1..];
    assert CleanChildren(rest) == CleanChild(ns[i]) + CleanChildren(ns[i + 1..]);
    assert CleanChildren(ns) == CleanChildren(pre) + CleanChild(ns[i]) + CleanChildren(ns[i + 1..]);
  }

  /** The contents of the direct text children, in order. */
  function TextsOf(ns: seq<Node>): seq<string> {
    if |ns| == 0 then [] else (if ns[0].Text? then [ns[0].content] else []) + TextsOf(ns[1..])
  }

  /** The trims of the texts, those that trim to nothing left out. */
  function NonBlankTrims(ts: seq<string>): seq<string> {
    if |ts| == 0 then [] else (if Trim(ts[0]) == "" then [] else [Trim(ts[0])]) + NonBlankTrims(ts[1..])
  }

  lemma {:induction false} TextsAppend(a: seq<Node>, b: seq<Node>)
    ensures TextsOf(a + b) == TextsOf(a) + TextsOf(b)
    decreases a
  {
    if |a| == 0 {
      assert a + b == b;
    } else {
      assert (a + b)[1..] == a[1..] + b;
      TextsAppend(a[1..], b);
    }
  }

  /** `clean` keeps the text of the children: each text that does not trim
      to nothing survives as its trim, in order, and no other text
      appears. */
  lemma {:induction false} CleanTrimsTexts(ns: seq<Node>)
    ensures TextsOf(CleanChildren(ns)) == NonBlankTrims(TextsOf(ns))
    decreases ns
  {
    if |ns| > 0 {
      CleanTrimsTexts(ns[1..]);
      var c := CleanChild(ns[0]);
      TextsAppend(c, CleanChildren(ns[1..]));
      assert CleanChildren(ns) == c + CleanChildren(ns[1..]);
      assert TextsOf(ns) == (if ns[0].Text? then [ns[0].content] else []) + TextsOf(ns[1..]);
      if ns[0].Text? {
        if Trim(ns[0].content) != "" {
          assert c[1..] == [];
        }
        assert TextsOf(ns)[0] == ns[0].content && TextsOf(ns)[1..] == TextsOf(ns[1..]);
      } else {
        if ns[0].Element? {
          assert c == [Clean(ns[0])] && Clean(ns[0]).Element?;
          assert c[1..] == [];
          assert TextsOf(c) == [] + TextsOf(c[1..]);
        } else {
          assert c == [];
          assert CleanChildren(ns) == CleanChildren(ns[1..]);
        }
        assert TextsOf(ns) == TextsOf(ns[1..]);
      }
    }
  }

  /** Filtering the elements distributes over concatenation. */
  lemma {:induction false} ElementsAppend(a: seq<Node>, b: seq<Node>)
    ensures Elements(a + b) == Elements(a) + Elements(b)
    decreases a
  {
    if |a| == 0 {
      assert a + b == b;
    } else {
      assert (a + b)[1..] == a[1..] + b;
      ElementsAppend(a[1..], b);
    }
  }

  /** A list of elements only is its own element filter. */
  lemma {:induction false} ElementsOfElements(ns: seq<Node>)
    requires forall i :: 0 <= i < |ns| ==> ns[i].Element?
    ensures Elements(ns) == ns
    decreases ns
  {
    if |ns| > 0 {
      ElementsOfElements(ns[1..]);
      assert [ns[0]] + ns[1..] == ns;
    }
  }

  /** `clean` keeps tags and attributes, so a well-formed tree stays so. */
  lemma {:induction false} CleanKeepsWellFormed(n: Node)
    requires WellFormed(n)
    ensures WellFormed(Clean(n))
    decreases n, 0
  {
    if n.Element? {
      CleanChildrenKeepWellFormed(n.children);
    }
  }

  lemma {:induction false} CleanChildrenKeepWellFormed(ns: seq<Node>)
    requires forall i :: 0 <= i < |ns| ==> WellFormed(ns[i])
    ensures forall i :: 0 <= i < |CleanChildren(ns)| ==> WellFormed(CleanChildren(ns)[i])
    decreases ns
  {
    if |ns| > 0 {
      CleanChildrenKeepWellFormed(ns[1..]);
      if ns[0].Element? {
        CleanKeepsWellFormed(ns[0]);
      }
      var h := CleanChild(ns[0]);
      var t := CleanChildren(ns[1..]);
      assert CleanChildren(ns) == h + t;
      forall i | 0 <= i < |h + t| ensures WellFormed((h + t)[i]) {
        if i >= |h| {
          assert (h + t)[i] == t[i - |h|];
        }
      }
    }
  }

  // ---------------------------------------------------------------------
  // getFirstLevelTextContent
  // ---------------------------------------------------------------------

  /** `getFirstLevelTextContent`: the texts of the direct text children,
      concatenated in order; text inside child elements is not included. */
  function FirstLevelText(ns: seq<Node>): string {
    if |ns| == 0 then ""
    else (if ns[0].Text? then ns[0].content else "") + FirstLevelText(ns[1..])
  }

  /** Appending a text child appends its text; appending an element or a
      comment child, whatever it contains, adds nothing. */
  lemma {:induction false} FirstLevelTextAppend(ns: seq<Node>, n: Node)
    ensures FirstLevelText(ns + [n]) == FirstLevelText(ns) + (if n.Text? then n.content else "")
    decreases ns
  {
    if |ns| == 0 {
      assert ns + [n] == [n];
    } else {
      assert (ns + [n])[1..] == ns[1..] + [n];
      FirstLevelTextAppend(ns[1..], n);
    }
  }

  /** Only direct text children count: a list of element and comment
      children has no first-level text, however much text they enclose. */
  lemma {:induction false} FirstLevelTextOfNoText(ns: seq<Node>)
    requires forall i :: 0 <= i < |ns| ==> !ns[i].Text?
    ensures FirstLevelText(ns) == ""
    decreases ns
  {
    if |ns| > 0 {
      FirstLevelTextOfNoText(ns[1..]);
    }
  }
}

=== FILE: efast.dfy ===
/** `Create_eFAST_Models`: the eFAST global sensitivity experiment. The
    settings give the number of resampling curves and of samples per curve;
    a dummy parameter joins the analysed ones; spartan's eFAST sampling
    script is generated, and when spartan succeeds one parameter file is
    written for every row of every curve's sample file of every parameter,
    the dummy included. Running R is outside the model: its exit code is an
    input, as is the operating system's name. */
module Efast {
  import opened Wrappers
  import opened JavaText
  import opened Dom
  import opened Numbers
  import opened Settings
  import opened SpartanScripts
  import opened ParameterFiles

  /** The dummy parameter eFAST needs, appended with type "double", minimum
      "1" and maximum "10". The increment and baseline lists are left as
      they were, one entry shorter than the others. */
  function AddDummy(c: Columns): (r: Columns)
    ensures r.parametersAnalysed == c.parametersAnalysed + ["dummy"]
    ensures r.parameterType == c.parameterType + [Some("double")]
    ensures r.minVals == c.minVals + [Some("1")] && r.maxVals == c.maxVals + [Some("10")]
    ensures r.incVals == c.incVals && r.baselineVals == c.baselineVals
  {
    c.(parametersAnalysed := c.parametersAnalysed + ["dummy"],
       parameterType := c.parameterType + [Some("double")],
       minVals := c.minVals + [Some("1")],
       maxVals := c.maxVals + [Some("10")])
  }

  /** The sample file spartan writes for one parameter on one curve. */
  function SamplePath(folder: string, curve: int, name: string): string {
    folder + "/Curve" + IntToString(curve) + "_" + name + ".csv"
  }

  /** The folder the parameter files for one parameter on one curve go to. */
  function ParameterFolder(folder: string, curve: int, name: string): string {
    folder + "/" + IntToString(curve) + "/" + name
  }

  /** The runs of one curve: one sample file per parameter, in order, every
      row read against all analysed parameters. */
  function CurveRuns(files: map<string, seq<string>>, folder: string, curve: int, todo: seq<string>,
                     analysed: seq<string>, w: Writer): (r: seq<FileRun>)
    ensures |r| == |todo|
    decreases |todo|
  {
    if |todo| == 0 then []
    else [ProcessFile(files, SamplePath(folder, curve, todo[0]), analysed, ParameterFolder(folder, curve, todo[0]), w)]
         + CurveRuns(files, folder, curve, todo[1..], analysed, w)
  }

  /** The loop over the curves `first`, ..., `curves`: one sequence of
      runs per curve, in curve order. */
  function AllCurves(files: map<string, seq<string>>, folder: string, first: int, curves: int,
                     analysed: seq<string>, w: Writer): (r: seq<seq<FileRun>>)
    ensures |r| == (if first <= curves then curves - first + 1 else 0)
    ensures forall i :: 0 <= i < |r| ==> |r[i]| == |analysed|
  {
    var count := if first <= curves then curves - first + 1 else 0;
    var r := seq(count, i requires 0 <= i < count => CurveRuns(files, folder, first + i, analysed, analysed, w));
    assert forall i :: 0 <= i < count ==> r[i] == CurveRuns(files, folder, first + i, analysed, analysed, w);
    r
  }

  /** The run of parameter `k` on curve `curve` is that parameter's own
      sample file for that curve. */
  lemma {:induction false} CurveRunsPerParameter(files: map<string, seq<string>>, folder: string, curve: int,
                                                 todo: seq<string>, analysed: seq<string>, w: Writer)
    ensures var r := CurveRuns(files, folder, curve, todo, analysed, w);
            forall k :: 0 <= k < |todo| ==>
              r[k] == ProcessFile(files, SamplePath(folder, curve, todo[k]), analysed,
                                  ParameterFolder(folder, curve, todo[k]), w)
    decreases |todo|
  {
    if |todo| > 0 {
      CurveRunsPerParameter(files, folder, curve, todo[1..], analysed, w);
      var r := CurveRuns(files, folder, curve, todo, analysed, w);
      forall k | 1 <= k < |todo|
        ensures r[k] == ProcessFile(files, SamplePath(folder, curve, todo[k]), analysed,
                                    ParameterFolder(folder, curve, todo[k]), w)
      {
        assert todo[k] == todo[1..][k - 1];
      }
    }
  }

  /** Run `k` of curve `c` reads parameter `k`'s "Curve<c>_<name>.csv" and
      writes to the folder "<c>/<name>". */
  lemma AllCurvesAt(files: map<string, seq<string>>, folder: string, first: int, curves: int,
                    analysed: seq<string>, w: Writer, c: int, k: int)
    requires first <= c <= curves && 0 <= k < |analysed|
    ensures var r := AllCurves(files, folder, first, curves, analysed, w);
            && 0 <= c - first < |r| && |r[c - first]| == |analysed|
            && r[c - first][k] == ProcessFile(files, SamplePath(folder, c, analysed[k]), analysed,
                                              ParameterFolder(folder, c, analysed[k]), w)
  {
    CurveRunsPerParameter(files, folder, c, analysed, analysed, w);
  }

  /** `numEFastSamples` after a sequence of files: a file read to the end
      sets it to its row count plus one; a file that failed leaves it. */
  function SampleCount(runs: seq<FileRun>, prior: int): int
    decreases |runs|
  {
    if |runs| == 0 then prior
    else SampleCount(runs[1..], if runs[0].failure.None? then |runs[0].jobs| + 1 else prior)
  }

  /** The count is set by the last file read to the end, or is the prior
      value when every file failed. */
  lemma {:induction false} SampleCountIsLastCompleted(runs: seq<FileRun>, prior: int)
    ensures (forall k :: 0 <= k < |runs| ==> runs[k].failure.Some?) ==> SampleCount(runs, prior) == prior
    ensures forall k :: 0 <= k < |runs| && runs[k].failure.None?
                        && (forall j :: k < j < |runs| ==> runs[j].failure.Some?) ==>
              SampleCount(runs, prior) == |runs[k].jobs| + 1
    decreases |runs|
  {
    if |runs| > 0 {
      var next := if runs[0].failure.None? then |runs[0].jobs| + 1 else prior;
      SampleCountIsLastCompleted(runs[1..], next);
      assert forall k :: 1 <= k < |runs| ==> runs[k] == runs[1..][k - 1];
      forall k | 0 <= k < |runs| && runs[k].failure.None? && (forall j :: k < j < |runs| ==> runs[j].failure.Some?)
        ensures SampleCount(runs, prior) == |runs[k].jobs| + 1
      {
        if k == 0 {
          assert forall j :: 0 <= j < |runs[1..]| ==> runs[1..][j].failure.Some?;
        } else {
          assert forall j :: k - 1 < j < |runs[1..]| ==> runs[1..][j].failure.Some?;
        }
      }
    }
  }

  /** File `k` is the last of `runs` that was read to the end. */
  predicate LastCompleted(runs: seq<FileRun>, k: int) {
    0 <= k < |runs| && runs[k].failure.None? && forall j :: k < j < |runs| ==> runs[j].failure.Some?
  }

  /** The runs of the last curve, none when there is no curve. */
  function LastCurve(curves: seq<seq<FileRun>>): seq<FileRun> {
    if |curves| == 0 then [] else curves[|curves| - 1]
  }

  /** `numEFastSamples` after the whole curve loop: the files of every
      curve in turn, starting from the field's initial value. */
  function CurvesSampleCount(curves: seq<seq<FileRun>>, prior: int): int
    decreases |curves|
  {
    if |curves| == 0 then prior
    else CurvesSampleCount(curves[1..], SampleCount(curves[0], prior))
  }

  /** When no file of any curve was read to the end, the count keeps its
      prior value. */
  lemma {:induction false} CurvesSampleCountAllFailed(curves: seq<seq<FileRun>>, prior: int)
    requires forall i, k :: 0 <= i < |curves| && 0 <= k < |curves[i]| ==> curves[i][k].failure.Some?
    ensures CurvesSampleCount(curves, prior) == prior
    decreases |curves|
  {
    if |curves| > 0 {
      SampleCountIsLastCompleted(curves[0], prior);
      assert forall i :: 1 <= i < |curves| ==> curves[1..][i - 1] == curves[i];
      CurvesSampleCountAllFailed(curves[1..], prior);
    }
  }

  /** When the last curve has a file read to the end, the count is the
      row count plus one of the last such file of that curve. */
  lemma {:induction false} CurvesSampleCountLast(curves: seq<seq<FileRun>>, prior: int, k: int)
    requires LastCompleted(LastCurve(curves), k)
    ensures CurvesSampleCount(curves, prior) == |LastCurve(curves)[k].jobs| + 1
    decreases |curves|
  {
    if |curves| == 1 {
      SampleCountIsLastCompleted(curves[0], prior);
    } else {
      assert LastCurve(curves[1..]) == LastCurve(curves);
      CurvesSampleCountLast(curves[1..], SampleCount(curves[0], prior), k);
    }
  }

  /** The files of every curve, curve by curve, in the order the loop
      visits them. */
  function Flatten(curves: seq<seq<FileRun>>): seq<FileRun>
    decreases |curves|
  {
    if |curves| == 0 then [] else curves[0] + Flatten(curves[1..])
  }

  /** Counting over two runs of files in turn is counting over the runs
      joined. */
  lemma {:induction false} SampleCountAppend(a: seq<FileRun>, b: seq<FileRun>, prior: int)
    ensures SampleCount(a + b, prior) == SampleCount(b, SampleCount(a, prior))
    decreases |a|
  {
    if |a| == 0 {
      assert a + b == b;
    } else {
      assert (a + b)[0] == a[0];
      assert (a + b)[1..] == a[1..] + b;
      SampleCountAppend(a[1..], b, if a[0].failure.None? then |a[0].jobs| + 1 else prior);
    }
  }

  /** The curve loop counts exactly as one loop over all files in visiting
      order would. */
  lemma {:induction false} CurvesSampleCountFlat(curves: seq<seq<FileRun>>, prior: int)
    ensures CurvesSampleCount(curves, prior) == SampleCount(Flatten(curves), prior)
    decreases |curves|
  {
    if |curves| > 0 {
      CurvesSampleCountFlat(curves[1..], SampleCount(curves[0], prior));
      SampleCountAppend(curves[0], Flatten(curves[1..]), prior);
    }
  }

  /** Whatever the curves, the count is set by the last file read to the
      end in curve-then-parameter order, and keeps its prior value when no
      file was. */
  lemma CurvesSampleCountIsLastCompleted(curves: seq<seq<FileRun>>, prior: int)
    ensures var all := Flatten(curves);
            && ((forall k :: 0 <= k < |all| ==> all[k].failure.Some?) ==> CurvesSampleCount(curves, prior) == prior)
            && (forall k :: LastCompleted(all, k) ==> CurvesSampleCount(curves, prior) == |all[k].jobs| + 1)
  {
    CurvesSampleCountFlat(curves, prior);
    SampleCountIsLastCompleted(Flatten(curves), prior);
  }

  /** What the constructor ends with. `readParameterInfo`'s verdict is not
      consulted, so there is no rejected-settings outcome. */
  datatype Outcome =
    | SamplingFailed(registry: Registry, script: Result<Script, Exception>)
    | Generated(registry: Registry, script: Result<Script, Exception>, runs: seq<seq<FileRun>>, numEFastSamples: int)

  /** The writer the constructor sets up from the settings. */
  function WriterOf(file: SettingsFile, documents: map<string, Tree>, codec: NumberCodec): Writer {
    Writer(GetParamBoolean(file, "sbmlFormat"), documents, GetParam(file, "pathToSimulationParameterFile"), codec)
  }

  /** The constructor: the curve and sample counts are parsed first, then
      the parameters are read for eFAST; none of their exceptions is caught.
      The dummy joins the parameters, the script is generated (its own
      exception caught), and spartan's exit code decides whether the curve
      loop runs. */
  function Create(file: SettingsFile, reg: Registry, files: map<string, seq<string>>, documents: map<string, Tree>,
                  exitCode: int, osName: string, codec: NumberCodec): (r: Result<Outcome, Exception>)
    ensures var curves := GetParamInteger(file, "efastCurves", codec);
            var samples := GetParamInteger(file, "efastCurveSamples", codec);
            var read := ReadParameterInfo(reg, "eFAST", file, codec);
            && (r.Ok? <==> curves.Ok? && samples.Ok? && read.Ok?)
            && (curves.Err? ==> r == Err(curves.error))
            && (curves.Ok? && samples.Err? ==> r == Err(samples.error))
            && (curves.Ok? && samples.Ok? && read.Err? ==> r == Err(read.error))
            && (r.Ok? ==> r.value.registry == read.value.(columns := AddDummy(read.value.columns)))
            && (r.Ok? ==> (r.value.Generated? <==> exitCode == 0))
            && (r.Ok? ==>
                  var c := r.value.registry.columns;
                  r.value.script == EfastScript(OutputFolder(file, "eFAST"), c.parametersAnalysed, curves.value, samples.value,
                                                c.minVals, c.maxVals, osName))
    ensures r.Ok? && r.value.Generated? ==>
              var c := GetParamInteger(file, "efastCurves", codec).value;
              && |r.value.runs| == (if 1 <= c then c else 0)
              && forall i :: 0 <= i < |r.value.runs| ==> |r.value.runs[i]| == |r.value.registry.columns.parametersAnalysed|
  {
    match GetParamInteger(file, "efastCurves", codec)
    case Err(e) => Err(e)
    case Ok(curves) =>
      match GetParamInteger(file, "efastCurveSamples", codec)
      case Err(e) => Err(e)
      case Ok(samples) =>
        match ReadParameterInfo(reg, "eFAST", file, codec)
        case Err(e) => Err(e)
        case Ok(reg') =>
          var folder := OutputFolder(file, "eFAST");
          var c := AddDummy(reg'.columns);
          var script := EfastScript(folder, c.parametersAnalysed, curves, samples, c.minVals, c.maxVals, osName);
          if exitCode != 0 then Ok(SamplingFailed(reg'.(columns := c), script))
          else
            var runs := AllCurves(files, folder, 1, curves, c.parametersAnalysed, WriterOf(file, documents, codec));
            Ok(Generated(reg'.(columns := c), script, runs, CurvesSampleCount(runs, 0)))
  }

  /** The eFAST script is always written once the settings have been read:
      the dummy guarantees a parameter, and the minimum and maximum lists
      stay as long as the parameter list. */
  lemma ScriptAlwaysWritten(file: SettingsFile, reg: Registry, files: map<string, seq<string>>,
                            documents: map<string, Tree>, exitCode: int, osName: string, codec: NumberCodec)
    ensures var r := Create(file, reg, files, documents, exitCode, osName, codec);
            r.Ok? ==> r.value.script.Ok? && |r.value.registry.columns.parametersAnalysed| == |file.parameters| + 1
  {
    var r := Create(file, reg, files, documents, exitCode, osName, codec);
    if r.Ok? {
      ListsStayAligned(reg, "eFAST", file, codec);
      var c := r.value.registry.columns;
      assert c == AddDummy(ReadParameterInfo(reg, "eFAST", file, codec).value.columns);
      ScriptOkWhenAligned(OutputFolder(file, "eFAST"), c.parametersAnalysed, GetParamInteger(file, "efastCurves", codec).value,
                          GetParamInteger(file, "efastCurveSamples", codec).value, c.minVals, c.maxVals, osName);
    }
  }

  /** The generator succeeds when the bounds cover every parameter and
      there is at least one. */
  lemma ScriptOkWhenAligned(folder: string, parameters: seq<string>, curves: int, samples: int,
                            minVals: seq<Option<string>>, maxVals: seq<Option<string>>, osName: string)
    requires 0 < |parameters| <= |minVals| && |parameters| <= |maxVals|
    ensures EfastScript(folder, parameters, curves, samples, minVals, maxVals, osName).Ok?
  {
    var lengths := [|minVals|, |maxVals|];
    assert forall i :: 0 <= i < |lengths| ==> lengths[i] >= |parameters|;
  }

  /** When the curve loop runs, run `k` of curve `c` (counted from 1) reads
      the `k`-th parameter's "Curve<c>_<name>.csv" against all the names,
      the dummy last, and writes to the folder "<c>/<name>". */
  lemma GeneratedRunsFollowCurves(file: SettingsFile, reg: Registry, files: map<string, seq<string>>,
                                  documents: map<string, Tree>, osName: string, codec: NumberCodec)
    ensures var r := Create(file, reg, files, documents, 0, osName, codec);
            r.Ok? ==>
              var names := r.value.registry.columns.parametersAnalysed;
              var curves := GetParamInteger(file, "efastCurves", codec).value;
              var folder := OutputFolder(file, "eFAST");
              var w := WriterOf(file, documents, codec);
              && r.value.Generated?
              && names == Texts(file.parameters) + ["dummy"]
              && (forall c, k :: 1 <= c <= curves && 0 <= k < |names| ==>
                    r.value.runs[c - 1][k] == ProcessFile(files, SamplePath(folder, c, names[k]), names,
                                                          ParameterFolder(folder, c, names[k]), w))
  {
    var r := Create(file, reg, files, documents, 0, osName, codec);
    if r.Ok? {
      ReadParameterInfoSpec(reg, "eFAST", file, codec);
      var names := r.value.registry.columns.parametersAnalysed;
      var curves := GetParamInteger(file, "efastCurves", codec).value;
      var folder := OutputFolder(file, "eFAST");
      var w := WriterOf(file, documents, codec);
      var runs := r.value.runs;
      assert runs == AllCurves(files, folder, 1, curves, names, w);
      CurveLoopLayout(files, folder, curves, names, w, runs);
    }
  }

  /** The curve loop from curve 1, entry by entry. */
  lemma CurveLoopLayout(files: map<string, seq<string>>, folder: string, curves: int, names: seq<string>, w: Writer,
                        runs: seq<seq<FileRun>>)
    requires runs == AllCurves(files, folder, 1, curves, names, w)
    ensures forall c, k :: 1 <= c <= curves && 0 <= k < |names| ==>
              runs[c - 1][k] == ProcessFile(files, SamplePath(folder, c, names[k]), names, ParameterFolder(folder, c, names[k]), w)
  {
    forall c, k | 1 <= c <= curves && 0 <= k < |names|
      ensures runs[c - 1][k] == ProcessFile(files, SamplePath(folder, c, names[k]), names, ParameterFolder(folder, c, names[k]), w)
    {
      AllCurvesAt(files, folder, 1, curves, names, w, c, k);
    }
  }

  /** The final sample count: 0 when no file of any curve was read to the
      end; otherwise the row count plus one of the last file read to the end
      in curve-then-parameter order, which is the last curve's last
      completed file when that curve has one. */
  lemma GeneratedSampleCount(file: SettingsFile, reg: Registry, files: map<string, seq<string>>,
                             documents: map<string, Tree>, osName: string, codec: NumberCodec)
    ensures var r := Create(file, reg, files, documents, 0, osName, codec);
            r.Ok? && r.value.Generated? ==>
              var runs := r.value.runs;
              && ((forall i, k :: 0 <= i < |runs| && 0 <= k < |runs[i]| ==> runs[i][k].failure.Some?) ==>
                    r.value.numEFastSamples == 0)
              && (forall k :: |runs| > 0 && LastCompleted(LastCurve(runs), k) ==>
                    r.value.numEFastSamples == |LastCurve(runs)[k].jobs| + 1)
              && (forall k :: LastCompleted(Flatten(runs), k) ==>
                    r.value.numEFastSamples == |Flatten(runs)[k].jobs| + 1)
  {
    var r := Create(file, reg, files, documents, 0, osName, codec);
    if r.Ok? && r.value.Generated? {
      var runs: seq<seq<FileRun>> := r.value.runs;
      if forall i, k :: 0 <= i < |runs| && 0 <= k < |runs[i]| ==> runs[i][k].failure.Some? {
        CurvesSampleCountAllFailed(runs, 0);
      }
      forall k | |runs| > 0 && LastCompleted(LastCurve(runs), k)
        ensures r.value.numEFastSamples == |LastCurve(runs)[k].jobs| + 1
      {
        CurvesSampleCountLast(runs, 0, k);
      }
      CurvesSampleCountIsLastCompleted(runs, 0);
    }
  }
}

=== FILE: engine.dfy ===
/** The template-instantiation engine of `WriteParameterFile_SBML`: a
    baseline SBML tree is cleaned and cloned element by element; inside
    every `listOfParameters` (attribute `value`) and, when species are being
    changed, every `listOfSpecies` (attribute `initialConcentration`), the
    direct children whose `id` is a key of the override map get the
    override value written into the target attribute.

    Element tags are taken to be valid XML names, as a parser guarantees,
    so `Document.createElement` only fails when it is handed the name of a
    text or comment node ("#text", "#comment"). */
module Engine {
  import opened Wrappers
  import opened JavaText
  import opened Numbers
  import opened Dom
  import opened SampleRows

  // ---------------------------------------------------------------------
  // checkArrayList
  // ---------------------------------------------------------------------

  /** `checkArrayList`: "yes" when `paramToFind` is one of `parameters`,
      "null" otherwise. */
  method CheckArrayList(parameters: seq<string>, paramToFind: string) returns (found: string)
    ensures found == "yes" <==> paramToFind in parameters
    ensures found == "yes" || found == "null"
  {
    found := "null";
    var param := 0;
    while param < |parameters|
      invariant 0 <= param <= |parameters|
      invariant found == "yes" <==> paramToFind in parameters[..param]
      invariant found == "yes" || found == "null"
    {
      assert parameters[..param + 1] == parameters[..param] + [parameters[param]];
      if parameters[param] == paramToFind {
        found := "yes";
      }
      param := param + 1;
    }
    assert parameters[..param] == parameters;
  }

  // ---------------------------------------------------------------------
  // Attributes: setAttribute, addAllTagAttributes and the substitution loop
  // ---------------------------------------------------------------------

  /** `Element.setAttribute`: overwrite the value of the attribute of that
      name where it stands, or add the attribute after the others. The DOM
      keeps attributes sorted by name; adding after the others is where
      that order puts it whenever names arrive in name order, as they do
      when copied from a parsed element. */
  function SetAttribute(attrs: seq<Attribute>, name: string, value: string): (r: seq<Attribute>)
    ensures name !in Names(attrs) ==> r == attrs + [Attribute(name, value)]
  {
    if |attrs| == 0 then [Attribute(name, value)]
    else if attrs[0].name == name then [Attribute(name, value)] + attrs[1..]
    else [attrs[0]] + SetAttribute(attrs[1..], name, value)
  }

  /** In a uniquely named list, setting a present attribute overwrites it
      where it stands. */
  lemma {:induction false} SetAttributeOverwrites(attrs: seq<Attribute>, name: string, value: string, i: int)
    requires UniqueNames(attrs) && 0 <= i < |attrs| && attrs[i].name == name
    ensures SetAttribute(attrs, name, value) == attrs[i := Attribute(name, value)]
    decreases |attrs|
  {
    var a := Attribute(name, value);
    if i == 0 {
      assert [a] + attrs[1..] == attrs[0 := a];
    } else {
      assert attrs[0].name != attrs[i].name;
      var rest := attrs[1..];
      assert UniqueNames(rest) by {
        forall p, q | 0 <= p < q < |rest| ensures rest[p].name != rest[q].name {
          assert rest[p] == attrs[p + 1] && rest[q] == attrs[q + 1];
        }
      }
      assert rest[i - 1] == attrs[i];
      SetAttributeOverwrites(rest, name, value, i - 1);
      ConsUpdate(attrs, i, a);
    }
  }

  /** Updating past the head of a list updates its tail. */
  lemma ConsUpdate<T>(s: seq<T>, i: int, x: T)
    requires 0 < i < |s|
    ensures [s[0]] + s[1..][i - 1 := x] == s[i := x]
  {
    var l := [s[0]] + s[1..][i - 1 := x];
    forall k | 0 <= k < |s| ensures l[k] == s[i := x][k] {
      if k > 0 {
        assert l[k] == s[1..][i - 1 := x][k - 1];
      }
    }
  }

  /** `addAllTagAttributes`: `setAttribute` for every source attribute in
      turn, onto `target`. */
  function AddAllTagAttributes(source: seq<Attribute>, target: seq<Attribute>): seq<Attribute> {
    if |source| == 0 then target
    else AddAllTagAttributes(source[1..], SetAttribute(target, source[0].name, source[0].value))
  }

  /** Names shared by no attribute of one list and any of the other. */
  predicate Disjoint(source: seq<Attribute>, target: seq<Attribute>) {
    forall i, j :: 0 <= i < |source| && 0 <= j < |target| ==> source[i].name != target[j].name
  }

  /** Moving the first source attribute onto the end of the target keeps
      the two lists apart and the rest of the source uniquely named. */
  lemma DisjointStep(source: seq<Attribute>, target: seq<Attribute>)
    requires |source| > 0 && UniqueNames(source) && Disjoint(source, target)
    ensures SetAttribute(target, source[0].name, source[0].value) == target + [source[0]]
    ensures UniqueNames(source[1..]) && Disjoint(source[1..], target + [source[0]])
  {
    assert source[0].name !in Names(target) by {
      forall j | 0 <= j < |target| ensures Names(target)[j] != source[0].name {
        assert Names(target)[j] == target[j].name;
      }
    }
    var rest := source[1..];
    var t' := target + [source[0]];
    forall i, j | 0 <= i < |rest| && 0 <= j < |t'| ensures rest[i].name != t'[j].name {
      assert rest[i] == source[i + 1];
      if j < |target| {
        assert t'[j] == target[j];
      }
    }
  }

  /** Moving the first item of `b` to the end of `a` keeps `a + b`. */
  lemma MoveFirst<T>(a: seq<T>, b: seq<T>)
    requires |b| > 0
    ensures a + [b[0]] + b[1..] == a + b
  {
    assert b == [b[0]] + b[1..];
  }

  /** Copying the attributes of an element onto a fresh element reproduces
      them exactly, in order, because a DOM element's attribute names are
      distinct. */
  lemma {:induction false} AddAllCopies(source: seq<Attribute>, target: seq<Attribute>)
    requires UniqueNames(source)
    requires Disjoint(source, target)
    ensures AddAllTagAttributes(source, target) == target + source
  {
    if |source| > 0 {
      DisjointStep(source, target);
      AddAllCopies(source[1..], target + [source[0]]);
      MoveFirst(target, source);
    }
  }

  /** The attribute `findAndSetTagValues` rewrites in the children of a
      container with this tag, if any. */
  function SubstitutionTarget(tag: string, speciesChange: bool): Option<string> {
    if tag == "listOfSpecies" then (if speciesChange then Some("initialConcentration") else None)
    else if tag == "listOfParameters" then Some("value")
    else None
  }

  /** The attribute loop of `findAndSetTagValues`: `tracked` is the last
      `id` value seen so far in this element, `built` the clone's
      attributes so far. */
  function SubstituteAttributes(attrs: seq<Attribute>, m: Overrides, target: string, codec: NumberCodec,
                                tracked: string, built: seq<Attribute>): seq<Attribute>
  {
    if |attrs| == 0 then built
    else
      var a := attrs[0];
      if a.name == "id" then
        SubstituteAttributes(attrs[1..], m, target, codec, a.value, SetAttribute(built, "id", a.value))
      else if a.name != target then
        SubstituteAttributes(attrs[1..], m, target, codec, tracked, SetAttribute(built, a.name, a.value))
      else if tracked in m then
        SubstituteAttributes(attrs[1..], m, target, codec, tracked, SetAttribute(built, target, codec.formatDouble(m[tracked])))
      else
        SubstituteAttributes(attrs[1..], m, target, codec, tracked, SetAttribute(built, a.name, a.value))
  }

  /** The `id` in force at position `k`: the value of the last `id` among
      the first `k` attributes, or "" when there is none. */
  function IdBefore(attrs: seq<Attribute>, k: nat): string
    requires k <= |attrs|
  {
    if k == 0 then ""
    else if attrs[k - 1].name == "id" then attrs[k - 1].value
    else IdBefore(attrs, k - 1)
  }

  /** What position `k` of a container child becomes: the target attribute
      carries the override of the `id` in force there, when that `id` is a
      key; every other attribute is itself. */
  function SubstitutedAt(attrs: seq<Attribute>, k: nat, m: Overrides, target: string, codec: NumberCodec): Attribute
    requires k < |attrs|
  {
    var a := attrs[k];
    if a.name != "id" && a.name == target && IdBefore(attrs, k) in m then
      Attribute(target, codec.formatDouble(m[IdBefore(attrs, k)]))
    else a
  }

  /** The declarative description of a container child's attributes after
      substitution, position by position. */
  function Substituted(attrs: seq<Attribute>, m: Overrides, target: string, codec: NumberCodec): (r: seq<Attribute>)
    ensures |r| == |attrs|
  {
    seq(|attrs|, k requires 0 <= k < |attrs| => SubstitutedAt(attrs, k, m, target, codec))
  }

  /** Substitution renames nothing: the attribute names stay as they were. */
  lemma SubstitutedKeepsNames(attrs: seq<Attribute>, m: Overrides, target: string, codec: NumberCodec)
    ensures Names(Substituted(attrs, m, target, codec)) == Names(attrs)
  {
  }

  /** The attribute loop computes the declarative description: with the
      tracked id starting at "" for every child, the target attribute is
      overridden exactly when the `id` seen before it is a key of the map,
      and every other attribute is copied unchanged and in place. */
  lemma SubstituteAttributesCorrect(attrs: seq<Attribute>, m: Overrides, target: string, codec: NumberCodec)
    requires UniqueNames(attrs)
    ensures SubstituteAttributes(attrs, m, target, codec, "", []) == Substituted(attrs, m, target, codec)
  {
    SubstituteFrom(attrs, 0, m, target, codec);
    assert attrs[0..] == attrs;
  }

  lemma {:induction false} SubstituteFrom(attrs: seq<Attribute>, j: nat, m: Overrides, target: string, codec: NumberCodec)
    requires UniqueNames(attrs)
    requires j <= |attrs|
    ensures SubstituteAttributes(attrs[j..], m, target, codec, IdBefore(attrs, j), Substituted(attrs, m, target, codec)[..j])
            == Substituted(attrs, m, target, codec)
    decreases |attrs| - j
  {
    var s := Substituted(attrs, m, target, codec);
    if j == |attrs| {
      assert s[..j] == s;
    } else {
      SubstituteOneStep(attrs, j, m, target, codec, s[..j]);
      SubstitutedPrefixGrows(attrs, j, m, target, codec);
      SubstituteFrom(attrs, j + 1, m, target, codec);
    }
  }

  /** One turn of the attribute loop at position `j`, with the `id` in force
      there tracked, appends what position `j` becomes. */
  lemma SubstituteOneStep(attrs: seq<Attribute>, j: nat, m: Overrides, target: string, codec: NumberCodec,
                          built: seq<Attribute>)
    requires j < |attrs|
    ensures var s := Substituted(attrs, m, target, codec);
            SubstituteAttributes(attrs[j..], m, target, codec, IdBefore(attrs, j), built)
            == SubstituteAttributes(attrs[j + 1..], m, target, codec, IdBefore(attrs, j + 1),
                                    SetAttribute(built, s[j].name, s[j].value))
  {
    assert attrs[j..][0] == attrs[j] && attrs[j..][1..] == attrs[j + 1..];
  }

  /** Setting the attribute position `j` becomes onto the substituted
      prefix before it appends it, since the names are distinct. */
  lemma SubstitutedPrefixGrows(attrs: seq<Attribute>, j: nat, m: Overrides, target: string, codec: NumberCodec)
    requires UniqueNames(attrs)
    requires j < |attrs|
    ensures var s := Substituted(attrs, m, target, codec);
            SetAttribute(s[..j], s[j].name, s[j].value) == s[..j + 1]
  {
    var s := Substituted(attrs, m, target, codec);
    var built := s[..j];
    assert built[..] == built;
    assert s[j].name == attrs[j].name;
    assert s[j].name !in Names(built) by {
      forall i | 0 <= i < |built| ensures Names(built)[i] != s[j].name {
        assert Names(built)[i] == built[i].name == attrs[i].name;
      }
    }
    assert s[..j + 1] == built + [s[j]];
  }

  /** With no overrides, substitution leaves the attributes as they are. */
  lemma SubstitutedEmptyMap(attrs: seq<Attribute>, target: string, codec: NumberCodec)
    ensures Substituted(attrs, map[], target, codec) == attrs
  {
  }

  // ---------------------------------------------------------------------
  // processChildNodes and findAndSetTagValues
  // ---------------------------------------------------------------------

  /** The text child `setTextContent` gives a clone: the first-level text
      of the original, when it is not empty. */
  function Lead(ns: seq<Node>): seq<Node> {
    if |FirstLevelText(ns)| > 0 then [Text(FirstLevelText(ns))] else []
  }

  /** `processChildNodes`: every child that is not a text node is cloned,
      in order; the first failure aborts the whole list. */
  function CloneChildren(ns: seq<Node>, m: Overrides, speciesChange: bool, codec: NumberCodec): (r: Result<seq<Node>, Exception>)
    ensures r.Err? ==> r.error.InvalidCharacter? && r.error.name in {"#text", "#comment"}
    decreases ns
  {
    if |ns| == 0 then Ok([])
    else if NodeName(ns[0]) == "#text" then CloneChildren(ns[1..], m, speciesChange, codec)
    else
      var head := CloneNode(ns[0], m, speciesChange, codec);
      if head.Err? then Err(head.error)
      else
        var rest := CloneChildren(ns[1..], m, speciesChange, codec);
        if rest.Err? then Err(rest.error)
        else Ok([head.value] + rest.value)
  }

  /** The body of the `processChildNodes` loop for one child: same tag,
      same attributes, the first-level text first, then the children,
      substituted when the tag is a container. */
  function CloneNode(n: Node, m: Overrides, speciesChange: bool, codec: NumberCodec): (r: Result<Node, Exception>)
    ensures r.Err? ==> r.error.InvalidCharacter? && r.error.name in {"#text", "#comment"}
    decreases n, 1
  {
    match n
    case Element(tag, attrs, cs) =>
      var kids :=
        match SubstitutionTarget(tag, speciesChange)
        case Some(target) => SubstituteChildren(cs, m, speciesChange, target, codec)
        case None => CloneChildren(cs, m, speciesChange, codec);
      if kids.Err? then Err(kids.error)
      else Ok(Element(tag, AddAllTagAttributes(attrs, []), Lead(cs) + kids.value))
    case _ => Err(InvalidCharacter(NodeName(n)))
  }

  /** `findAndSetTagValues`: every child of the container, text nodes
      included, becomes an element of the same name. */
  function SubstituteChildren(ns: seq<Node>, m: Overrides, speciesChange: bool, target: string, codec: NumberCodec)
    : (r: Result<seq<Node>, Exception>)
    ensures r.Err? ==> r.error.InvalidCharacter? && r.error.name in {"#text", "#comment"}
    decreases ns
  {
    if |ns| == 0 then Ok([])
    else
      var head := SubstituteNode(ns[0], m, speciesChange, target, codec);
      if head.Err? then Err(head.error)
      else
        var rest := SubstituteChildren(ns[1..], m, speciesChange, target, codec);
        if rest.Err? then Err(rest.error)
        else Ok([head.value] + rest.value)
  }

  /** One container child: attributes through the substitution loop, its
      children through `processChildNodes`, its own text not copied. */
  function SubstituteNode(n: Node, m: Overrides, speciesChange: bool, target: string, codec: NumberCodec)
    : (r: Result<Node, Exception>)
    ensures r.Err? ==> r.error.InvalidCharacter? && r.error.name in {"#text", "#comment"}
    decreases n, 1
  {
    match n
    case Element(tag, attrs, cs) =>
      var kids := CloneChildren(cs, m, speciesChange, codec);
      if kids.Err? then Err(kids.error)
      else Ok(Element(tag, SubstituteAttributes(attrs, m, target, codec, "", []), kids.value))
    case _ => Err(InvalidCharacter(NodeName(n)))
  }

  // ---------------------------------------------------------------------
  // writeSimParameterFiles
  // ---------------------------------------------------------------------

  /** A parameter file the engine would write: where, and what. */
  datatype Written = Written(path: string, document: Node)

  /** The tree and path part of `writeSimParameterFiles`. The baseline
      documents are given already parsed, by path; a path that is absent
      could not be read or parsed. The root is cleaned, its tag and
      attributes copied (not its text), and its children go through
      `processChildNodes` with species changes always on. The sample number
      and analysis name the source also receives play no part. */
  function WriteSimParameterFiles(documents: map<string, Tree>, calibratedParamFilePath: string, m: Overrides,
                                  outputFolder: string, parameterFileName: Option<string>, codec: NumberCodec)
    : (r: Result<Written, Exception>)
    ensures calibratedParamFilePath !in documents <==> r == Err(DocumentUnreadable(calibratedParamFilePath))
    ensures r.Ok? ==> r.value.path == outputFolder + "/" + Str(parameterFileName)
    ensures r.Ok? ==> r.value.document.Element?
  {
    if calibratedParamFilePath !in documents then Err(DocumentUnreadable(calibratedParamFilePath))
    else
      var root := Clean(documents[calibratedParamFilePath]);
      var kids := CloneChildren(root.children, m, true, codec);
      if kids.Err? then Err(kids.error)
      else Ok(Written(outputFolder + "/" + Str(parameterFileName),
                      Element(root.tag, AddAllTagAttributes(root.attributes, []), kids.value)))
  }

  // ---------------------------------------------------------------------
  // What a clone is: a declarative correspondence between input and output
  // ---------------------------------------------------------------------

  /** `copy` is the clone of the element `orig` met in context `ctx`:
      `None` when `orig` is handled by `processChildNodes`, `Some(t)` when it
      is a direct child of a container whose attribute `t` is substituted.
      A plain clone keeps the attributes, puts the first-level text first
      and relates its children in the context the tag selects; a container
      child's attributes are substituted, its text is dropped and its
      children are plain clones. */
  ghost predicate Instance(copy: Node, orig: Node, m: Overrides, sp: bool, ctx: Option<string>, codec: NumberCodec)
    decreases orig, 1
  {
    orig.Element? && copy.Element? && copy.tag == orig.tag &&
    match ctx
    case None =>
      var k := |Lead(orig.children)|;
      copy.attributes == orig.attributes
      && k <= |copy.children| && copy.children[..k] == Lead(orig.children)
      && Instances(copy.children[k..], orig.children, m, sp, SubstitutionTarget(orig.tag, sp), codec)
    case Some(t) =>
      copy.attributes == Substituted(orig.attributes, m, t, codec)
      && Instances(copy.children, orig.children, m, sp, None, codec)
  }

  /** The copies are the clones of the element children of `origs`, one
      each and in order. */
  ghost predicate Instances(copies: seq<Node>, origs: seq<Node>, m: Overrides, sp: bool, ctx: Option<string>, codec: NumberCodec)
    decreases origs, 0
  {
    var es := Elements(origs);
    |copies| == |es| && forall i :: 0 <= i < |copies| ==> Instance(copies[i], es[i], m, sp, ctx, codec)
  }

  /** Every clone `processChildNodes` produces is faithful. */
  lemma {:induction false} CloneChildrenFaithful(ns: seq<Node>, m: Overrides, sp: bool, codec: NumberCodec)
    requires forall i :: 0 <= i < |ns| ==> WellFormed(ns[i])
    ensures CloneChildren(ns, m, sp, codec).Ok? ==> Instances(CloneChildren(ns, m, sp, codec).value, ns, m, sp, None, codec)
    decreases ns
  {
    if |ns| > 0 {
      CloneChildrenFaithful(ns[1..], m, sp, codec);
      var r := CloneChildren(ns, m, sp, codec);
      var rest := CloneChildren(ns[1..], m, sp, codec);
      if r.Ok? {
        if NodeName(ns[0]) == "#text" {
          assert !ns[0].Element?;
          InstancesSkip(r.value, ns, m, sp, None, codec);
        } else {
          var head := CloneNode(ns[0], m, sp, codec);
          CloneNodeFaithful(ns[0], m, sp, codec);
          assert r.value == [head.value] + rest.value;
          InstancesCons(head.value, rest.value, ns, m, sp, None, codec);
        }
      }
    }
  }

  /** A clone followed by the clones of the rest are the clones of a list
      that starts with an element. */
  lemma InstancesCons(c: Node, copies: seq<Node>, ns: seq<Node>, m: Overrides, sp: bool, ctx: Option<string>, codec: NumberCodec)
    requires |ns| > 0 && ns[0].Element?
    requires Instance(c, ns[0], m, sp, ctx, codec) && Instances(copies, ns[1..], m, sp, ctx, codec)
    ensures Instances([c] + copies, ns, m, sp, ctx, codec)
  {
    var es := Elements(ns);
    assert es == [ns[0]] + Elements(ns[1..]);
    forall i | 0 <= i < |[c] + copies|
      ensures Instance(([c] + copies)[i], es[i], m, sp, ctx, codec)
    {
      if i > 0 {
        assert ([c] + copies)[i] == copies[i - 1];
      }
    }
  }

  /** A list that starts with a non-element has the clones of its rest. */
  lemma InstancesSkip(copies: seq<Node>, ns: seq<Node>, m: Overrides, sp: bool, ctx: Option<string>, codec: NumberCodec)
    requires |ns| > 0 && !ns[0].Element?
    requires Instances(copies, ns[1..], m, sp, ctx, codec)
    ensures Instances(copies, ns, m, sp, ctx, codec)
  {
    assert Elements(ns) == Elements(ns[1..]);
  }

  lemma {:induction false} CloneNodeFaithful(n: Node, m: Overrides, sp: bool, codec: NumberCodec)
    requires WellFormed(n)
    ensures CloneNode(n, m, sp, codec).Ok? ==> Instance(CloneNode(n, m, sp, codec).value, n, m, sp, None, codec)
    decreases n, 1
  {
    if n.Element? {
      AddAllCopies(n.attributes, []);
      assert [] + n.attributes == n.attributes;
      var target := SubstitutionTarget(n.tag, sp);
      if target.Some? {
        SubstituteChildrenFaithful(n.children, m, sp, target.value, codec);
      } else {
        CloneChildrenFaithful(n.children, m, sp, codec);
      }
      var r := CloneNode(n, m, sp, codec);
      if r.Ok? {
        var lead := Lead(n.children);
        var kids := r.value.children[|lead|..];
        assert r.value.children == lead + kids;
        assert r.value.children[..|lead|] == lead;
      }
    }
  }

  /** Every clone `findAndSetTagValues` produces is faithful, and it only
      succeeds on a container whose children are all elements. */
  lemma {:induction false} SubstituteChildrenFaithful(ns: seq<Node>, m: Overrides, sp: bool, target: string, codec: NumberCodec)
    requires forall i :: 0 <= i < |ns| ==> WellFormed(ns[i])
    ensures var r := SubstituteChildren(ns, m, sp, target, codec);
            r.Ok? ==> Elements(ns) == ns && Instances(r.value, ns, m, sp, Some(target), codec)
    decreases ns
  {
    if |ns| > 0 {
      SubstituteChildrenFaithful(ns[1..], m, sp, target, codec);
      SubstituteNodeFaithful(ns[0], m, sp, target, codec);
      var r := SubstituteChildren(ns, m, sp, target, codec);
      if r.Ok? {
        var head := SubstituteNode(ns[0], m, sp, target, codec);
        var rest := SubstituteChildren(ns[1..], m, sp, target, codec);
        assert r.value == [head.value] + rest.value;
        assert Elements(ns) == [ns[0]] + Elements(ns[1..]);
        assert [ns[0]] + ns[1..] == ns;
        InstancesCons(head.value, rest.value, ns, m, sp, Some(target), codec);
      }
    }
  }

  lemma {:induction false} SubstituteNodeFaithful(n: Node, m: Overrides, sp: bool, target: string, codec: NumberCodec)
    requires WellFormed(n)
    ensures SubstituteNode(n, m, sp, target, codec).Ok? ==> Instance(SubstituteNode(n, m, sp, target, codec).value, n, m, sp, Some(target), codec)
    decreases n, 1
  {
    if n.Element? {
      SubstituteAttributesCorrect(n.attributes, m, target, codec);
      CloneChildrenFaithful(n.children, m, sp, codec);
    }
  }

  /** A written parameter file is the cleaned baseline's root, tag and
      attributes verbatim, over faithful clones of its children. */
  lemma WriteSimParameterFilesFaithful(documents: map<string, Tree>, calibratedParamFilePath: string, m: Overrides,
                                       outputFolder: string, parameterFileName: Option<string>, codec: NumberCodec)
    requires calibratedParamFilePath in documents && WellFormed(documents[calibratedParamFilePath])
    ensures var r := WriteSimParameterFiles(documents, calibratedParamFilePath, m, outputFolder, parameterFileName, codec);
            var root := Clean(documents[calibratedParamFilePath]);
            r.Ok? ==>
              r.value.document.tag == root.tag && r.value.document.attributes == root.attributes
              && Instances(r.value.document.children, root.children, m, true, None, codec)
  {
    var root := Clean(documents[calibratedParamFilePath]);
    CleanKeepsWellFormed(documents[calibratedParamFilePath]);
    AddAllCopies(root.attributes, []);
    assert [] + root.attributes == root.attributes;
    CloneChildrenFaithful(root.children, m, true, codec);
  }

  // ---------------------------------------------------------------------
  // Dispatch by container
  // ---------------------------------------------------------------------

  /** A `listOfParameters` clone, whatever the species flag, holds its
      children in order with `value` substituted and nothing else changed. */
  lemma ParametersAlwaysSubstituted(n: Node, m: Overrides, sp: bool, codec: NumberCodec)
    requires WellFormed(n) && n.Element? && n.tag == "listOfParameters"
    ensures var r := CloneNode(n, m, sp, codec);
            r.Ok? ==>
              |r.value.children| == |n.children|
              && forall i :: 0 <= i < |n.children| ==>
                   NodeName(r.value.children[i]) == NodeName(n.children[i])
                   && r.value.children[i].Element? && n.children[i].Element?
                   && r.value.children[i].attributes == Substituted(n.children[i].attributes, m, "value", codec)
  {
    var r := CloneNode(n, m, sp, codec);
    if r.Ok? {
      SubstituteChildrenFaithful(n.children, m, sp, "value", codec);
      var kids := SubstituteChildren(n.children, m, sp, "value", codec).value;
      assert forall i :: 0 <= i < |n.children| ==> !n.children[i].Text?;
      FirstLevelTextOfNoText(n.children);
      assert r.value.children == kids;
      InstancesAll(kids, n.children, m, sp, Some("value"), codec);
    }
  }

  /** A `listOfSpecies` clone has `initialConcentration` substituted in its
      children when species are being changed, and is a plain copy, with
      its children's attributes verbatim, when they are not. */
  lemma SpeciesSubstitutedOnlyWhenFlagged(n: Node, m: Overrides, sp: bool, codec: NumberCodec)
    requires WellFormed(n) && n.Element? && n.tag == "listOfSpecies"
    ensures var r := CloneNode(n, m, sp, codec);
            var k := |Lead(n.children)|;
            var es := Elements(n.children);
            r.Ok? ==>
              k <= |r.value.children| && |r.value.children| == k + |es|
              && forall i :: 0 <= i < |es| ==>
                   r.value.children[k + i].Element? && r.value.children[k + i].tag == es[i].tag
                   && r.value.children[k + i].attributes
                      == (if sp then Substituted(es[i].attributes, m, "initialConcentration", codec) else es[i].attributes)
  {
    var r := CloneNode(n, m, sp, codec);
    if r.Ok? {
      CloneNodeShape(n, m, sp, codec);
      var k := |Lead(n.children)|;
      var es := Elements(n.children);
      var rest := r.value.children[k..];
      var ctx := SubstitutionTarget(n.tag, sp);
      assert ctx == (if sp then Some("initialConcentration") else None);
      InstancesAll(rest, n.children, m, sp, ctx, codec);
      assert forall i :: 0 <= i < |es| ==> r.value.children[k + i] == rest[i];
    }
  }

  /** A successful clone of an element: its first-level text, then the
      clones of its element children in the context its tag selects. */
  lemma CloneNodeShape(n: Node, m: Overrides, sp: bool, codec: NumberCodec)
    requires WellFormed(n) && n.Element?
    ensures var r := CloneNode(n, m, sp, codec);
            var k := |Lead(n.children)|;
            r.Ok? ==>
              k <= |r.value.children| && r.value.children[..k] == Lead(n.children)
              && Instances(r.value.children[k..], n.children, m, sp, SubstitutionTarget(n.tag, sp), codec)
  {
    CloneNodeFaithful(n, m, sp, codec);
  }

  /** The clones of a list, entry by entry. */
  lemma InstancesAll(copies: seq<Node>, origs: seq<Node>, m: Overrides, sp: bool, ctx: Option<string>, codec: NumberCodec)
    requires Instances(copies, origs, m, sp, ctx, codec)
    ensures var es := Elements(origs);
            && |copies| == |es|
            && forall i :: 0 <= i < |es| ==>
                 copies[i].Element? && copies[i].tag == es[i].tag
                 && copies[i].attributes == (if ctx.Some? then Substituted(es[i].attributes, m, ctx.value, codec) else es[i].attributes)
  {
    forall i | 0 <= i < |Elements(origs)| {
      InstancesAt(copies, origs, m, sp, ctx, codec, i);
    }
  }

  /** Entry `i` of the clones of a list is its `i`-th element with the
      same tag, its attributes substituted exactly when in a container. */
  lemma InstancesAt(copies: seq<Node>, origs: seq<Node>, m: Overrides, sp: bool, ctx: Option<string>,
                    codec: NumberCodec, i: int)
    requires Instances(copies, origs, m, sp, ctx, codec)
    requires 0 <= i < |Elements(origs)|
    ensures var e := Elements(origs)[i];
            && |copies| == |Elements(origs)|
            && copies[i].Element? && copies[i].tag == e.tag
            && copies[i].attributes == (if ctx.Some? then Substituted(e.attributes, m, ctx.value, codec) else e.attributes)
  {
    assert Instance(copies[i], Elements(origs)[i], m, sp, ctx, codec);
  }

  // ---------------------------------------------------------------------
  // When the clone succeeds
  // ---------------------------------------------------------------------

  /** The context the children of an element are met in: a plain element
      selects by its tag, a container child's children are plain. */
  function ChildContext(tag: string, sp: bool, ctx: Option<string>): Option<string> {
    if ctx.None? then SubstitutionTarget(tag, sp) else None
  }

  /** The lists the clone succeeds on, met in context `ctx`: no comment
      anywhere, and no text directly inside a container. */
  ghost predicate Clonable(ns: seq<Node>, sp: bool, ctx: Option<string>)
    decreases ns
  {
    forall i :: 0 <= i < |ns| ==>
      !ns[i].Comment? && (ctx.Some? ==> ns[i].Element?)
      && (ns[i].Element? ==> Clonable(ns[i].children, sp, ChildContext(ns[i].tag, sp, ctx)))
  }

  /** `processChildNodes` succeeds exactly on clonable lists. */
  lemma {:induction false} CloneChildrenSucceeds(ns: seq<Node>, m: Overrides, sp: bool, codec: NumberCodec)
    requires forall i :: 0 <= i < |ns| ==> WellFormed(ns[i])
    ensures CloneChildren(ns, m, sp, codec).Ok? <==> Clonable(ns, sp, None)
    decreases ns
  {
    if |ns| > 0 {
      CloneChildrenSucceeds(ns[1..], m, sp, codec);
      assert Clonable(ns, sp, None) <==>
        (!ns[0].Comment? && (ns[0].Element? ==> Clonable(ns[0].children, sp, SubstitutionTarget(ns[0].tag, sp))))
        && Clonable(ns[1..], sp, None) by {
        if Clonable(ns[1..], sp, None) && !ns[0].Comment?
           && (ns[0].Element? ==> Clonable(ns[0].children, sp, SubstitutionTarget(ns[0].tag, sp))) {
          forall i | 1 <= i < |ns|
            ensures !ns[i].Comment? && (ns[i].Element? ==> Clonable(ns[i].children, sp, SubstitutionTarget(ns[i].tag, sp)))
          {
            assert ns[i] == ns[1..][i - 1];
          }
        }
      }
      if ns[0].Element? {
        var target := SubstitutionTarget(ns[0].tag, sp);
        if target.Some? {
          SubstituteChildrenSucceeds(ns[0].children, m, sp, target.value, codec);
        } else {
          CloneChildrenSucceeds(ns[0].children, m, sp, codec);
        }
      }
    }
  }

  /** `findAndSetTagValues` succeeds exactly when every child is an element
      whose own children are clonable. */
  lemma {:induction false} SubstituteChildrenSucceeds(ns: seq<Node>, m: Overrides, sp: bool, target: string, codec: NumberCodec)
    requires forall i :: 0 <= i < |ns| ==> WellFormed(ns[i])
    ensures SubstituteChildren(ns, m, sp, target, codec).Ok? <==> Clonable(ns, sp, Some(target))
    decreases ns
  {
    if |ns| > 0 {
      SubstituteChildrenSucceeds(ns[1..], m, sp, target, codec);
      assert Clonable(ns, sp, Some(target)) <==>
        (ns[0].Element? && Clonable(ns[0].children, sp, None)) && Clonable(ns[1..], sp, Some(target)) by {
        if Clonable(ns[1..], sp, Some(target)) && ns[0].Element? && Clonable(ns[0].children, sp, None) {
          forall i | 1 <= i < |ns|
            ensures ns[i].Element? && Clonable(ns[i].children, sp, None)
          {
            assert ns[i] == ns[1..][i - 1];
          }
        }
      }
      if ns[0].Element? {
        CloneChildrenSucceeds(ns[0].children, m, sp, codec);
      }
    }
  }

  // ---------------------------------------------------------------------
  // Same skeleton
  // ---------------------------------------------------------------------

  /** The skeleton of an element: its tag, its attribute names and the
      skeletons of its element children, in order. */
  datatype Shape = Shape(tag: string, names: seq<string>, children: seq<Shape>)

  function ShapeOf(n: Node): Shape
    decreases n, 1
  {
    match n
    case Element(tag, attrs, cs) => Shape(tag, Names(attrs), ShapesOf(cs))
    case _ => Shape("", [], [])
  }

  function ShapesOf(ns: seq<Node>): seq<Shape>
    decreases ns, 0
  {
    var es := Elements(ns);
    seq(|es|, i requires 0 <= i < |es| => ShapeOf(es[i]))
  }

  /** A clone has the skeleton of its original: same tag, same attribute
      names in the same order, same element children in the same order. */
  lemma {:induction false} InstanceKeepsShape(copy: Node, orig: Node, m: Overrides, sp: bool, ctx: Option<string>, codec: NumberCodec)
    requires Instance(copy, orig, m, sp, ctx, codec)
    ensures ShapeOf(copy) == ShapeOf(orig)
    decreases orig, 1
  {
    match ctx
    case None =>
      var k := |Lead(orig.children)|;
      var rest := copy.children[k..];
      InstancesKeepShapes(rest, orig.children, m, sp, SubstitutionTarget(orig.tag, sp), codec);
      assert copy.children == Lead(orig.children) + rest;
      ElementsAppend(Lead(orig.children), rest);
      assert Elements(Lead(orig.children)) == [];
      ElementsOfElements(rest);
      assert ShapesOf(copy.children) == ShapesOf(rest);
    case Some(t) =>
      SubstitutedKeepsNames(orig.attributes, m, t, codec);
      InstancesKeepShapes(copy.children, orig.children, m, sp, None, codec);
      ElementsOfElements(copy.children);
  }

  lemma {:induction false} InstancesKeepShapes(copies: seq<Node>, origs: seq<Node>, m: Overrides, sp: bool, ctx: Option<string>, codec: NumberCodec)
    requires Instances(copies, origs, m, sp, ctx, codec)
    ensures forall i :: 0 <= i < |copies| ==> copies[i].Element?
    ensures ShapesOf(copies) == ShapesOf(origs)
    decreases origs, 0
  {
    var es := Elements(origs);
    forall i | 0 <= i < |copies| ensures ShapeOf(copies[i]) == ShapeOf(es[i]) {
      InstanceKeepsShape(copies[i], es[i], m, sp, ctx, codec);
    }
    ElementsOfElements(copies);
  }

  /** A written parameter file has the skeleton of the cleaned baseline. */
  lemma WriteKeepsShape(documents: map<string, Tree>, calibratedParamFilePath: string, m: Overrides,
                        outputFolder: string, parameterFileName: Option<string>, codec: NumberCodec)
    requires calibratedParamFilePath in documents && WellFormed(documents[calibratedParamFilePath])
    ensures var r := WriteSimParameterFiles(documents, calibratedParamFilePath, m, outputFolder, parameterFileName, codec);
            r.Ok? ==> ShapeOf(r.value.document) == ShapeOf(Clean(documents[calibratedParamFilePath]))
  {
    WriteSimParameterFilesFaithful(documents, calibratedParamFilePath, m, outputFolder, parameterFileName, codec);
    var r := WriteSimParameterFiles(documents, calibratedParamFilePath, m, outputFolder, parameterFileName, codec);
    if r.Ok? {
      InstancesKeepShapes(r.value.document.children, Clean(documents[calibratedParamFilePath]).children, m, true, None, codec);
    }
  }

  // ---------------------------------------------------------------------
  // Where the overrides and the species flag matter
  // ---------------------------------------------------------------------

  /** No element anywhere in the list's subtrees has one of these tags. */
  ghost predicate Avoids(ns: seq<Node>, tags: set<string>)
    decreases ns
  {
    forall i :: 0 <= i < |ns| && ns[i].Element? ==> ns[i].tag !in tags && Avoids(ns[i].children, tags)
  }

  /** Substitution happens only inside containers: a subtree without
      `listOfParameters` or `listOfSpecies` clones the same whatever the
      overrides and the species flag. */
  lemma {:induction false} OverridesNeedContainers(ns: seq<Node>, m: Overrides, m': Overrides, sp: bool, sp': bool, codec: NumberCodec)
    requires Avoids(ns, {"listOfParameters", "listOfSpecies"})
    ensures CloneChildren(ns, m, sp, codec) == CloneChildren(ns, m', sp', codec)
    decreases ns
  {
    if |ns| > 0 {
      assert Avoids(ns[1..], {"listOfParameters", "listOfSpecies"}) by {
        forall i | 0 <= i < |ns[1..]| ensures ns[1..][i] == ns[i + 1] {
        }
      }
      OverridesNeedContainers(ns[1..], m, m', sp, sp', codec);
      if ns[0].Element? {
        OverridesNeedContainers(ns[0].children, m, m', sp, sp', codec);
      }
    }
  }

  /** The species flag only matters where there is a `listOfSpecies`. */
  lemma {:induction false} SpeciesFlagNeedsSpecies(ns: seq<Node>, m: Overrides, codec: NumberCodec)
    requires Avoids(ns, {"listOfSpecies"})
    ensures CloneChildren(ns, m, true, codec) == CloneChildren(ns, m, false, codec)
    ensures forall t :: SubstituteChildren(ns, m, true, t, codec) == SubstituteChildren(ns, m, false, t, codec)
    decreases ns
  {
    if |ns| > 0 {
      assert Avoids(ns[1..], {"listOfSpecies"}) by {
        forall i | 0 <= i < |ns[1..]| ensures ns[1..][i] == ns[i + 1] {
        }
      }
      SpeciesFlagNeedsSpecies(ns[1..], m, codec);
      if ns[0].Element? {
        SpeciesFlagNeedsSpecies(ns[0].children, m, codec);
        assert SubstitutionTarget(ns[0].tag, true) == SubstitutionTarget(ns[0].tag, false);
        assert CloneNode(ns[0], m, true, codec) == CloneNode(ns[0], m, false, codec);
        forall t ensures SubstituteNode(ns[0], m, true, t, codec) == SubstituteNode(ns[0], m, false, t, codec) {
        }
      }
      forall t ensures SubstituteChildren(ns, m, true, t, codec) == SubstituteChildren(ns, m, false, t, codec) {
      }
    }
  }

  // ---------------------------------------------------------------------
  // No overrides: the clone is the original
  // ---------------------------------------------------------------------

  /** Trees the clone reproduces exactly when there is nothing to override:
      every list met in context `ctx` has no comment; a plain element holds
      at most one leading text, a container and a container's child hold
      only elements. */
  ghost predicate Canonical(ns: seq<Node>, sp: bool, ctx: Option<string>)
    decreases ns
  {
    forall i :: 0 <= i < |ns| ==>
      !ns[i].Comment?
      && (ns[i].Element? ==>
            var cs := ns[i].children;
            (if ctx.None? && SubstitutionTarget(ns[i].tag, sp).None?
             then cs == Lead(cs) + Elements(cs)
             else cs == Elements(cs))
            && Canonical(cs, sp, ChildContext(ns[i].tag, sp, ctx)))
  }

  /** With no overrides `processChildNodes` reproduces the element children
      of a canonical list. */
  lemma {:induction false} CloneCanonical(ns: seq<Node>, sp: bool, codec: NumberCodec)
    requires forall i :: 0 <= i < |ns| ==> WellFormed(ns[i])
    requires Canonical(ns, sp, None)
    ensures CloneChildren(ns, map[], sp, codec) == Ok(Elements(ns))
    decreases ns
  {
    if |ns| > 0 {
      assert Canonical(ns[1..], sp, None) by {
        forall i | 0 <= i < |ns[1..]| ensures ns[1..][i] == ns[i + 1] {
        }
      }
      CloneCanonical(ns[1..], sp, codec);
      var n := ns[0];
      if n.Element? {
        var cs := n.children;
        AddAllCopies(n.attributes, []);
        assert [] + n.attributes == n.attributes;
        var target := SubstitutionTarget(n.tag, sp);
        if target.Some? {
          SubstituteCanonical(cs, sp, target.value, codec);
          assert |Lead(cs)| == 0 by {
            FirstLevelTextOfNoText(cs);
          }
          assert Lead(cs) + cs == cs;
        } else {
          CloneCanonical(cs, sp, codec);
        }
        assert CloneNode(n, map[], sp, codec) == Ok(n);
        assert Elements(ns) == [n] + Elements(ns[1..]);
      }
    }
  }

  /** With no overrides `findAndSetTagValues` reproduces a canonical
      container's children. */
  lemma {:induction false} SubstituteCanonical(ns: seq<Node>, sp: bool, target: string, codec: NumberCodec)
    requires forall i :: 0 <= i < |ns| ==> WellFormed(ns[i])
    requires Canonical(ns, sp, Some(target)) && ns == Elements(ns)
    ensures SubstituteChildren(ns, map[], sp, target, codec) == Ok(ns)
    decreases ns
  {
    if |ns| > 0 {
      assert ns[0].Element?;
      assert ns[1..] == Elements(ns[1..]) by {
        assert Elements(ns) == [ns[0]] + Elements(ns[1..]);
      }
      assert Canonical(ns[1..], sp, Some(target)) by {
        forall i | 0 <= i < |ns[1..]| ensures ns[1..][i] == ns[i + 1] {
        }
      }
      SubstituteCanonical(ns[1..], sp, target, codec);
      var n := ns[0];
      SubstituteAttributesCorrect(n.attributes, map[], target, codec);
      SubstitutedEmptyMap(n.attributes, target, codec);
      CloneCanonical(n.children, sp, codec);
      assert n.children == Elements(n.children);
      assert SubstituteNode(n, map[], sp, target, codec) == Ok(Element(n.tag, n.attributes, n.children));
      assert Element(n.tag, n.attributes, n.children) == n;
      assert [n] + ns[1..] == ns;
    }
  }

  /** With no overrides, a baseline whose cleaned root holds only canonical
      element children is written out unchanged. */
  lemma WriteWithoutOverridesIsIdentity(documents: map<string, Tree>, calibratedParamFilePath: string,
                                        outputFolder: string, parameterFileName: Option<string>, codec: NumberCodec)
    requires calibratedParamFilePath in documents && WellFormed(documents[calibratedParamFilePath])
    requires var root := Clean(documents[calibratedParamFilePath]);
             root.children == Elements(root.children) && Canonical(root.children, true, None)
    ensures WriteSimParameterFiles(documents, calibratedParamFilePath, map[], outputFolder, parameterFileName, codec)
            == Ok(Written(outputFolder + "/" + Str(parameterFileName), Clean(documents[calibratedParamFilePath])))
  {
    var root := Clean(documents[calibratedParamFilePath]);
    CleanKeepsWellFormed(documents[calibratedParamFilePath]);
    AddAllCopies(root.attributes, []);
    assert [] + root.attributes == root.attributes;
    CloneCanonical(root.children, true, codec);
  }
}

=== FILE: intervention.dfy ===
/** `SBMLFileFromSolverOutput`: a new SBML model built from the last line of
    a solver run, with the parameters of an intervention set to the values
    the settings file gives them. The results file is given as its lines,
    the baseline model as a parsed tree; the outcome is what the constructor
    leaves behind. */
module Intervention {
  import opened Wrappers
  import opened JavaText
  import opened Numbers
  import opened Dom
  import opened SampleRows
  import opened Settings
  import opened Engine

  /** The settings `SBMLFileFromSolverOutput` needs, in the order it reads them. */
  const RequiredSettings := ["sbmlRunResultsFile", "parameterFileOutputFolder", "newParamFileName",
                             "pathToSimulationParameterFile"]

  /** What the constructor leaves behind: nothing but an error message when a
      required setting is missing; otherwise the settings state and either
      the new model or the exception `newModelFromSteadyState` caught. */
  datatype Outcome =
    | SettingsIncomplete
    | Attempted(registry: Registry, model: Result<Written, Exception>)

  // ---------------------------------------------------------------------
  // The overwrite loop
  // ---------------------------------------------------------------------

  /** The overwrite loop from position `param` on: a name that is already a
      key takes the `sbmlSetValues` entry at the same position; a name that
      is not a key is skipped; a position past the end of `setValues` throws. */
  function OverwriteFrom(m: Overrides, names: seq<string>, setValues: seq<Double>, param: nat)
    : Result<Overrides, Exception>
    requires param <= |names|
    decreases |names| - param
  {
    if param == |names| then Ok(m)
    else if names[param] !in m then OverwriteFrom(m, names, setValues, param + 1)
    else if param >= |setValues| then Err(IndexOutOfBounds(param))
    else OverwriteFrom(m[names[param] := setValues[param]], names, setValues, param + 1)
  }

  /** The overwrite loop of `newModelFromSteadyState`. */
  function Overwrite(m: Overrides, names: seq<string>, setValues: seq<Double>): Result<Overrides, Exception> {
    OverwriteFrom(m, names, setValues, 0)
  }

  /** A position of the loop that reaches past `setValues`. */
  predicate Unmatched(m: Overrides, names: seq<string>, setValues: seq<Double>, q: int) {
    0 <= q < |names| && names[q] in m && q >= |setValues|
  }

  /** One step of the loop: the map the loop carries on with. */
  function Step(m: Overrides, names: seq<string>, setValues: seq<Double>, param: nat): (r: Overrides)
    requires param < |names|
    ensures r.Keys == m.Keys
  {
    if names[param] in m && param < |setValues| then m[names[param] := setValues[param]] else m
  }

  /** The loop from `param` on fails exactly when some later key position
      lies past the end of `setValues`, and reports the first one. */
  lemma {:induction false} OverwriteFromFails(m: Overrides, names: seq<string>, setValues: seq<Double>, param: nat)
    requires param <= |names|
    ensures var r := OverwriteFrom(m, names, setValues, param);
            && (r.Err? <==> exists q :: param <= q && Unmatched(m, names, setValues, q))
            && (r.Err? ==> r.error.IndexOutOfBounds? && param <= r.error.index
                           && Unmatched(m, names, setValues, r.error.index)
                           && forall q :: param <= q < r.error.index ==> !Unmatched(m, names, setValues, q))
    decreases |names| - param
  {
    if param < |names| {
      var m' := Step(m, names, setValues, param);
      OverwriteFromFails(m', names, setValues, param + 1);
      assert forall q :: Unmatched(m', names, setValues, q) <==> Unmatched(m, names, setValues, q);
      if !(names[param] in m && param >= |setValues|) {
        assert OverwriteFrom(m, names, setValues, param) == OverwriteFrom(m', names, setValues, param + 1);
        assert !Unmatched(m, names, setValues, param);
      } else {
        assert Unmatched(m, names, setValues, param);
      }
    }
  }

  /** On success the loop from `param` on keeps the key set. */
  lemma {:induction false} OverwriteFromKeys(m: Overrides, names: seq<string>, setValues: seq<Double>, param: nat)
    requires param <= |names|
    ensures var r := OverwriteFrom(m, names, setValues, param);
            r.Ok? ==> r.value.Keys == m.Keys
    decreases |names| - param
  {
    if param < |names| {
      OverwriteFromKeys(Step(m, names, setValues, param), names, setValues, param + 1);
    }
  }

  /** On success a key that none of the remaining names mentions keeps its
      entry. */
  lemma {:induction false} OverwriteFromOthers(m: Overrides, names: seq<string>, setValues: seq<Double>, param: nat, k: string)
    requires param <= |names|
    requires k in m && k !in names[param..]
    ensures var r := OverwriteFrom(m, names, setValues, param);
            r.Ok? ==> k in r.value && r.value[k] == m[k]
    decreases |names| - param
  {
    if param < |names| {
      assert names[param..] == [names[param]] + names[param + 1..];
      OverwriteFromOthers(Step(m, names, setValues, param), names, setValues, param + 1, k);
    }
  }

  /** On success a remaining name that is a key takes the value at the
      position of its last occurrence. */
  lemma {:induction false} OverwriteFromLast(m: Overrides, names: seq<string>, setValues: seq<Double>, param: nat, q: nat)
    requires param <= q < |names|
    requires names[q] in m && LastOccurrence(names, q)
    ensures var r := OverwriteFrom(m, names, setValues, param);
            r.Ok? ==> q < |setValues| && names[q] in r.value && r.value[names[q]] == setValues[q]
    decreases |names| - param
  {
    var m' := Step(m, names, setValues, param);
    if names[param] in m && param >= |setValues| {
    } else if q == param {
      assert names[q] !in names[param + 1..];
      OverwriteFromOthers(m', names, setValues, param + 1, names[q]);
    } else {
      OverwriteFromLast(m', names, setValues, param + 1, q);
    }
  }

  /** The overwrite loop fails exactly when a name that is a key sits at a
      position past the end of `setValues`, and reports the first such
      position. On success the key set is unchanged: a name absent from the
      map is never added; a key that is not an analysed name keeps its value;
      an analysed name that is a key takes the `sbmlSetValues` entry at the
      position of its last occurrence. */
  lemma OverwriteSpec(m: Overrides, names: seq<string>, setValues: seq<Double>)
    ensures var r := Overwrite(m, names, setValues);
            && (r.Err? <==> exists q :: Unmatched(m, names, setValues, q))
            && (r.Err? ==> r.error.IndexOutOfBounds? && Unmatched(m, names, setValues, r.error.index)
                           && forall q :: 0 <= q < r.error.index ==> !Unmatched(m, names, setValues, q))
            && (r.Ok? ==> r.value.Keys == m.Keys)
            && (r.Ok? ==> forall k :: k in m && k !in names ==> r.value[k] == m[k])
            && (r.Ok? ==> forall q :: 0 <= q < |names| && names[q] in m && LastOccurrence(names, q) ==>
                            q < |setValues| && r.value[names[q]] == setValues[q])
  {
    OverwriteFromFails(m, names, setValues, 0);
    OverwriteFromKeys(m, names, setValues, 0);
    var r := Overwrite(m, names, setValues);
    if r.Ok? {
      assert names[0..] == names;
      forall k | k in m && k !in names ensures r.value[k] == m[k] {
        OverwriteFromOthers(m, names, setValues, 0, k);
      }
      forall q | 0 <= q < |names| && names[q] in m && LastOccurrence(names, q)
        ensures q < |setValues| && r.value[names[q]] == setValues[q]
      {
        OverwriteFromLast(m, names, setValues, 0, q);
      }
    }
  }

  /** With one value per name the loop never fails. */
  lemma OverwriteAlignedSucceeds(m: Overrides, names: seq<string>, setValues: seq<Double>)
    requires |setValues| >= |names|
    ensures Overwrite(m, names, setValues).Ok?
  {
    OverwriteSpec(m, names, setValues);
  }

  // ---------------------------------------------------------------------
  // newModelFromSteadyState and the constructor
  // ---------------------------------------------------------------------

  /** `newModelFromSteadyState`: the header (first line) and the last line of
      the results file make the base map through the two-argument reader;
      the analysed parameters present in it are overwritten; the model is
      written through the engine under `newParamFileName`. An empty results
      file hands null to the reader, which throws. */
  function NewModelFromSteadyState(reg: Registry, results: map<string, seq<string>>, resultsFile: string,
                                   documents: map<string, Tree>, calibratedParamFilePath: string,
                                   outputFolder: string, newParamFileName: string, codec: NumberCodec)
    : (r: Result<Written, Exception>)
    ensures resultsFile !in results ==> r == Err(FileNotFound(resultsFile))
    ensures resultsFile in results && results[resultsFile] == [] ==> r == Err(NullPointer)
    ensures resultsFile in results && results[resultsFile] != [] ==>
              var lines := results[resultsFile];
              FromHeaderAndLine(lines[0], lines[|lines| - 1], codec).Err? ==>
                r == Err(FromHeaderAndLine(lines[0], lines[|lines| - 1], codec).error)
    ensures r.Ok? ==> r.value.path == outputFolder + "/" + newParamFileName
  {
    if resultsFile !in results then Err(FileNotFound(resultsFile))
    else
      var lines := results[resultsFile];
      if |lines| == 0 then Err(NullPointer)
      else
        match FromHeaderAndLine(lines[0], lines[|lines| - 1], codec)
        case Err(e) => Err(e)
        case Ok(m) =>
          match Overwrite(m, reg.columns.parametersAnalysed, reg.sbmlSetValues)
          case Err(e) => Err(e)
          case Ok(m') =>
            WriteSimParameterFiles(documents, calibratedParamFilePath, m', outputFolder, Some(newParamFileName), codec)
  }

  /** When the results file's header and last line read as the map `base`,
      the model written is `base` with the analysed parameters overwritten:
      the loop fails exactly at the first key position past the end of
      `sbmlSetValues`; otherwise the written map has the header's names as
      keys, so a name absent from the header never enters it, an entry no
      analysed parameter names keeps the results file's value, and an
      analysed name takes the `sbmlSetValues` entry at its last position. */
  lemma NewModelOverwritesResults(reg: Registry, results: map<string, seq<string>>, resultsFile: string,
                                  documents: map<string, Tree>, calibratedParamFilePath: string,
                                  outputFolder: string, newParamFileName: string, codec: NumberCodec,
                                  base: Overrides)
    requires resultsFile in results && results[resultsFile] != []
    requires FromHeaderAndLine(results[resultsFile][0], results[resultsFile][|results[resultsFile]| - 1], codec) == Ok(base)
    ensures var names := reg.columns.parametersAnalysed;
            var sv := reg.sbmlSetValues;
            var r := NewModelFromSteadyState(reg, results, resultsFile, documents, calibratedParamFilePath,
                                             outputFolder, newParamFileName, codec);
            && ((exists q :: Unmatched(base, names, sv, q)) ==>
                  r.Err? && r.error.IndexOutOfBounds? && Unmatched(base, names, sv, r.error.index))
            && ((forall q :: !Unmatched(base, names, sv, q)) ==>
                  Overwrite(base, names, sv).Ok? &&
                  var m' := Overwrite(base, names, sv).value;
                  && r == WriteSimParameterFiles(documents, calibratedParamFilePath, m', outputFolder,
                                                 Some(newParamFileName), codec)
                  && m'.Keys == base.Keys
                  && (forall k :: k in base && k !in names ==> m'[k] == base[k])
                  && (forall q :: 0 <= q < |names| && names[q] in base && LastOccurrence(names, q) ==>
                        q < |sv| && m'[names[q]] == sv[q]))
  {
    OverwriteSpec(base, reg.columns.parametersAnalysed, reg.sbmlSetValues);
  }

  /** The constructor: the four settings are read; if any is missing only an
      error is reported. Otherwise the parameters are read for `SBMLMod`,
      whose verdict is ignored and whose exception is not caught, and the
      model is built from the settings' results file, baseline document,
      output folder and file name. */
  function Create(file: SettingsFile, reg: Registry, results: map<string, seq<string>>,
                  documents: map<string, Tree>, codec: NumberCodec)
    : (r: Result<Outcome, Exception>)
    ensures (exists i :: 0 <= i < |RequiredSettings| && GetParam(file, RequiredSettings[i]).None?) <==> r == Ok(SettingsIncomplete)
    ensures r.Err? ==> ReadParameterInfo(reg, "SBMLMod", file, codec) == Err(r.error)
    ensures r.Ok? && r.value.Attempted? ==>
              && ReadParameterInfo(reg, "SBMLMod", file, codec) == Ok(r.value.registry)
              && GetParam(file, "sbmlRunResultsFile").Some? && GetParam(file, "pathToSimulationParameterFile").Some?
              && GetParam(file, "parameterFileOutputFolder").Some? && GetParam(file, "newParamFileName").Some?
              && r.value.model == NewModelFromSteadyState(r.value.registry, results, GetParam(file, "sbmlRunResultsFile").value,
                                                          documents, GetParam(file, "pathToSimulationParameterFile").value,
                                                          GetParam(file, "parameterFileOutputFolder").value,
                                                          GetParam(file, "newParamFileName").value, codec)
  {
    var resultsFile := GetParam(file, "sbmlRunResultsFile");
    var outputFolder := GetParam(file, "parameterFileOutputFolder");
    var newName := GetParam(file, "newParamFileName");
    var metaData := GetParam(file, "pathToSimulationParameterFile");
    assert RequiredSettings[0] == "sbmlRunResultsFile" && RequiredSettings[1] == "parameterFileOutputFolder";
    assert RequiredSettings[2] == "newParamFileName" && RequiredSettings[3] == "pathToSimulationParameterFile";
    if resultsFile.None? || outputFolder.None? || newName.None? || metaData.None? then Ok(SettingsIncomplete)
    else
      match ReadParameterInfo(reg, "SBMLMod", file, codec)
      case Err(e) => Err(e)
      case Ok(reg') =>
        Ok(Attempted(reg', NewModelFromSteadyState(reg', results, resultsFile.value, documents, metaData.value,
                                                   outputFolder.value, newName.value, codec)))
  }

  // ---------------------------------------------------------------------
  // Where sbmlSetValues lines up with the analysed parameters
  // ---------------------------------------------------------------------

  /** Under SBMLMod nothing is reported missing exactly when every
      parameter carries a `value`. */
  lemma {:induction false} NothingMissingUnderSbmlMod(ps: seq<ParameterElement>)
    ensures Missing("SBMLMod", ps) == [] <==> forall i :: 0 <= i < |ps| ==> Attr(ps[i], "value").Some?
    decreases ps
  {
    if |ps| > 0 {
      NothingMissingUnderSbmlMod(ps[1..]);
      assert forall i :: 1 <= i < |ps| ==> ps[i] == ps[1..][i - 1];
    }
  }

  /** When every parameter carries the attribute, `Present` lists each
      parameter's value at the parameter's own position. */
  lemma {:induction false} PresentWhenAllCarry(ps: seq<ParameterElement>, name: string)
    requires forall i :: 0 <= i < |ps| ==> Attr(ps[i], name).Some?
    ensures |Present(ps, name)| == |ps|
    ensures forall i :: 0 <= i < |ps| ==> Present(ps, name)[i] == Attr(ps[i], name).value
    decreases ps
  {
    if |ps| > 0 {
      PresentWhenAllCarry(ps[1..], name);
      assert Listed(ps[0], name) == [Attr(ps[0], name).value];
      forall i | 1 <= i < |ps| ensures Present(ps, name)[i] == Attr(ps[i], name).value {
        assert ps[i] == ps[1..][i - 1];
      }
    }
  }

  /** When the settings pass the SBMLMod checks, `sbmlSetValues` has one
      entry per analysed parameter, the parse of that parameter's own
      `value`, so the overwrite loop gives each parameter its own value and
      never fails. */
  lemma SetValuesAlignWhenComplete(reg: Registry, file: SettingsFile, codec: NumberCodec)
    requires Missing("SBMLMod", file.parameters) == []
    ensures var r := ReadParameterInfo(reg, "SBMLMod", file, codec);
            var ps := file.parameters;
            r.Ok? ==>
              && |r.value.sbmlSetValues| == |r.value.columns.parametersAnalysed| == |ps|
              && forall i :: 0 <= i < |ps| ==>
                   Attr(ps[i], "value").Some?
                   && codec.parseDouble(Attr(ps[i], "value").value) == Some(r.value.sbmlSetValues[i])
  {
    var ps := file.parameters;
    ReadParameterInfoSpec(reg, "SBMLMod", file, codec);
    NothingMissingUnderSbmlMod(ps);
    PresentWhenAllCarry(ps, "value");
    var r := ReadParameterInfo(reg, "SBMLMod", file, codec);
    if r.Ok? {
      ParseAllSpec(Present(ps, "value"), codec.parseDouble);
      ColumnsAfterSpec(Columns([], [], [], [], [], []), ps);
    }
  }

  // ---------------------------------------------------------------------
  // When a parameter lacks its value
  // ---------------------------------------------------------------------

  /** Two analysed parameters, the first without a `value`, the second with
      "5". */
  function MisalignedSettings(): SettingsFile {
    SettingsFile(map[], [ParameterElement("A", map[]), ParameterElement("B", map["value" := "5"])])
  }

  /** The loop as written, on settings where the first parameter lacks its
      `value` (reported, but the constructor carries on) and the results
      header names only that parameter: the first parameter silently takes
      the second parameter's value. */
  lemma MisalignedValueIsTaken(reg: Registry, d: Double, prior: Double, codec: NumberCodec)
    requires codec.parseDouble("5") == Some(d)
    ensures var r := ReadParameterInfo(reg, "SBMLMod", MisalignedSettings(), codec);
            r.Ok? && r.value.sbmlSetValues == [d] && r.value.columns.parametersAnalysed == ["A", "B"]
            && Overwrite(map["A" := prior], ["A", "B"], [d]) == Ok(map["A" := d])
  {
    var file := MisalignedSettings();
    var ps := file.parameters;
    ReadParameterInfoSpec(reg, "SBMLMod", file, codec);
    assert Present(ps, "value") == ["5"] by {
      assert Listed(ps[0], "value") == [];
      assert Listed(ps[1], "value") == ["5"];
      assert ps[1..][1..] == [];
    }
    assert ParseAll(["5"], codec.parseDouble) == Ok([d]) by {
      var empty: seq<string> := [];
      assert ["5"][0] == "5" && ["5"][1..] == empty;
      assert ParseAll(empty, codec.parseDouble) == Ok([]);
      assert [d] + [] == [d];
    }
    ColumnsAfterSpec(Columns([], [], [], [], [], []), ps);
    assert Texts(ps) == ["A", "B"];
    var names := ["A", "B"];
    var m: Overrides := map["A" := prior];
    var m1 := m["A" := d];
    assert m1 == map["A" := d];
    assert "B" !in m1;
    assert OverwriteFrom(m1, names, [d], 2) == Ok(m1);
    assert OverwriteFrom(m1, names, [d], 1) == Ok(m1);
    assert OverwriteFrom(m, names, [d], 0) == Ok(m1);
  }

  /** Each analysed parameter's own value, where it has one: the pairing the
      loop's positions assume. */
  function OwnValues(ps: seq<ParameterElement>, codec: NumberCodec): (r: seq<Option<Double>>)
    ensures |r| == |ps|
    ensures forall i :: 0 <= i < |ps| ==>
              r[i] == (if Attr(ps[i], "value").Some? then codec.parseDouble(Attr(ps[i], "value").value) else None)
  {
    if |ps| == 0 then []
    else
      var own := if Attr(ps[0], "value").Some? then codec.parseDouble(Attr(ps[0], "value").value) else None;
      [own] + OwnValues(ps[1..], codec)
  }

  /** The overwrite with each parameter paired with its own value: a key
      takes the value of the parameter of the same name, and a parameter
      without a value leaves the key as it was. */
  function OverwriteOwn(m: Overrides, names: seq<string>, own: seq<Option<Double>>): Overrides
    requires |own| == |names|
    decreases |names|
  {
    if |names| == 0 then m
    else
      var n := names[0];
      var m' := if n in m && own[0].Some? then m[n := own[0].value] else m;
      OverwriteOwn(m', names[1..], own[1..])
  }

  /** The corrected overwrite keeps the key set, never adds a name, keeps
      every other entry, and gives each key the value of the last parameter
      of that name that carries one. */
  lemma {:induction false} OverwriteOwnSpec(m: Overrides, names: seq<string>, own: seq<Option<Double>>)
    requires |own| == |names|
    ensures var r := OverwriteOwn(m, names, own);
            && r.Keys == m.Keys
            && (forall k :: k in m && k !in names ==> r[k] == m[k])
            && (forall q :: (0 <= q < |names| && names[q] in m && own[q].Some?
                             && (forall j :: q < j < |names| && names[j] == names[q] ==> own[j].None?)) ==>
                  r[names[q]] == own[q].value)
    decreases |names|
  {
    if |names| > 0 {
      var n := names[0];
      var m' := if n in m && own[0].Some? then m[n := own[0].value] else m;
      OverwriteOwnSpec(m', names[1..], own[1..]);
      var r := OverwriteOwn(m, names, own);
      forall k | k in m && k !in names ensures r[k] == m[k] {
        assert k !in names[1..];
      }
      forall q | 0 <= q < |names| && names[q] in m && own[q].Some?
                 && (forall j :: q < j < |names| && names[j] == names[q] ==> own[j].None?)
        ensures r[names[q]] == own[q].value
      {
        if q == 0 {
          if n in names[1..] {
            var j :| 0 <= j < |names[1..]| && names[1..][j] == n;
            assert own[1..][j] == own[j + 1] && own[j + 1].None?;
            OverwriteOwnKeepsUnset(m', names[1..], own[1..], n);
          } else {
            assert n in m' && n !in names[1..];
          }
        } else {
          assert names[q] == names[1..][q - 1] && own[q] == own[1..][q - 1];
          forall j | q - 1 < j < |names[1..]| && names[1..][j] == names[1..][q - 1]
            ensures own[1..][j].None?
          {
            assert names[j + 1] == names[q];
          }
        }
      }
    }
  }

  /** Names whose every occurrence lacks a value keep their entry. */
  lemma {:induction false} OverwriteOwnKeepsUnset(m: Overrides, names: seq<string>, own: seq<Option<Double>>, k: string)
    requires |own| == |names|
    requires k in m
    requires forall j :: 0 <= j < |names| && names[j] == k ==> own[j].None?
    ensures k in OverwriteOwn(m, names, own) && OverwriteOwn(m, names, own)[k] == m[k]
    decreases |names|
  {
    if |names| > 0 {
      var n := names[0];
      var m' := if n in m && own[0].Some? then m[n := own[0].value] else m;
      forall j | 0 <= j < |names[1..]| && names[1..][j] == k ensures own[1..][j].None? {
        assert names[j + 1] == k;
      }
      OverwriteOwnKeepsUnset(m', names[1..], own[1..], k);
    }
  }

  /** From position `param` on, the loop as written and the corrected
      overwrite agree whenever every name's own value is the
      `sbmlSetValues` entry at its position. */
  lemma {:induction false} OverwriteFromAgrees(m: Overrides, names: seq<string>, setValues: seq<Double>,
                                               own: seq<Option<Double>>, param: nat)
    requires param <= |names| && |own| == |names| <= |setValues|
    requires forall i :: 0 <= i < |names| ==> own[i] == Some(setValues[i])
    ensures OverwriteFrom(m, names, setValues, param) == Ok(OverwriteOwn(m, names[param..], own[param..]))
    decreases |names| - param
  {
    if param < |names| {
      OverwriteFromAgrees(Step(m, names, setValues, param), names, setValues, own, param + 1);
      assert names[param..][1..] == names[param + 1..];
      assert own[param..][1..] == own[param + 1..];
    }
  }

  /** When the settings pass the SBMLMod checks, the loop as written gives
      every analysed parameter its own value: it is the corrected overwrite. */
  lemma OverwriteAgreesWhenComplete(reg: Registry, file: SettingsFile, codec: NumberCodec, base: Overrides)
    requires Missing("SBMLMod", file.parameters) == []
    ensures var r := ReadParameterInfo(reg, "SBMLMod", file, codec);
            r.Ok? ==>
              Overwrite(base, r.value.columns.parametersAnalysed, r.value.sbmlSetValues)
              == Ok(OverwriteOwn(base, Texts(file.parameters), OwnValues(file.parameters, codec)))
  {
    var ps := file.parameters;
    var r := ReadParameterInfo(reg, "SBMLMod", file, codec);
    SetValuesAlignWhenComplete(reg, file, codec);
    ReadParameterInfoColumns(reg, "SBMLMod", file, codec);
    if r.Ok? {
      var names := Texts(ps);
      OverwriteFromAgrees(base, names, r.value.sbmlSetValues, OwnValues(ps, codec), 0);
      assert names[0..] == names;
      assert OwnValues(ps, codec)[0..] == OwnValues(ps, codec);
    }
  }
}

=== FILE: java_text.dfy ===
/** The pieces of `java.lang` the core relies on, stated over `seq<char>`:
    the exceptions it may throw, string concatenation with `null`,
    `String.trim`, `String.replace`, `String.contains`,
    `String.lastIndexOf`, `Integer.toString` and `Boolean.parseBoolean`. */
module JavaText {
  import opened Wrappers

  /** The exceptions the modelled code can raise. */
  datatype Exception =
    | NullPointer                     // a method called on a null string
    | NoSuchElement                   // StringTokenizer.nextToken with no token left
    | NumberFormat(input: string)     // Double.parseDouble / Integer.parseInt rejected the text
    | IndexOutOfBounds(index: int)    // ArrayList.get outside the list
    | InvalidCharacter(name: string)  // Document.createElement with a name such as "#text"
    | FileNotFound(path: string)      // a reader opened on a missing file
    | DocumentUnreadable(path: string) // the XML parser could not build a tree

  /** Java's `"" + s` where `s` may be null: null prints as "null". */
  function Str(s: Option<string>): string {
    match s
    case Some(t) => t
    case None => "null"
  }

  // ---------------------------------------------------------------------
  // String.trim
  // ---------------------------------------------------------------------

  /** `String.trim` removes every character whose code is at most U+0020. */
  predicate IsSpace(c: char) {
    c <= ' '
  }

  predicate AllSpace(s: string) {
    forall i :: 0 <= i < |s| ==> IsSpace(s[i])
  }

  /** The first index at or after `st` holding a non-space character. */
  function SkipLeading(s: string, st: nat): (k: nat)
    requires st <= |s|
    ensures st <= k <= |s|
    ensures forall i :: st <= i < k ==> IsSpace(s[i])
    ensures k < |s| ==> !IsSpace(s[k])
    decreases |s| - st
  {
    if st < |s| && IsSpace(s[st]) then SkipLeading(s, st + 1) else st
  }

  /** The end of `s[st..len]` once its trailing spaces are dropped. */
  function SkipTrailing(s: string, st: nat, len: nat): (k: nat)
    requires st <= len <= |s|
    ensures st <= k <= len
    ensures forall i :: k <= i < len ==> IsSpace(s[i])
    ensures st < k ==> !IsSpace(s[k - 1])
    decreases len
  {
    if st < len && IsSpace(s[len - 1]) then SkipTrailing(s, st, len - 1) else len
  }

  /** `String.trim`: the slice between the leading and trailing space runs. */
  function Trim(s: string): (r: string)
    ensures r == "" <==> AllSpace(s)
    ensures r != "" ==> !IsSpace(r[0]) && !IsSpace(r[|r| - 1])
    ensures s != "" && !IsSpace(s[0]) && !IsSpace(s[|s| - 1]) ==> r == s
    ensures |r| <= |s|
    ensures exists st, len :: 0 <= st <= len <= |s| && r == s[st..len] && AllSpace(s[..st]) && AllSpace(s[len..])
  {
    var st := SkipLeading(s, 0);
    var len := SkipTrailing(s, st, |s|);
    assert AllSpace(s[..st]) by {
      forall i | 0 <= i < st ensures IsSpace(s[..st][i]) {
        assert s[..st][i] == s[i];
      }
    }
    assert AllSpace(s[len..]) by {
      forall i | 0 <= i < |s| - len ensures IsSpace(s[len..][i]) {
        assert s[len..][i] == s[len + i];
      }
    }
    s[st..len]
  }

  /** Trimming twice is trimming once. */
  lemma TrimIdempotent(s: string)
    ensures Trim(Trim(s)) == Trim(s)
  {
  }

  // ---------------------------------------------------------------------
  // String.replace, String.contains, String.lastIndexOf
  // ---------------------------------------------------------------------

  /** `s.replace(from, to)` for single characters. */
  function ReplaceChar(s: string, from: char, to: char): (r: string)
    ensures |r| == |s|
    ensures forall i :: 0 <= i < |s| ==> r[i] == (if s[i] == from then to else s[i])
  {
    if |s| == 0 then "" else [if s[0] == from then to else s[0]] + ReplaceChar(s[1..], from, to)
  }

  /** `a` is `b` with some of its characters deleted, the rest kept in
      order. */
  predicate Subsequence(a: string, b: string)
    decreases |b|
  {
    if |a| == 0 then true
    else if |b| == 0 then false
    else (a[0] == b[0] && Subsequence(a[1..], b[1..])) || Subsequence(a, b[1..])
  }

  /** `s.replace("" + c, "")`: every occurrence of `c` removed. Together, the
      multiset and the order clause pin the result down: the characters kept
      are exactly those other than `c`, each as often as in `s`, in their
      order in `s`. */
  function RemoveChar(s: string, c: char): (r: string)
    ensures c !in r
    ensures |r| <= |s|
    ensures c !in s ==> r == s
    ensures multiset(r) == multiset(s)[c := 0]
    ensures |r| == |s| - multiset(s)[c]
    ensures Subsequence(r, s)
  {
    if |s| == 0 then ""
    else
      assert s == [s[0]] + s[1..];
      var rest := RemoveChar(s[1..], c);
      if s[0] == c then
        assert Subsequence(rest, s[1..]);
        rest
      else
        assert ([s[0]] + rest)[1..] == rest;
        [s[0]] + rest
  }

  /** Removing a character distributes over concatenation. */
  lemma {:induction false} RemoveCharAppend(a: string, b: string, c: char)
    ensures RemoveChar(a + b, c) == RemoveChar(a, c) + RemoveChar(b, c)
  {
    if |a| == 0 {
      assert a + b == b;
    } else {
      assert (a + b)[1..] == a[1..] + b;
      RemoveCharAppend(a[1..], b, c);
    }
  }

  /** `t` occurs in `s` starting at index `i`. */
  predicate OccursAt(s: string, t: string, i: int) {
    0 <= i <= |s| - |t| && s[i..i + |t|] == t
  }

  /** `s.contains(t)`. */
  function Contains(s: string, t: string): (b: bool)
    ensures b <==> exists i :: OccursAt(s, t, i)
  {
    if |t| <= |s| && s[..|t|] == t then
      assert OccursAt(s, t, 0);
      true
    else if |s| == 0 then
      false
    else
      var rest := Contains(s[1..], t);
      assert rest ==> exists i :: OccursAt(s, t, i) by {
        if rest {
          var j :| OccursAt(s[1..], t, j);
          assert s[j + 1..j + 1 + |t|] == s[1..][j..j + |t|];
          assert OccursAt(s, t, j + 1);
        }
      }
      assert (exists i :: OccursAt(s, t, i)) ==> rest by {
        if exists i :: OccursAt(s, t, i) {
          var i :| OccursAt(s, t, i);
          assert i != 0;
          assert s[1..][i - 1..i - 1 + |t|] == s[i..i + |t|];
          assert OccursAt(s[1..], t, i - 1);
        }
      }
      rest
  }

  /** A text without the first character of `t` cannot contain `t`. */
  lemma NotContainsWithoutFirst(s: string, t: string)
    requires |t| > 0 && t[0] !in s
    ensures !Contains(s, t)
  {
    forall i | 0 <= i <= |s| - |t| ensures !OccursAt(s, t, i) {
      assert s[i..i + |t|][0] == s[i];
    }
  }

  /** `s.lastIndexOf(c)`: the last position holding `c`, or -1. */
  function LastIndexOf(s: string, c: char): (k: int)
    ensures -1 <= k < |s|
    ensures k == -1 <==> c !in s
    ensures k >= 0 ==> s[k] == c
    ensures forall j :: k < j < |s| ==> s[j] != c
  {
    if |s| == 0 then -1
    else if s[|s| - 1] == c then |s| - 1
    else LastIndexOf(s[..|s| - 1], c)
  }

  // ---------------------------------------------------------------------
  // Integer.toString and decimal digits
  // ---------------------------------------------------------------------

  predicate IsDigit(c: char) {
    '0' <= c <= '9'
  }

  predicate IsDigits(s: string) {
    |s| > 0 && forall i :: 0 <= i < |s| ==> IsDigit(s[i])
  }

  /** The natural number a string of decimal digits denotes. */
  function DigitsValue(s: string): nat
    requires forall i :: 0 <= i < |s| ==> IsDigit(s[i])
  {
    if |s| == 0 then 0
    else
      assert IsDigit(s[|s| - 1]);
      DigitsValue(s[..|s| - 1]) * 10 + (s[|s| - 1] as int - '0' as int)
  }

  /** The decimal text of a natural number, without leading zeros. */
  function NatToString(n: nat): (r: string)
    ensures IsDigits(r)
    ensures r[0] == '0' ==> n == 0
  {
    if n < 10 then ['0' + n as char] else NatToString(n / 10) + ['0' + (n % 10) as char]
  }

  /** `Integer.toString` (and `"" + i`). */
  function IntToString(i: int): (r: string)
    ensures i >= 0 ==> IsDigits(r)
    ensures i < 0 ==> |r| > 1 && r[0] == '-' && IsDigits(r[1..])
    ensures i >= 0 ==> DigitsValue(r) == i
    ensures i < 0 ==> DigitsValue(r[1..]) == -i
  {
    if i < 0 then
      NatToStringRoundTrip(-i);
      assert ("-" + NatToString(-i))[1..] == NatToString(-i);
      "-" + NatToString(-i)
    else
      NatToStringRoundTrip(i);
      NatToString(i)
  }

  /** Reading back the decimal text of `n` gives `n`. */
  lemma {:induction false} NatToStringRoundTrip(n: nat)
    ensures DigitsValue(NatToString(n)) == n
  {
    if n >= 10 {
      var s := NatToString(n);
      assert s[..|s| - 1] == NatToString(n / 10);
      NatToStringRoundTrip(n / 10);
    }
  }

  /** Distinct numbers have distinct decimal texts. */
  lemma NatToStringInjective(m: nat, n: nat)
    requires NatToString(m) == NatToString(n)
    ensures m == n
  {
    NatToStringRoundTrip(m);
    NatToStringRoundTrip(n);
  }

  // ---------------------------------------------------------------------
  // Boolean.parseBoolean
  // ---------------------------------------------------------------------

  function AsciiLower(c: char): char {
    if 'A' <= c <= 'Z' then (c as int + 32) as char else c
  }

  /** `Boolean.parseBoolean`: true exactly for "true" in any letter case;
      null is false. */
  function ParseBoolean(s: Option<string>): (b: bool)
    ensures b <==> s.Some? && |s.value| == 4 && forall i :: 0 <= i < 4 ==> AsciiLower(s.value[i]) == "true"[i]
    ensures s == Some("true") || s == Some("TRUE") ==> b
  {
    s.Some? && |s.value| == 4
    && AsciiLower(s.value[0]) == 't' && AsciiLower(s.value[1]) == 'r'
    && AsciiLower(s.value[2]) == 'u' && AsciiLower(s.value[3]) == 'e'
  }
}

=== FILE: numbers.dfy ===
/** Java's `double` values and the library conversions the core calls on
    them. The conversions themselves (`Double.parseDouble`,
    `Integer.parseInt`, `Double.toString`) are not modelled: they are
    supplied as a `NumberCodec`, a record of functions, and every operation
    that needs one takes it as a parameter. */
module Numbers {
  import opened Wrappers
  import opened JavaText

  /** A Java `double`. Negative zero is not distinguished from zero. */
  datatype Double = Finite(value: real) | NaN | PositiveInfinity | NegativeInfinity

  /** The Java comparison `d > n` of a double with an int: false for NaN. */
  predicate Exceeds(d: Double, n: int) {
    match d
    case Finite(v) => v > n as real
    case PositiveInfinity => true
    case _ => false
  }

  /** The library conversions; `None` stands for a `NumberFormatException`. */
  datatype NumberCodec = NumberCodec(
    parseDouble: string -> Option<Double>,
    parseInt: string -> Option<int>,
    formatDouble: Double -> string)

  /** 2^53: every natural number up to it is exactly representable as a
      double. */
  const ExactLimit: nat := 9007199254740992

  /** What `Double.parseDouble` does with a plain string of decimal digits:
      it accepts it; it reads the exact value up to 2^53; past that it
      rounds to a nearby double, which is never below 2^53, and a value
      past the largest double becomes positive infinity. */
  ghost predicate ReadsDigits(codec: NumberCodec) {
    forall s :: IsDigits(s) ==>
      && codec.parseDouble(s).Some?
      && (DigitsValue(s) <= ExactLimit ==> codec.parseDouble(s) == Some(Finite(DigitsValue(s) as real)))
      && (DigitsValue(s) > ExactLimit ==>
            codec.parseDouble(s) == Some(PositiveInfinity)
            || (codec.parseDouble(s).value.Finite? && codec.parseDouble(s).value.value >= ExactLimit as real))
  }
}

=== FILE: parameter_files.dfy ===
/** The row loop shared by `writeOATParameterFiles` and
    `writeEFASTParameterFiles`: a sample file written by spartan is read
    line by line, its header skipped, and every following line becomes one
    parameter file through the one-argument `makeParameterValMap`. An
    exception ends the file: the rows before it have been written, the rest
    are not read. */
module ParameterFiles {
  import opened Wrappers
  import opened JavaText
  import opened Dom
  import opened Numbers
  import opened SampleRows
  import opened Engine

  /** How the rows are written: with `sbmlFormat` set, by the SBML writer
      from the baseline model at `metaDataPath` (null when the setting is
      missing); otherwise by the plain-XML writer, which is not part of
      this model. */
  datatype Writer = Writer(sbml: bool, documents: map<string, Tree>, metaDataPath: Option<string>, codec: NumberCodec)

  /** What the writer makes of one row. The SBML writer catches its own
      exceptions, so its outcome is kept whatever it is. */
  datatype Output = SbmlFile(result: Result<Written, Exception>) | PlainFile

  /** One row turned into a parameter file: the folder it goes to, the
      counter the source passes along (`i`), and the override map. */
  datatype Job = Job(directory: string, index: nat, overrides: Overrides, output: Output)

  /** One sample file: the rows written, and the exception that ended the
      file early, if any. */
  datatype FileRun = FileRun(source: string, jobs: seq<Job>, failure: Option<Exception>)

  /** The writer call for one row. Both callers pass null as the file name,
      so an SBML file always lands at `directory + "/null"`; a missing
      baseline path makes `new File(null)` throw, which the writer catches. */
  function WriteRow(w: Writer, m: Overrides, directory: string): (o: Output)
    ensures o.SbmlFile? <==> w.sbml
    ensures w.sbml && w.metaDataPath.None? ==> o == SbmlFile(Err(NullPointer))
    ensures o.SbmlFile? && o.result.Ok? ==> o.result.value.path == directory + "/null"
    ensures w.sbml && w.metaDataPath.Some? && w.metaDataPath.value !in w.documents ==>
              o == SbmlFile(Err(DocumentUnreadable(w.metaDataPath.value)))
  {
    if !w.sbml then PlainFile
    else
      match w.metaDataPath
      case None => SbmlFile(Err(NullPointer))
      case Some(p) => SbmlFile(WriteSimParameterFiles(w.documents, p, m, directory, None, w.codec))
  }

  /** What each row reads as, in order. The source reads a row just before
      writing it; reading has no effect on writing, so reading them first
      changes nothing. */
  function Readings(rows: seq<string>, names: seq<string>, codec: NumberCodec): (r: seq<Result<Overrides, Exception>>)
    ensures |r| == |rows|
    ensures forall k :: 0 <= k < |rows| ==> r[k] == FromSampleLine(rows[k], names, codec)
  {
    seq(|rows|, k requires 0 <= k < |rows| => FromSampleLine(rows[k], names, codec))
  }

  /** The row loop from counter `i` on, over what the rows read as. */
  function ReadRows(source: string, readings: seq<Result<Overrides, Exception>>, directory: string, i: nat, w: Writer)
    : (r: FileRun)
    ensures r.source == source
    ensures |r.jobs| <= |readings|
    ensures r.failure.None? ==> |r.jobs| == |readings|
    decreases |readings|
  {
    if |readings| == 0 then FileRun(source, [], None)
    else
      match readings[0]
      case Err(e) => FileRun(source, [], Some(e))
      case Ok(m) =>
        var rest := ReadRows(source, readings[1..], directory, i + 1, w);
        FileRun(source, [Job(directory, i, m, WriteRow(w, m, directory))] + rest.jobs, rest.failure)
  }

  /** The loop runs to the end exactly when every row reads. */
  lemma {:induction false} ReadRowsCompletes(source: string, readings: seq<Result<Overrides, Exception>>,
                                             directory: string, i: nat, w: Writer)
    ensures ReadRows(source, readings, directory, i, w).failure.None? <==> forall k :: 0 <= k < |readings| ==> readings[k].Ok?
    decreases |readings|
  {
    if |readings| > 0 && readings[0].Ok? {
      ReadRowsCompletes(source, readings[1..], directory, i + 1, w);
      assert forall k :: 1 <= k < |readings| ==> readings[k] == readings[1..][k - 1];
    }
  }

  /** Every row before the stop is written in order, with counters `i`,
      `i + 1`, ..., to `directory`. */
  lemma {:induction false} ReadRowsJobs(source: string, readings: seq<Result<Overrides, Exception>>,
                                        directory: string, i: nat, w: Writer)
    ensures var r := ReadRows(source, readings, directory, i, w);
            forall k :: 0 <= k < |r.jobs| ==>
              readings[k].Ok? && r.jobs[k] == Job(directory, i + k, readings[k].value, WriteRow(w, readings[k].value, directory))
    decreases |readings|
  {
    if |readings| > 0 && readings[0].Ok? {
      var r := ReadRows(source, readings, directory, i, w);
      var rest := ReadRows(source, readings[1..], directory, i + 1, w);
      ReadRowsJobs(source, readings[1..], directory, i + 1, w);
      forall k | 1 <= k < |r.jobs|
        ensures readings[k].Ok? && r.jobs[k] == Job(directory, i + k, readings[k].value, WriteRow(w, readings[k].value, directory))
      {
        assert r.jobs[k] == rest.jobs[k - 1];
        assert readings[k] == readings[1..][k - 1];
      }
    }
  }

  /** The loop stops at the first row that does not read, with that row's
      exception. */
  lemma {:induction false} ReadRowsStops(source: string, readings: seq<Result<Overrides, Exception>>,
                                         directory: string, i: nat, w: Writer)
    ensures var r := ReadRows(source, readings, directory, i, w);
            r.failure.Some? ==> |r.jobs| < |readings| && readings[|r.jobs|] == Err(r.failure.value)
    decreases |readings|
  {
    if |readings| > 0 && readings[0].Ok? {
      ReadRowsStops(source, readings[1..], directory, i + 1, w);
      var r := ReadRows(source, readings, directory, i, w);
      var rest := ReadRows(source, readings[1..], directory, i + 1, w);
      if r.failure.Some? {
        assert readings[|r.jobs|] == readings[1..][|rest.jobs|];
      }
    }
  }

  /** One sample file: a file that cannot be opened is a
      `FileNotFoundException`; the first line is the header and is skipped;
      a file of at most one line has no rows. The counter starts at 0. */
  function ProcessFile(files: map<string, seq<string>>, source: string, names: seq<string>, directory: string, w: Writer)
    : (r: FileRun)
    ensures r.source == source
    ensures source !in files ==> r == FileRun(source, [], Some(FileNotFound(source)))
    ensures source in files && |files[source]| <= 1 ==> r == FileRun(source, [], None)
  {
    if source !in files then FileRun(source, [], Some(FileNotFound(source)))
    else
      var lines := files[source];
      if |lines| <= 1 then FileRun(source, [], None)
      else ReadRows(source, Readings(lines[1..], names, w.codec), directory, 0, w)
  }

  /** A readable sample file is written to the end exactly when every line
      after the header reads as a map. */
  lemma ProcessFileCompletes(files: map<string, seq<string>>, source: string, names: seq<string>, directory: string, w: Writer)
    requires source in files
    ensures var lines := files[source];
            ProcessFile(files, source, names, directory, w).failure.None? <==>
              forall k :: 1 <= k < |lines| ==> FromSampleLine(lines[k], names, w.codec).Ok?
  {
    var lines := files[source];
    if |lines| > 1 {
      var rd := Readings(lines[1..], names, w.codec);
      ReadRowsCompletes(source, rd, directory, 0, w);
      assert forall k :: 1 <= k < |lines| ==> rd[k - 1] == FromSampleLine(lines[k], names, w.codec);
      assert forall k :: 0 <= k < |rd| ==> rd[k] == FromSampleLine(lines[k + 1], names, w.codec);
    }
  }

  /** Job `k` of a readable sample file is line `k + 1` read as a map,
      with counter `k`, written to `directory`. */
  lemma ProcessFileJobs(files: map<string, seq<string>>, source: string, names: seq<string>, directory: string, w: Writer)
    requires source in files
    ensures var r := ProcessFile(files, source, names, directory, w);
            var lines := files[source];
            forall k :: 0 <= k < |r.jobs| ==>
              && k + 1 < |lines|
              && FromSampleLine(lines[k + 1], names, w.codec).Ok?
              && r.jobs[k] == Job(directory, k, FromSampleLine(lines[k + 1], names, w.codec).value, r.jobs[k].output)
              && r.jobs[k].output == WriteRow(w, r.jobs[k].overrides, directory)
  {
    var lines := files[source];
    if |lines| > 1 {
      var rd := Readings(lines[1..], names, w.codec);
      ReadRowsJobs(source, rd, directory, 0, w);
      assert forall k :: 0 <= k < |rd| ==> rd[k] == FromSampleLine(lines[k + 1], names, w.codec);
    }
  }

  /** A sample file that stops early stops at the first line after the
      header that does not read, with that line's exception. */
  lemma ProcessFileStops(files: map<string, seq<string>>, source: string, names: seq<string>, directory: string, w: Writer)
    requires source in files
    ensures var r := ProcessFile(files, source, names, directory, w);
            var lines := files[source];
            r.failure.Some? ==>
              && |r.jobs| + 1 < |lines|
              && FromSampleLine(lines[|r.jobs| + 1], names, w.codec) == Err(r.failure.value)
              && forall k :: 1 <= k <= |r.jobs| ==> FromSampleLine(lines[k], names, w.codec).Ok?
  {
    var lines := files[source];
    if |lines| > 1 {
      var rd := Readings(lines[1..], names, w.codec);
      ReadRowsStops(source, rd, directory, 0, w);
      ReadRowsJobs(source, rd, directory, 0, w);
      assert forall k :: 1 <= k < |lines| ==> rd[k - 1] == FromSampleLine(lines[k], names, w.codec);
    }
  }

  /** The header line is never read: replacing it changes nothing. */
  lemma HeaderIgnored(files: map<string, seq<string>>, source: string, header: string, names: seq<string>,
                      directory: string, w: Writer)
    requires source in files && |files[source]| > 0
    ensures ProcessFile(files[source := [header] + files[source][1..]], source, names, directory, w)
         == ProcessFile(files, source, names, directory, w)
  {
    var lines := files[source];
    var lines' := [header] + lines[1..];
    assert lines'[1..] == lines[1..];
  }

  /** With the SBML writer every row of a file targets the same output
      file, `directory + "/null"`, so each row's model replaces the one
      before it. */
  lemma SbmlRowsShareOnePath(files: map<string, seq<string>>, source: string, names: seq<string>,
                             directory: string, w: Writer)
    ensures var r := ProcessFile(files, source, names, directory, w);
            forall k :: 0 <= k < |r.jobs| && r.jobs[k].output.SbmlFile? && r.jobs[k].output.result.Ok? ==>
              r.jobs[k].output.result.value.path == directory + "/null"
  {
    if source in files {
      ProcessFileJobs(files, source, names, directory, w);
    }
  }
}

=== FILE: robustness.dfy ===
/** `Create_Robustness_Models`: the one-at-a-time (OAT) robustness
    experiment. The settings are checked for OAT, spartan's sampling script
    is generated, and when spartan succeeds one parameter file is written
    for every row of every parameter's sample file. Running R is outside the
    model: its exit code is an input. */
module Robustness {
  import opened Wrappers
  import opened JavaText
  import opened Dom
  import opened Numbers
  import opened Settings
  import opened SpartanScripts
  import opened ParameterFiles

  /** The sample file spartan writes for one parameter. */
  function SamplePath(folder: string, name: string): string {
    folder + "/" + name + "_OAT_Values.csv"
  }

  /** The folder the parameter files for one parameter go to. */
  function ParameterFolder(folder: string, name: string): string {
    folder + "/" + name
  }

  /** The run of one parameter's sample file; every row is read against all
      analysed parameters. */
  function RunFor(files: map<string, seq<string>>, folder: string, analysed: seq<string>, name: string, w: Writer): FileRun {
    ProcessFile(files, SamplePath(folder, name), analysed, ParameterFolder(folder, name), w)
  }

  /** `writeOATParameterFiles`: one sample file per analysed parameter, in
      order. Each file's exception is caught on its own, so a failing file
      does not stop the next. */
  function WriteOatParameterFiles(files: map<string, seq<string>>, folder: string, todo: seq<string>,
                                  analysed: seq<string>, w: Writer): (r: seq<FileRun>)
    ensures |r| == |todo|
    decreases |todo|
  {
    if |todo| == 0 then []
    else [RunFor(files, folder, analysed, todo[0], w)] + WriteOatParameterFiles(files, folder, todo[1..], analysed, w)
  }

  /** The k-th run is the k-th parameter's own sample file, whatever the
      other files hold. */
  lemma {:induction false} OatRunsPerParameter(files: map<string, seq<string>>, folder: string, todo: seq<string>,
                                               analysed: seq<string>, w: Writer)
    ensures var r := WriteOatParameterFiles(files, folder, todo, analysed, w);
            forall k :: 0 <= k < |todo| ==>
              && r[k].source == SamplePath(folder, todo[k])
              && r[k] == ProcessFile(files, SamplePath(folder, todo[k]), analysed, ParameterFolder(folder, todo[k]), w)
    decreases |todo|
  {
    if |todo| > 0 {
      OatRunsPerParameter(files, folder, todo[1..], analysed, w);
      var r := WriteOatParameterFiles(files, folder, todo, analysed, w);
      forall k | 1 <= k < |todo|
        ensures r[k] == ProcessFile(files, SamplePath(folder, todo[k]), analysed, ParameterFolder(folder, todo[k]), w)
      {
        assert todo[k] == todo[1..][k - 1];
      }
    }
  }

  /** A file's run depends on that file alone: changing or removing any
      other file leaves it as it was. */
  lemma RunIsolated(files: map<string, seq<string>>, files': map<string, seq<string>>, folder: string,
                    analysed: seq<string>, name: string, w: Writer)
    requires var p := SamplePath(folder, name); (p in files <==> p in files') && (p in files ==> files[p] == files'[p])
    ensures RunFor(files, folder, analysed, name, w) == RunFor(files', folder, analysed, name, w)
  {
  }

  /** What the constructor ends with. */
  datatype Outcome =
    /** the settings lack a required OAT field: nothing is generated */
    | SettingsRejected(registry: Registry)
    /** the script was generated, or its generation failed and was caught,
        and spartan did not exit with 0 */
    | SamplingFailed(registry: Registry, script: Result<Script, Exception>)
    /** spartan succeeded: the sample files were turned into parameter files */
    | Generated(registry: Registry, script: Result<Script, Exception>, runs: seq<FileRun>)

  /** The writer the constructor sets up from the settings. */
  function WriterOf(file: SettingsFile, documents: map<string, Tree>, codec: NumberCodec): Writer {
    Writer(GetParamBoolean(file, "sbmlFormat"), documents, GetParam(file, "pathToSimulationParameterFile"), codec)
  }

  /** The constructor: an exception from `readParameterInfo` is not caught;
      a failed check generates nothing; otherwise the OAT script is
      generated from the analysed parameters and their min, max, baseline
      and increment (in that order), and spartan's exit code decides whether
      the parameter files are written. */
  function Create(file: SettingsFile, reg: Registry, files: map<string, seq<string>>, documents: map<string, Tree>,
                  exitCode: int, codec: NumberCodec): (r: Result<Outcome, Exception>)
    ensures var read := ReadParameterInfo(reg, "OAT", file, codec);
            && (r.Err? <==> read.Err?)
            && (r.Err? ==> r.error == read.error)
            && (r.Ok? ==> r.value.registry == read.value)
            && (r.Ok? ==> (r.value.SettingsRejected? <==> !read.value.checks.errorCheck))
            && (r.Ok? ==> (r.value.Generated? <==> read.value.checks.errorCheck && exitCode == 0))
    ensures r.Ok? && !r.value.SettingsRejected? ==>
              var c := r.value.registry.columns;
              r.value.script == OatScript(OutputFolder(file, "Robustness"), c.parametersAnalysed, c.minVals, c.maxVals,
                                          c.baselineVals, c.incVals)
    ensures r.Ok? && r.value.Generated? ==> |r.value.runs| == |r.value.registry.columns.parametersAnalysed|
  {
    match ReadParameterInfo(reg, "OAT", file, codec)
    case Err(e) => Err(e)
    case Ok(reg') =>
      if !reg'.checks.errorCheck then Ok(SettingsRejected(reg'))
      else
        var folder := OutputFolder(file, "Robustness");
        var c := reg'.columns;
        var script := OatScript(folder, c.parametersAnalysed, c.minVals, c.maxVals, c.baselineVals, c.incVals);
        if exitCode != 0 then Ok(SamplingFailed(reg', script))
        else
          Ok(Generated(reg', script,
                       WriteOatParameterFiles(files, folder, c.parametersAnalysed, c.parametersAnalysed,
                                              WriterOf(file, documents, codec))))
  }

  /** When parameter files are generated, the k-th run is the sample file
      of the k-th parameter in the settings, read against every parameter's
      name and written to that parameter's folder: row `j` after the header
      becomes the file with counter `j`, carrying that row read as a map. */
  lemma GeneratedRunsFollowSettings(file: SettingsFile, reg: Registry, files: map<string, seq<string>>,
                                    documents: map<string, Tree>, codec: NumberCodec)
    ensures var r := Create(file, reg, files, documents, 0, codec);
            var names := Texts(file.parameters);
            var folder := OutputFolder(file, "Robustness");
            var w := WriterOf(file, documents, codec);
            r.Ok? && r.value.Generated? ==>
              && |r.value.runs| == |file.parameters|
              && forall k :: 0 <= k < |file.parameters| ==>
                   r.value.runs[k] == ProcessFile(files, SamplePath(folder, names[k]), names,
                                                  ParameterFolder(folder, names[k]), w)
  {
    ReadParameterInfoSpec(reg, "OAT", file, codec);
    var r := Create(file, reg, files, documents, 0, codec);
    if r.Ok? && r.value.Generated? {
      var names := Texts(file.parameters);
      OatRunsPerParameter(files, OutputFolder(file, "Robustness"), names, names, WriterOf(file, documents, codec));
    }
  }

  /** When the settings pass and name at least one parameter, the script is
      written: the five lists all have one entry per parameter. */
  lemma ScriptWrittenWhenSettingsPass(file: SettingsFile, reg: Registry, files: map<string, seq<string>>,
                                      documents: map<string, Tree>, exitCode: int, codec: NumberCodec)
    requires |file.parameters| > 0
    ensures var r := Create(file, reg, files, documents, exitCode, codec);
            r.Ok? && !r.value.SettingsRejected? ==> r.value.script.Ok?
  {
    var r := Create(file, reg, files, documents, exitCode, codec);
    if r.Ok? && !r.value.SettingsRejected? {
      ListsStayAligned(reg, "OAT", file, codec);
      var c := r.value.registry.columns;
      ScriptOkWhenAligned(OutputFolder(file, "Robustness"), c.parametersAnalysed, c.minVals, c.maxVals, c.baselineVals, c.incVals);
    }
  }

  /** The generator succeeds when the four lists cover every parameter and
      there is at least one. */
  lemma ScriptOkWhenAligned(folder: string, parameters: seq<string>, minVals: seq<Option<string>>,
                            maxVals: seq<Option<string>>, baseline: seq<Option<string>>, increment: seq<Option<string>>)
    requires 0 < |parameters| <= |minVals| && |parameters| <= |maxVals|
    requires |parameters| <= |baseline| && |parameters| <= |increment|
    ensures OatScript(folder, parameters, minVals, maxVals, baseline, increment).Ok?
  {
    var lengths := [|minVals|, |maxVals|, |baseline|, |increment|];
    assert forall i :: 0 <= i < |lengths| ==> lengths[i] >= |parameters|;
  }

  /** With no parameter at all the script generator fails on `get(-1)`,
      which it catches; whether files are written still rests on spartan's
      exit code alone. */
  lemma NoParametersNoScript(file: SettingsFile, reg: Registry, files: map<string, seq<string>>,
                             documents: map<string, Tree>, exitCode: int, codec: NumberCodec)
    requires file.parameters == []
    ensures var r := Create(file, reg, files, documents, exitCode, codec);
            r.Ok? && !r.value.SettingsRejected? ==> r.value.script == Err(IndexOutOfBounds(-1))
  {
    ListsStayAligned(reg, "OAT", file, codec);
  }
}

=== FILE: sample_rows.dfy ===
/** The two sample-row readers of `FileCreationUtilities.makeParameterValMap`:
    they turn one comma-separated line of sampled values into the override
    map (parameter name to value) handed to the document template engine. */
module SampleRows {
  import opened Wrappers
  import opened JavaText
  import opened Numbers
  import opened Tokenizer

  /** The override map: identifier to the value that replaces its baseline. */
  type Overrides = map<string, Double>

  /** Position `q` holds the last occurrence of its name, so with `put`
      semantics the value stored for that name is the one zipped at `q`. */
  predicate LastOccurrence(names: seq<string>, q: int)
    requires 0 <= q < |names|
  {
    forall j :: q < j < |names| ==> names[j] != names[q]
  }

  /** `Double.parseDouble`, with a rejected text surfacing as the exception. */
  function ParseOrThrow(s: string, parse: string -> Option<Double>): (r: Result<Double, Exception>)
    ensures r.Ok? <==> parse(s).Some?
    ensures r.Ok? ==> r.value == parse(s).value
    ensures r.Err? ==> r.error == NumberFormat(s)
  {
    match parse(s)
    case Some(d) => Ok(d)
    case None => Err(NumberFormat(s))
  }

  // ---------------------------------------------------------------------
  // The zipping loop shared by both readers
  // ---------------------------------------------------------------------

  /** The loop both readers run: the q-th name is put with the reading of
      the q-th value token, first name first, so a repeated name keeps the
      value of its last occurrence. Running out of value tokens is a
      `NoSuchElementException`; surplus value tokens are never read; a token
      that the reader rejects aborts the whole map with that exception. */
  function Zip(names: seq<string>, values: seq<string>,
               reader: Reader, acc: Overrides): (r: Result<Overrides, Exception>)
    ensures r.Ok? <==> |values| >= |names| && forall q :: 0 <= q < |names| ==> Read(reader, values[q]).Ok?
    ensures r.Ok? ==> r.value.Keys == acc.Keys + (set n | n in names)
    ensures r.Ok? ==> forall k :: k in acc && k !in names ==> r.value[k] == acc[k]
    ensures r.Ok? ==> forall q :: 0 <= q < |names| && LastOccurrence(names, q) ==>
                        r.value[names[q]] == Read(reader, values[q]).value
    decreases |names|
  {
    if |names| == 0 then Ok(acc)
    else if |values| == 0 then Err(NoSuchElement)
    else
      match Read(reader, values[0])
      case Err(e) => Err(e)
      case Ok(v) =>
        var r := Zip(names[1..], values[1..], reader, acc[names[0] := v]);
        ZipStep(names, values, reader, acc, v, r);
        r
  }

  /** A failed zip reports either the reading the reader rejected or, when
      every value token present reads, running out of tokens. */
  lemma {:induction false} ZipFailure(names: seq<string>, values: seq<string>, reader: Reader, acc: Overrides)
    ensures var r := Zip(names, values, reader, acc);
            && (r.Err? ==> r.error == NoSuchElement ||
                           exists q :: 0 <= q < |names| && q < |values| && Read(reader, values[q]) == Err(r.error))
            && (r.Err? && (forall q :: 0 <= q < |values| && q < |names| ==> Read(reader, values[q]).Ok?) ==>
                  r.error == NoSuchElement)
    decreases |names|
  {
    if |names| > 0 && |values| > 0 && Read(reader, values[0]).Ok? {
      var v := Read(reader, values[0]).value;
      ZipFailure(names[1..], values[1..], reader, acc[names[0] := v]);
      var r := Zip(names, values, reader, acc);
      assert r == Zip(names[1..], values[1..], reader, acc[names[0] := v]);
      if r.Err? && r.error != NoSuchElement {
        var q :| 0 <= q < |names| - 1 && q < |values| - 1 && Read(reader, values[1..][q]) == Err(r.error);
        assert values[1..][q] == values[q + 1];
      }
    }
  }

  /** The inductive step of `Zip`'s contract, for one put followed by the rest. */
  lemma ZipStep(names: seq<string>, values: seq<string>, reader: Reader,
                acc: Overrides, v: Double, r: Result<Overrides, Exception>)
    requires |names| > 0 && |values| > 0 && Read(reader, values[0]) == Ok(v)
    requires r.Ok? ==> |values| >= |names| && forall q :: 0 <= q < |names| ==> Read(reader, values[q]).Ok?
    requires r.Ok? ==> r.value.Keys == acc[names[0] := v].Keys + (set n | n in names[1..])
    requires r.Ok? ==> forall q :: 0 <= q < |names[1..]| && LastOccurrence(names[1..], q) ==>
                          r.value[names[1..][q]] == Read(reader, values[1..][q]).value
    requires r.Ok? ==> forall k :: k in acc[names[0] := v] && k !in names[1..] ==> r.value[k] == acc[names[0] := v][k]
    ensures r.Ok? ==> r.value.Keys == acc.Keys + (set n | n in names)
    ensures r.Ok? ==> forall q :: 0 <= q < |names| && LastOccurrence(names, q) ==>
                        r.value[names[q]] == Read(reader, values[q]).value
  {
    if r.Ok? {
      assert (set n | n in names) == {names[0]} + (set n | n in names[1..]) by {
        assert names == [names[0]] + names[1..];
      }
      forall q | 0 <= q < |names| && LastOccurrence(names, q)
        ensures r.value[names[q]] == Read(reader, values[q]).value
      {
        if q == 0 {
          assert names[0] !in names[1..] by {
            forall j | 0 <= j < |names[1..]| ensures names[1..][j] != names[0] {
              assert names[1..][j] == names[j + 1];
            }
          }
        } else {
          assert LastOccurrence(names[1..], q - 1);
          assert names[1..][q - 1] == names[q];
          assert values[1..][q - 1] == values[q];
        }
      }
    }
  }

  // ---------------------------------------------------------------------
  // makeParameterValMap(spartanLine): names from the analysed parameters
  // ---------------------------------------------------------------------

  /** How a reader turns one value token into a number: the one-argument
      reader parses it as it stands; the two-argument reader removes its
      quotes and applies the underflow guard. */
  datatype Reader = Plain(parse: string -> Option<Double>) | Guarded(parse: string -> Option<Double>)

  function Read(reader: Reader, t: string): Result<Double, Exception> {
    match reader
    case Plain(parse) => ParseOrThrow(t, parse)
    case Guarded(parse) => ParseValue(Unquote(t), parse)
  }

  /** `makeParameterValMap(spartanLine)`: the line is tokenised on commas
      (empty fields dropped) and zipped against the analysed parameter names. */
  function FromSampleLine(line: string, names: seq<string>, codec: NumberCodec): (r: Result<Overrides, Exception>)
    ensures r.Ok? <==> |Tokens(line)| >= |names| &&
                       forall q :: 0 <= q < |names| ==> codec.parseDouble(Tokens(line)[q]).Some?
    ensures r.Ok? ==> r.value.Keys == (set n | n in names)
    ensures r.Ok? ==> forall q :: 0 <= q < |names| && LastOccurrence(names, q) ==>
                        r.value[names[q]] == codec.parseDouble(Tokens(line)[q]).value
  {
    Zip(names, Tokens(line), Plain(codec.parseDouble), map[])
  }

  /** Value tokens beyond the number of names are never consulted. */
  lemma {:induction false} SurplusTokensIgnored(names: seq<string>, values: seq<string>, extra: seq<string>,
                                                reader: Reader, acc: Overrides)
    requires |values| >= |names|
    ensures Zip(names, values + extra, reader, acc) == Zip(names, values, reader, acc)
    decreases |names|
  {
    if |names| > 0 {
      var ve := values + extra;
      assert ve[0] == values[0];
      assert ve[1..] == values[1..] + extra;
      if Read(reader, values[0]).Ok? {
        var acc' := acc[names[0] := Read(reader, values[0]).value];
        SurplusTokensIgnored(names[1..], values[1..], extra, reader, acc');
        assert Zip(names, ve, reader, acc) == Zip(names[1..], ve[1..], reader, acc');
        assert Zip(names, values, reader, acc) == Zip(names[1..], values[1..], reader, acc');
      }
    }
  }

  // ---------------------------------------------------------------------
  // makeParameterValMap(parameters, values): names from a header line
  // ---------------------------------------------------------------------

  /** `s.replace("\"", "")`: every double quote removed, wherever it is. */
  function Unquote(s: string): (r: string)
    ensures '"' !in r
  {
    RemoveChar(s, '"')
  }

  function UnquoteAll(xs: seq<string>): (r: seq<string>)
    ensures |r| == |xs|
    ensures forall i :: 0 <= i < |xs| ==> r[i] == Unquote(xs[i])
  {
    if |xs| == 0 then [] else [Unquote(xs[0])] + UnquoteAll(xs[1..])
  }

  /** Unquoting undoes wrapping a quote-free text in double quotes. */
  lemma UnquoteQuoted(s: string)
    requires '"' !in s
    ensures Unquote("\"" + s + "\"") == s
  {
    RemoveCharAppend("\"" + s, "\"", '"');
    RemoveCharAppend("\"", s, '"');
  }

  /** The text after the last '-' of a value that contains "e-": the
      exponent magnitude the underflow guard compares with 300. */
  function ExponentText(v: string): (e: string)
    requires Contains(v, "e-")
    ensures |e| < |v|
    ensures '-' !in e
  {
    var i :| OccursAt(v, "e-", i);
    assert v[i + 1] == v[i..i + 2][1] == '-';
    var k := LastIndexOf(v, '-');
    var e := v[k + 1..];
    assert '-' !in e by {
      forall j | 0 <= j < |e| ensures e[j] != '-' {
        assert e[j] == v[k + 1 + j];
      }
    }
    e
  }

  /** The value of one token after unquoting: a token containing "e-" whose
      exponent text reads as more than 300 is stored as 0.0 rather than
      parsed; every other token is parsed as it stands. */
  function ParseValue(v: string, parse: string -> Option<Double>): (r: Result<Double, Exception>)
    ensures r.Ok? && r.value != Finite(0.0) ==> parse(v) == Some(r.value)
    ensures r.Err? ==> r.error == NumberFormat(v) || (Contains(v, "e-") && r.error == NumberFormat(ExponentText(v)))
    ensures !Contains(v, "e-") ==> r == ParseOrThrow(v, parse)
    ensures Contains(v, "e-") && parse(ExponentText(v)).None? ==> r == Err(NumberFormat(ExponentText(v)))
    ensures Contains(v, "e-") && parse(ExponentText(v)).Some? ==>
              r == (if Exceeds(parse(ExponentText(v)).value, 300) then Ok(Finite(0.0)) else ParseOrThrow(v, parse))
  {
    if Contains(v, "e-") then
      var e := ExponentText(v);
      match parse(e)
      case None => Err(NumberFormat(e))
      case Some(x) => if Exceeds(x, 300) then Ok(Finite(0.0)) else ParseOrThrow(v, parse)
    else
      ParseOrThrow(v, parse)
  }

  /** `makeParameterValMap(parameters, values)`: both lines are tokenised on
      commas; the loop runs over the name tokens, each unquoted, and reads the
      value token at the same position. */
  function FromHeaderAndLine(header: string, line: string, codec: NumberCodec): (r: Result<Overrides, Exception>)
    ensures r.Ok? <==> |Tokens(line)| >= |Tokens(header)| &&
                       forall q :: 0 <= q < |Tokens(header)| ==> ParseValue(Unquote(Tokens(line)[q]), codec.parseDouble).Ok?
    ensures r.Ok? ==> r.value.Keys == (set n | n in UnquoteAll(Tokens(header)))
    ensures r.Ok? ==> forall q :: 0 <= q < |Tokens(header)| && LastOccurrence(UnquoteAll(Tokens(header)), q) ==>
                        r.value[Unquote(Tokens(header)[q])] == ParseValue(Unquote(Tokens(line)[q]), codec.parseDouble).value
  {
    Zip(UnquoteAll(Tokens(header)), Tokens(line), Guarded(codec.parseDouble), map[])
  }

  // ---------------------------------------------------------------------
  // The underflow guard
  // ---------------------------------------------------------------------

  /** The underflow guard, stated on the exponent digits and for a parser
      that reads digit strings as `Double.parseDouble` does: for a value
      whose text after the last '-' is a string of decimal digits, a
      magnitude above 300 gives exactly 0.0 and a magnitude of 300 or less
      parses the value as written. */
  lemma ClampThreshold(v: string, codec: NumberCodec)
    requires ReadsDigits(codec)
    requires Contains(v, "e-") && IsDigits(ExponentText(v))
    ensures DigitsValue(ExponentText(v)) > 300 ==> ParseValue(v, codec.parseDouble) == Ok(Finite(0.0))
    ensures DigitsValue(ExponentText(v)) <= 300 ==> ParseValue(v, codec.parseDouble) == ParseOrThrow(v, codec.parseDouble)
  {
    assert codec.parseDouble(ExponentText(v)).Some?;
  }

  /** "-1e-320" underflows and is stored as 0.0. */
  lemma ClampExample(codec: NumberCodec)
    requires ReadsDigits(codec)
    ensures ParseValue("-1e-320", codec.parseDouble) == Ok(Finite(0.0))
  {
    var v := "-1e-320";
    assert OccursAt(v, "e-", 2);
    assert v[3] == '-' && v[4] != '-' && v[5] != '-' && v[6] != '-';
    assert ExponentText(v) == "320";
    assert DigitsValue("320") == 320 by {
      assert "320"[..2] == "32";
      assert "32"[..1] == "3";
    }
    ClampThreshold(v, codec);
  }

  /** "1e-50" is below the threshold and is parsed as written. */
  lemma NoClampExample(codec: NumberCodec)
    requires ReadsDigits(codec)
    ensures ParseValue("1e-50", codec.parseDouble) == ParseOrThrow("1e-50", codec.parseDouble)
  {
    var v := "1e-50";
    assert OccursAt(v, "e-", 1);
    assert v[2] == '-' && v[3] != '-' && v[4] != '-';
    assert ExponentText(v) == "50";
    assert DigitsValue("50") == 50 by {
      assert "50"[..1] == "5";
    }
    ClampThreshold(v, codec);
  }

  /** `s` wrapped in double quotes, as a results file may write its fields. */
  function Quote(s: string): string {
    "\"" + s + "\""
  }

  function QuoteAll(xs: seq<string>): (r: seq<string>)
    ensures |r| == |xs|
    ensures forall i :: 0 <= i < |xs| ==> r[i] == Quote(xs[i])
  {
    if |xs| == 0 then [] else [Quote(xs[0])] + QuoteAll(xs[1..])
  }

  /** Text that can stand as one field of a comma-separated line. */
  predicate PlainField(s: string) {
    s != "" && CommaFree(s) && '"' !in s
  }

  /** Zipping only depends on what each value token reads as. */
  lemma {:induction false} ZipSameReadings(names: seq<string>, values: seq<string>, values': seq<string>,
                                           reader: Reader, acc: Overrides)
    requires |values| == |values'|
    requires forall q :: 0 <= q < |values| ==> Read(reader, values[q]) == Read(reader, values'[q])
    ensures Zip(names, values, reader, acc) == Zip(names, values', reader, acc)
    decreases |names|
  {
    if |names| > 0 && |values| > 0 && Read(reader, values[0]).Ok? {
      ZipSameReadings(names[1..], values[1..], values'[1..], reader, acc[names[0] := Read(reader, values[0]).value]);
    }
  }

  /** Quoted plain fields joined with commas tokenise back into the quoted fields. */
  lemma TokensOfQuoted(fields: seq<string>)
    requires forall i :: 0 <= i < |fields| ==> PlainField(fields[i])
    ensures Tokens(Join(QuoteAll(fields), ",")) == QuoteAll(fields)
    ensures Tokens(Join(fields, ",")) == fields
  {
    var q := QuoteAll(fields);
    forall i | 0 <= i < |q| ensures q[i] != "" && CommaFree(q[i]) {
      assert q[i] == "\"" + fields[i] + "\"";
    }
    TokensOfJoin(q);
    TokensOfJoin(fields);
  }

  /** Unquoting quoted quote-free names gives the names back. */
  lemma UnquoteAllQuoted(names: seq<string>)
    requires forall i :: 0 <= i < |names| ==> '"' !in names[i]
    ensures UnquoteAll(QuoteAll(names)) == UnquoteAll(names) == names
  {
    forall i | 0 <= i < |names| ensures UnquoteAll(QuoteAll(names))[i] == names[i] {
      UnquoteQuoted(names[i]);
    }
  }

  /** Double quotes around the fields of a results file change nothing: a
      header and a value line whose fields are all quoted read as the same
      map as the unquoted lines ("\"a\",\"b\"" with "\"1.0\",\"2.0\""
      reads as "a,b" with "1.0,2.0", that is {a: 1.0, b: 2.0}). */
  lemma QuotingIsTransparent(names: seq<string>, values: seq<string>, codec: NumberCodec)
    requires forall i :: 0 <= i < |names| ==> PlainField(names[i])
    requires forall i :: 0 <= i < |values| ==> PlainField(values[i])
    ensures FromHeaderAndLine(Join(QuoteAll(names), ","), Join(QuoteAll(values), ","), codec)
         == FromHeaderAndLine(Join(names, ","), Join(values, ","), codec)
  {
    var qv := QuoteAll(values);
    TokensOfQuoted(names);
    TokensOfQuoted(values);
    UnquoteAllQuoted(names);
    var reader := Guarded(codec.parseDouble);
    forall i | 0 <= i < |values| ensures Read(reader, qv[i]) == Read(reader, values[i]) {
      UnquoteQuoted(values[i]);
    }
    ZipSameReadings(names, qv, values, reader, map[]);
  }
}

=== FILE: settings.dfy ===
/** The sensitivity-analysis settings file as `XMLFileUtilities` reads it:
    single-valued fields, comma-separated list fields, and the
    `<parameter>` elements `readParameterInfo` validates against the rules
    of each analysis method. The class's static lists and flags become a
    `Registry` value handed from call to call. */
module Settings {
  import opened Wrappers
  import opened JavaText
  import opened Numbers
  import opened Tokenizer

  /** A `<parameter>` element: its text (the parameter's name) and its
      attributes. */
  datatype ParameterElement = ParameterElement(text: string, attributes: map<string, string>)

  /** `getAttributeValue`: null when the attribute is absent. */
  function Attr(e: ParameterElement, name: string): Option<string> {
    if name in e.attributes then Some(e.attributes[name]) else None
  }

  /** The parsed settings file: the text of the first child element of the
      root with each name, and the `<parameter>` children in document order. */
  datatype SettingsFile = SettingsFile(fields: map<string, string>, parameters: seq<ParameterElement>)

  /** `getParam`: the text of the named field, null when there is none. */
  function GetParam(file: SettingsFile, name: string): Option<string> {
    if name in file.fields then Some(file.fields[name]) else None
  }

  /** The folder an experiment writes to: the configured
      `parameterFileOutputFolder` (the text "null" when it is missing, as
      Java's string concatenation makes it) followed by "/<experiment>/". */
  function OutputFolder(file: SettingsFile, experiment: string): (f: string)
    ensures GetParam(file, "parameterFileOutputFolder").Some? ==>
              f == GetParam(file, "parameterFileOutputFolder").value + "/" + experiment + "/"
    ensures GetParam(file, "parameterFileOutputFolder").None? ==> f == "null/" + experiment + "/"
  {
    Str(GetParam(file, "parameterFileOutputFolder")) + "/" + experiment + "/"
  }

  /** `getParamBoolean`: `Boolean.parseBoolean` of the field. */
  function GetParamBoolean(file: SettingsFile, name: string): bool {
    ParseBoolean(GetParam(file, name))
  }

  /** `getParamInteger`: `Integer.parseInt` of the field; a missing field
      is parsed as null, which `parseInt` rejects. */
  function GetParamInteger(file: SettingsFile, name: string, codec: NumberCodec): (r: Result<int, Exception>)
    ensures r.Ok? <==> GetParam(file, name).Some? && codec.parseInt(GetParam(file, name).value).Some?
    ensures r.Ok? ==> codec.parseInt(GetParam(file, name).value) == Some(r.value)
  {
    match GetParam(file, name)
    case None => Err(NumberFormat("null"))
    case Some(s) =>
      match codec.parseInt(s)
      case None => Err(NumberFormat(s))
      case Some(i) => Ok(i)
  }

  // ---------------------------------------------------------------------
  // The comma-list getters
  // ---------------------------------------------------------------------

  /** Parse every token in order; the first token the parser rejects is
      the `NumberFormatException`. */
  function ParseAll<T>(tokens: seq<string>, parse: string -> Option<T>): (r: Result<seq<T>, Exception>)
    ensures r.Ok? ==> |r.value| == |tokens|
  {
    if |tokens| == 0 then Ok([])
    else
      match parse(tokens[0])
      case None => Err(NumberFormat(tokens[0]))
      case Some(v) =>
        var rest := ParseAll(tokens[1..], parse);
        if rest.Err? then Err(rest.error)
        else Ok([v] + rest.value)
  }

  /** Token `i` is the first one the parser rejects. */
  predicate FirstRejected<T>(tokens: seq<string>, parse: string -> Option<T>, i: int) {
    0 <= i < |tokens| && parse(tokens[i]).None? && forall j :: 0 <= j < i ==> parse(tokens[j]).Some?
  }

  /** Parsing succeeds exactly when every token parses, and then yields the
      tokens' values in order; a failure names the first token the parser
      rejects. */
  lemma {:induction false} ParseAllSpec<T>(tokens: seq<string>, parse: string -> Option<T>)
    ensures var r := ParseAll(tokens, parse);
            && (r.Ok? <==> forall i :: 0 <= i < |tokens| ==> parse(tokens[i]).Some?)
            && (r.Ok? ==> forall i :: 0 <= i < |tokens| ==> parse(tokens[i]) == Some(r.value[i]))
            && (r.Err? ==> exists i :: FirstRejected(tokens, parse, i) && r.error == NumberFormat(tokens[i]))
    decreases tokens
  {
    if |tokens| > 0 {
      ParseAllSpec(tokens[1..], parse);
      var r := ParseAll(tokens, parse);
      var rest := ParseAll(tokens[1..], parse);
      if parse(tokens[0]).None? {
        assert FirstRejected(tokens, parse, 0);
      } else {
        if rest.Err? {
          var i :| FirstRejected(tokens[1..], parse, i) && rest.error == NumberFormat(tokens[1..][i]);
          assert tokens[i + 1] == tokens[1..][i];
          assert forall j :: 1 <= j <= i ==> tokens[j] == tokens[1..][j - 1];
          assert FirstRejected(tokens, parse, i + 1);
        } else {
          forall i | 0 <= i < |tokens| ensures parse(tokens[i]) == Some(r.value[i]) {
            if i > 0 {
              assert tokens[i] == tokens[1..][i - 1];
            }
          }
        }
      }
    }
  }

  /** `getParamStringList`: the comma tokens of the field; a missing field
      makes the tokenizer throw. */
  function GetParamStringList(file: SettingsFile, name: string): (r: Result<seq<string>, Exception>)
    ensures r.Ok? <==> GetParam(file, name).Some?
    ensures r.Err? ==> r.error == NullPointer
    ensures r.Ok? ==> forall i :: 0 <= i < |r.value| ==> r.value[i] != "" && CommaFree(r.value[i])
  {
    match GetParam(file, name)
    case None => Err(NullPointer)
    case Some(s) => Ok(Tokens(s))
  }

  /** `getParamIntegerList`: a missing field throws `NullPointerException`;
      a present one succeeds exactly when every token parses, and otherwise
      fails on the first token `Integer.parseInt` rejects. */
  function GetParamIntegerList(file: SettingsFile, name: string, codec: NumberCodec): (r: Result<seq<int>, Exception>)
    ensures GetParam(file, name).None? ==> r == Err(NullPointer)
    ensures r.Ok? <==> GetParam(file, name).Some? &&
                       var ts := Tokens(GetParam(file, name).value);
                       forall i :: 0 <= i < |ts| ==> codec.parseInt(ts[i]).Some?
    ensures r.Err? && GetParam(file, name).Some? ==>
              var ts := Tokens(GetParam(file, name).value);
              exists i :: FirstRejected(ts, codec.parseInt, i) && r.error == NumberFormat(ts[i])
    ensures r.Ok? ==> var ts := Tokens(GetParam(file, name).value);
                      |r.value| == |ts| && forall i :: 0 <= i < |ts| ==> codec.parseInt(ts[i]) == Some(r.value[i])
  {
    match GetParamStringList(file, name)
    case Err(e) => Err(e)
    case Ok(ts) => ParseAllSpec(ts, codec.parseInt); ParseAll(ts, codec.parseInt)
  }

  /** `getParamDoubleList`: a missing field throws `NullPointerException`;
      a present one succeeds exactly when every token parses, and otherwise
      fails on the first token `Double.parseDouble` rejects. */
  function GetParamDoubleList(file: SettingsFile, name: string, codec: NumberCodec): (r: Result<seq<Double>, Exception>)
    ensures GetParam(file, name).None? ==> r == Err(NullPointer)
    ensures r.Ok? <==> GetParam(file, name).Some? &&
                       var ts := Tokens(GetParam(file, name).value);
                       forall i :: 0 <= i < |ts| ==> codec.parseDouble(ts[i]).Some?
    ensures r.Err? && GetParam(file, name).Some? ==>
              var ts := Tokens(GetParam(file, name).value);
              exists i :: FirstRejected(ts, codec.parseDouble, i) && r.error == NumberFormat(ts[i])
    ensures r.Ok? ==> var ts := Tokens(GetParam(file, name).value);
                      |r.value| == |ts| && forall i :: 0 <= i < |ts| ==> codec.parseDouble(ts[i]) == Some(r.value[i])
  {
    match GetParamStringList(file, name)
    case Err(e) => Err(e)
    case Ok(ts) => ParseAllSpec(ts, codec.parseDouble); ParseAll(ts, codec.parseDouble)
  }

  /** A list written as its items joined with commas reads back as those
      items, in order, provided no item is empty or holds a comma. */
  lemma StringListRoundTrip(file: SettingsFile, name: string, items: seq<string>)
    requires forall i :: 0 <= i < |items| ==> items[i] != "" && CommaFree(items[i])
    requires GetParam(file, name) == Some(Join(items, ","))
    ensures GetParamStringList(file, name) == Ok(items)
  {
    TokensOfJoin(items);
  }

  // ---------------------------------------------------------------------
  // readParameterInfo and checkValueEntered
  // ---------------------------------------------------------------------

  /** A field a parameter should have specified but did not. */
  datatype Diagnostic = NoEntry(analysis: string, parameter: string, field: string)

  /** The line `checkValueEntered` prints for a missing field. */
  function Message(d: Diagnostic): string {
    "Analysis Method: " + d.analysis + " , Parameter: " + d.parameter + " . No entry in XML file for " + d.field + " field"
  }

  /** The six per-parameter lists: one entry per `<parameter>`. */
  datatype Columns = Columns(
    parametersAnalysed: seq<string>,
    parameterType: seq<Option<string>>,
    minVals: seq<Option<string>>,
    maxVals: seq<Option<string>>,
    incVals: seq<Option<string>>,
    baselineVals: seq<Option<string>>)

  /** What the method checks leave behind: the OAT value lists, the two
      flags, and the lines printed so far. */
  datatype Checks = Checks(values: seq<string>, errorCheck: bool, oatValuesFlag: bool, log: seq<Diagnostic>)

  /** The static state of `XMLFileUtilities` that `readParameterInfo` fills. */
  datatype Registry = Registry(columns: Columns, sbmlSetValues: seq<Double>, checks: Checks)

  /** The state when the class is loaded: no error yet, no OAT values. */
  const InitialRegistry := Registry(Columns([], [], [], [], [], []), [], Checks([], true, false, []))

  /** `checkValueEntered`: a missing field clears `errorCheck` and is
      reported; a present one changes nothing. The flag is never set back
      to true. */
  function CheckValueEntered(st: Checks, field: Option<string>, description: string, parameter: string, analysis: string)
    : (r: Checks)
    ensures r.errorCheck == (st.errorCheck && field.Some?)
    ensures r.log == st.log + (if field.None? then [NoEntry(analysis, parameter, description)] else [])
    ensures r.values == st.values && r.oatValuesFlag == st.oatValuesFlag
  {
    if field.None? then st.(errorCheck := false, log := st.log + [NoEntry(analysis, parameter, description)])
    else st
  }

  /** The diagnostic for one field, if the parameter lacks it. */
  function Missed(analysis: string, e: ParameterElement, f: string): seq<Diagnostic> {
    if Attr(e, f).None? then [NoEntry(analysis, e.text, f)] else []
  }

  /** The required fields a parameter lacks, in order. OAT needs min, max,
      inc and baseline unless the parameter lists its `values`; eFAST and
      LHC need min and max; SBMLMod needs value; any other method needs
      nothing. */
  function MissingOf(analysis: string, e: ParameterElement): (r: seq<Diagnostic>)
    ensures forall j :: 0 <= j < |r| ==> Attr(e, r[j].field).None? && r[j].parameter == e.text && r[j].analysis == analysis
  {
    if analysis == "OAT" then
      (if Attr(e, "values").Some? then []
       else Missed(analysis, e, "min") + Missed(analysis, e, "max") + Missed(analysis, e, "inc") + Missed(analysis, e, "baseline"))
    else if analysis == "eFAST" || analysis == "LHC" then Missed(analysis, e, "min") + Missed(analysis, e, "max")
    else if analysis == "SBMLMod" then Missed(analysis, e, "value")
    else []
  }

  /** Every missing required field of every parameter, in document order. */
  function Missing(analysis: string, ps: seq<ParameterElement>): seq<Diagnostic> {
    if |ps| == 0 then []
    else MissingOf(analysis, ps[0]) + Missing(analysis, ps[1..])
  }

  /** The parameters' names, in order. */
  function Texts(ps: seq<ParameterElement>): (r: seq<string>)
    ensures |r| == |ps| && forall i :: 0 <= i < |ps| ==> r[i] == ps[i].text
  {
    if |ps| == 0 then [] else [ps[0].text] + Texts(ps[1..])
  }

  /** One attribute of every parameter, null where absent, in order. */
  function Column(ps: seq<ParameterElement>, name: string): (r: seq<Option<string>>)
    ensures |r| == |ps|
  {
    if |ps| == 0 then [] else [Attr(ps[0], name)] + Column(ps[1..], name)
  }

  /** The values of one attribute over the parameters that carry it. */
  function Present(ps: seq<ParameterElement>, name: string): seq<string> {
    if |ps| == 0 then [] else Listed(ps[0], name) + Present(ps[1..], name)
  }

  /** The attribute's value as a list of at most one item. */
  function Listed(e: ParameterElement, name: string): seq<string> {
    match Attr(e, name) case Some(v) => [v] case None => []
  }

  /** Some parameter lists its OAT `values`. */
  predicate AnyValues(ps: seq<ParameterElement>) {
    exists i :: 0 <= i < |ps| && Attr(ps[i], "values").Some?
  }

  /** `checkValueEntered` on one attribute of a parameter: exactly what
      `Missed` lists is reported. */
  function CheckField(st: Checks, analysis: string, e: ParameterElement, f: string): (r: Checks)
    ensures r.log == st.log + Missed(analysis, e, f)
    ensures r.errorCheck == (st.errorCheck && Missed(analysis, e, f) == [])
    ensures r.values == st.values && r.oatValuesFlag == st.oatValuesFlag
  {
    CheckValueEntered(st, Attr(e, f), f, e.text, analysis)
  }

  /** The min and max checks, in that order. */
  function CheckRange(st: Checks, analysis: string, e: ParameterElement): (r: Checks)
    ensures r.log == st.log + Missed(analysis, e, "min") + Missed(analysis, e, "max")
    ensures r.errorCheck == (st.errorCheck && Missed(analysis, e, "min") + Missed(analysis, e, "max") == [])
    ensures r.values == st.values && r.oatValuesFlag == st.oatValuesFlag
  {
    CheckField(CheckField(st, analysis, e, "min"), analysis, e, "max")
  }

  /** The OAT checks of a parameter without `values`: min, max, inc and
      baseline, in that order. */
  function CheckOat(st: Checks, analysis: string, e: ParameterElement): (r: Checks)
    ensures r.log == st.log + Missed(analysis, e, "min") + Missed(analysis, e, "max")
                            + Missed(analysis, e, "inc") + Missed(analysis, e, "baseline")
    ensures r.errorCheck == (st.errorCheck && Missed(analysis, e, "min") + Missed(analysis, e, "max")
                            + Missed(analysis, e, "inc") + Missed(analysis, e, "baseline") == [])
    ensures r.values == st.values && r.oatValuesFlag == st.oatValuesFlag
  {
    CheckField(CheckField(CheckRange(st, analysis, e), analysis, e, "inc"), analysis, e, "baseline")
  }

  /** The per-parameter checks: with OAT a `values` list is recorded and
      sets the flag, otherwise min, max, inc and baseline are checked; with
      eFAST or LHC min and max are; with SBMLMod value is. What is reported
      is exactly what `MissingOf` lists. */
  function Validate(st: Checks, analysis: string, e: ParameterElement): (r: Checks)
    ensures r.log == st.log + MissingOf(analysis, e)
    ensures r.errorCheck == (st.errorCheck && MissingOf(analysis, e) == [])
    ensures r.values == st.values + (if analysis == "OAT" && Attr(e, "values").Some? then [Attr(e, "values").value] else [])
    ensures r.oatValuesFlag == (st.oatValuesFlag || (analysis == "OAT" && Attr(e, "values").Some?))
  {
    if analysis == "OAT" then
      match Attr(e, "values")
      case Some(vs) => st.(values := st.values + [vs], oatValuesFlag := true)
      case None => CheckOat(st, analysis, e)
    else if analysis == "eFAST" || analysis == "LHC" then CheckRange(st, analysis, e)
    else if analysis == "SBMLMod" then CheckField(st, analysis, e, "value")
    else st
  }

  /** A `value` attribute, when present, is parsed onto `sbmlSetValues`; a
      malformed one throws. */
  function AddSetValue(vals: seq<Double>, e: ParameterElement, codec: NumberCodec): (r: Result<seq<Double>, Exception>)
    ensures r.Ok? <==> (Attr(e, "value").Some? ==> codec.parseDouble(Attr(e, "value").value).Some?)
    ensures r.Err? ==> r.error == NumberFormat(Attr(e, "value").value)
    ensures r.Ok? ==> r.value == vals + (if Attr(e, "value").Some? then [codec.parseDouble(Attr(e, "value").value).value] else [])
  {
    match Attr(e, "value")
    case None => Ok(vals)
    case Some(v) =>
      match codec.parseDouble(v)
      case None => Err(NumberFormat(v))
      case Some(d) => Ok(vals + [d])
  }

  /** Name, type, min, max, inc and baseline each gain one entry, null
      where the parameter lacks the attribute. */
  function AppendColumns(cols: Columns, e: ParameterElement): Columns {
    Columns(
      cols.parametersAnalysed + [e.text],
      cols.parameterType + [Attr(e, "type")],
      cols.minVals + [Attr(e, "min")],
      cols.maxVals + [Attr(e, "max")],
      cols.incVals + [Attr(e, "inc")],
      cols.baselineVals + [Attr(e, "baseline")])
  }

  /** The state after one `<parameter>`. */
  function ReadParameter(reg: Registry, analysis: string, e: ParameterElement, codec: NumberCodec): Result<Registry, Exception> {
    var vals := AddSetValue(reg.sbmlSetValues, e, codec);
    if vals.Err? then Err(vals.error)
    else Ok(Registry(AppendColumns(reg.columns, e), vals.value, Validate(reg.checks, analysis, e)))
  }

  /** The `readParameterInfo` loop over the parameters in document order. */
  function ReadParameters(reg: Registry, analysis: string, ps: seq<ParameterElement>, codec: NumberCodec)
    : Result<Registry, Exception>
    decreases ps
  {
    if |ps| == 0 then Ok(reg)
    else
      var next := ReadParameter(reg, analysis, ps[0], codec);
      if next.Err? then next
      else ReadParameters(next.value, analysis, ps[1..], codec)
  }

  /** `readParameterInfo`: the eight lists start empty, `errorCheck` and
      `oatValuesFlag` carry over from earlier calls, and the boolean the
      source returns is the final `errorCheck`. */
  function ReadParameterInfo(reg: Registry, analysis: string, file: SettingsFile, codec: NumberCodec)
    : Result<Registry, Exception>
  {
    ReadParameters(Registry(Columns([], [], [], [], [], []), [], reg.checks.(values := [])), analysis, file.parameters, codec)
  }

  /** The loop fails exactly when some `value` attribute does not parse. */
  lemma {:induction false} ReadParametersSucceeds(reg: Registry, analysis: string, ps: seq<ParameterElement>, codec: NumberCodec)
    ensures ReadParameters(reg, analysis, ps, codec).Ok? <==> forall v :: v in Present(ps, "value") ==> codec.parseDouble(v).Some?
    decreases ps
  {
    if |ps| > 0 {
      var e := ps[0];
      var next := ReadParameter(reg, analysis, e, codec);
      assert Present(ps, "value") == Listed(e, "value") + Present(ps[1..], "value");
      if next.Ok? {
        ReadParametersSucceeds(next.value, analysis, ps[1..], codec);
      }
    }
  }

  /** The per-parameter lists after appending every parameter in turn. */
  function ColumnsAfter(c: Columns, ps: seq<ParameterElement>): Columns
    decreases ps
  {
    if |ps| == 0 then c else ColumnsAfter(AppendColumns(c, ps[0]), ps[1..])
  }

  /** The five attributes recorded per parameter besides its name. */
  datatype Recorded = Type | Min | Max | Inc | Baseline

  /** The attribute's name in the settings file. */
  function AttributeName(k: Recorded): string {
    match k
    case Type => "type"
    case Min => "min"
    case Max => "max"
    case Inc => "inc"
    case Baseline => "baseline"
  }

  /** The list that records attribute `k`. */
  function AttributeList(c: Columns, k: Recorded): seq<Option<string>> {
    match k
    case Type => c.parameterType
    case Min => c.minVals
    case Max => c.maxVals
    case Inc => c.incVals
    case Baseline => c.baselineVals
  }

  /** Appending parameter by parameter extends the names by the
      parameters' names. */
  lemma {:induction false} ColumnsAfterNames(c: Columns, ps: seq<ParameterElement>)
    ensures ColumnsAfter(c, ps).parametersAnalysed == c.parametersAnalysed + Texts(ps)
    decreases ps
  {
    if |ps| > 0 {
      var c' := AppendColumns(c, ps[0]);
      ColumnsAfterNames(c', ps[1..]);
      assert ColumnsAfter(c, ps) == ColumnsAfter(c', ps[1..]);
      assert Texts(ps) == [ps[0].text] + Texts(ps[1..]);
      assert c'.parametersAnalysed == c.parametersAnalysed + [ps[0].text];
      Regroup(c.parametersAnalysed, [ps[0].text], Texts(ps[1..]));
    }
  }

  /** Appending parameter by parameter extends each attribute list by that
      attribute's column, null where absent. */
  lemma {:induction false} ColumnsAfterAttribute(c: Columns, ps: seq<ParameterElement>, k: Recorded)
    ensures AttributeList(ColumnsAfter(c, ps), k) == AttributeList(c, k) + Column(ps, AttributeName(k))
    decreases ps
  {
    if |ps| > 0 {
      var c' := AppendColumns(c, ps[0]);
      var name := AttributeName(k);
      ColumnsAfterAttribute(c', ps[1..], k);
      AttributeStep(c, ps, k);
      Regroup(AttributeList(c, k), [Attr(ps[0], name)], Column(ps[1..], name));
    }
  }

  /** One step of the appending, on attribute `k`'s list and its column. */
  lemma AttributeStep(c: Columns, ps: seq<ParameterElement>, k: Recorded)
    requires |ps| > 0
    ensures var c' := AppendColumns(c, ps[0]);
            var name := AttributeName(k);
            && ColumnsAfter(c, ps) == ColumnsAfter(c', ps[1..])
            && Column(ps, name) == [Attr(ps[0], name)] + Column(ps[1..], name)
            && AttributeList(c', k) == AttributeList(c, k) + [Attr(ps[0], name)]
  {
  }

  /** All six lists at once. */
  lemma ColumnsAfterSpec(c: Columns, ps: seq<ParameterElement>)
    ensures ColumnsAfter(c, ps)
         == Columns(c.parametersAnalysed + Texts(ps), c.parameterType + Column(ps, "type"),
                    c.minVals + Column(ps, "min"), c.maxVals + Column(ps, "max"),
                    c.incVals + Column(ps, "inc"), c.baselineVals + Column(ps, "baseline"))
  {
    ColumnsAfterNames(c, ps);
    ColumnsAfterAttribute(c, ps, Type);
    ColumnsAfterAttribute(c, ps, Min);
    ColumnsAfterAttribute(c, ps, Max);
    ColumnsAfterAttribute(c, ps, Inc);
    ColumnsAfterAttribute(c, ps, Baseline);
  }

  /** The loop appends to the per-parameter lists exactly as
      `ColumnsAfter` does. */
  lemma {:induction false} ReadParametersColumns(reg: Registry, analysis: string, ps: seq<ParameterElement>, codec: NumberCodec)
    ensures var r := ReadParameters(reg, analysis, ps, codec);
            r.Ok? ==> r.value.columns == ColumnsAfter(reg.columns, ps)
    decreases ps
  {
    if |ps| > 0 {
      var next := ReadParameter(reg, analysis, ps[0], codec);
      if next.Ok? {
        ReadParametersColumns(next.value, analysis, ps[1..], codec);
      }
    }
  }

  /** Parsing a concatenation parses each part. */
  lemma {:induction false} ParseAllAppend<T>(a: seq<string>, b: seq<string>, parse: string -> Option<T>)
    ensures ParseAll(a + b, parse).Ok? <==> ParseAll(a, parse).Ok? && ParseAll(b, parse).Ok?
    ensures ParseAll(a + b, parse).Ok? ==> ParseAll(a + b, parse).value == ParseAll(a, parse).value + ParseAll(b, parse).value
    decreases a
  {
    if |a| == 0 {
      assert a + b == b;
    } else {
      assert (a + b)[0] == a[0] && (a + b)[1..] == a[1..] + b;
      ParseAllAppend(a[1..], b, parse);
    }
  }

  /** One step of the loop on `sbmlSetValues` is the parse of the
      parameter's `value`, if it has one. */
  lemma AddSetValueParses(vals: seq<Double>, e: ParameterElement, codec: NumberCodec)
    ensures var r := AddSetValue(vals, e, codec);
            var parsed := ParseAll(Listed(e, "value"), codec.parseDouble);
            (r.Ok? <==> parsed.Ok?) && (r.Ok? ==> r.value == vals + parsed.value)
  {
    if Attr(e, "value").Some? {
      var v := Attr(e, "value").value;
      assert Listed(e, "value") == [v] && [v][1..] == [];
    }
  }

  /** The loop fails exactly when parsing every `value` attribute, in
      order, fails. */
  lemma {:induction false} ReadParametersParse(reg: Registry, analysis: string, ps: seq<ParameterElement>, codec: NumberCodec)
    ensures ReadParameters(reg, analysis, ps, codec).Ok? <==> ParseAll(Present(ps, "value"), codec.parseDouble).Ok?
    decreases ps
  {
    if |ps| > 0 {
      var e := ps[0];
      var next := ReadParameter(reg, analysis, e, codec);
      AddSetValueParses(reg.sbmlSetValues, e, codec);
      ParseAllAppend(Listed(e, "value"), Present(ps[1..], "value"), codec.parseDouble);
      if next.Ok? {
        ReadParametersParse(next.value, analysis, ps[1..], codec);
      }
    }
  }

  /** `sbmlSetValues` gains the parsed `value` of exactly the parameters
      that carry one, in order. */
  lemma {:induction false} ReadParametersSetValues(reg: Registry, analysis: string, ps: seq<ParameterElement>, codec: NumberCodec)
    ensures var r := ReadParameters(reg, analysis, ps, codec);
            var parsed := ParseAll(Present(ps, "value"), codec.parseDouble);
            r.Ok? && parsed.Ok? ==> r.value.sbmlSetValues == reg.sbmlSetValues + parsed.value
    decreases ps
  {
    if |ps| > 0 && ReadParameter(reg, analysis, ps[0], codec).Ok? {
      var n := ReadParameter(reg, analysis, ps[0], codec).value;
      SetValuesStep(reg, analysis, ps, codec);
      ReadParametersSetValues(n, analysis, ps[1..], codec);
      var head := ParseAll(Listed(ps[0], "value"), codec.parseDouble);
      var tail := ParseAll(Present(ps[1..], "value"), codec.parseDouble);
      if tail.Ok? {
        Regroup(reg.sbmlSetValues, head.value, tail.value);
      }
    }
  }

  /** One step of the loop, on `sbmlSetValues` and on the parsed values. */
  lemma SetValuesStep(reg: Registry, analysis: string, ps: seq<ParameterElement>, codec: NumberCodec)
    requires |ps| > 0 && ReadParameter(reg, analysis, ps[0], codec).Ok?
    ensures var n := ReadParameter(reg, analysis, ps[0], codec).value;
            var head := ParseAll(Listed(ps[0], "value"), codec.parseDouble);
            var tail := ParseAll(Present(ps[1..], "value"), codec.parseDouble);
            var all := ParseAll(Present(ps, "value"), codec.parseDouble);
            && ReadParameters(reg, analysis, ps, codec) == ReadParameters(n, analysis, ps[1..], codec)
            && head.Ok? && n.sbmlSetValues == reg.sbmlSetValues + head.value
            && (all.Ok? <==> tail.Ok?)
            && (all.Ok? ==> all.value == head.value + tail.value)
  {
    var e := ps[0];
    assert Present(ps, "value") == Listed(e, "value") + Present(ps[1..], "value");
    AddSetValueParses(reg.sbmlSetValues, e, codec);
    ParseAllAppend(Listed(e, "value"), Present(ps[1..], "value"), codec.parseDouble);
  }

  /** Concatenation regroups. */
  lemma Regroup<T>(a: seq<T>, b: seq<T>, c: seq<T>)
    ensures a + (b + c) == (a + b) + c
  {
  }

  /** The checks after validating every parameter in turn. */
  function ChecksAfter(st: Checks, analysis: string, ps: seq<ParameterElement>): Checks
    decreases ps
  {
    if |ps| == 0 then st else ChecksAfter(Validate(st, analysis, ps[0]), analysis, ps[1..])
  }

  /** The loop validates parameter by parameter exactly as `ChecksAfter`
      does. */
  lemma {:induction false} ReadParametersChecks(reg: Registry, analysis: string, ps: seq<ParameterElement>, codec: NumberCodec)
    ensures var r := ReadParameters(reg, analysis, ps, codec);
            r.Ok? ==> r.value.checks == ChecksAfter(reg.checks, analysis, ps)
    decreases ps
  {
    if |ps| > 0 {
      var next := ReadParameter(reg, analysis, ps[0], codec);
      if next.Ok? {
        ReadParametersChecks(next.value, analysis, ps[1..], codec);
      }
    }
  }

  /** Every missing required field is reported, in order, with no stop at
      the first, and `errorCheck` ends true only if it was true before and
      nothing was missing. */
  lemma {:induction false} ChecksAfterReports(st: Checks, analysis: string, ps: seq<ParameterElement>)
    ensures ChecksAfter(st, analysis, ps).log == st.log + Missing(analysis, ps)
    ensures ChecksAfter(st, analysis, ps).errorCheck == (st.errorCheck && Missing(analysis, ps) == [])
    decreases ps
  {
    if |ps| > 0 {
      var st' := Validate(st, analysis, ps[0]);
      ChecksAfterReports(st', analysis, ps[1..]);
      assert ChecksAfter(st, analysis, ps) == ChecksAfter(st', analysis, ps[1..]);
      assert Missing(analysis, ps) == MissingOf(analysis, ps[0]) + Missing(analysis, ps[1..]);
      Regroup(st.log, MissingOf(analysis, ps[0]), Missing(analysis, ps[1..]));
    }
  }

  /** Under OAT the `values` lists are recorded in order; under any other
      method none is. */
  lemma {:induction false} ChecksAfterValues(st: Checks, analysis: string, ps: seq<ParameterElement>)
    ensures ChecksAfter(st, analysis, ps).values == st.values + (if analysis == "OAT" then Present(ps, "values") else [])
    decreases ps
  {
    if |ps| > 0 {
      var st' := Validate(st, analysis, ps[0]);
      ChecksAfterValues(st', analysis, ps[1..]);
      ValuesStep(st, analysis, ps);
      if analysis == "OAT" {
        Regroup(st.values, Listed(ps[0], "values"), Present(ps[1..], "values"));
      }
    }
  }

  /** One step of the validation, on the recorded `values` lists. */
  lemma ValuesStep(st: Checks, analysis: string, ps: seq<ParameterElement>)
    requires |ps| > 0
    ensures var st' := Validate(st, analysis, ps[0]);
            && ChecksAfter(st, analysis, ps) == ChecksAfter(st', analysis, ps[1..])
            && Present(ps, "values") == Listed(ps[0], "values") + Present(ps[1..], "values")
            && st'.values == st.values + (if analysis == "OAT" then Listed(ps[0], "values") else [])
  {
  }

  /** Under OAT a parameter with `values` raises the flag; nothing lowers
      it. */
  lemma {:induction false} ChecksAfterFlag(st: Checks, analysis: string, ps: seq<ParameterElement>)
    ensures ChecksAfter(st, analysis, ps).oatValuesFlag == (st.oatValuesFlag || (analysis == "OAT" && AnyValues(ps)))
    decreases ps
  {
    if |ps| > 0 {
      var e := ps[0];
      var st' := Validate(st, analysis, e);
      ChecksAfterFlag(st', analysis, ps[1..]);
      assert ChecksAfter(st, analysis, ps) == ChecksAfter(st', analysis, ps[1..]);
      assert AnyValues(ps) <==> Attr(e, "values").Some? || AnyValues(ps[1..]) by {
        if AnyValues(ps[1..]) {
          var i :| 0 <= i < |ps[1..]| && Attr(ps[1..][i], "values").Some?;
          assert Attr(ps[i + 1], "values").Some?;
        }
        if AnyValues(ps) && Attr(e, "values").None? {
          var i :| 0 <= i < |ps| && Attr(ps[i], "values").Some?;
          assert i > 0 && Attr(ps[1..][i - 1], "values").Some?;
        }
      }
    }
  }

  /** `readParameterInfo` stated against the settings file and the flags of
      earlier calls alone: the six per-parameter lists are the parameters'
      names and attributes, null where absent and always equally long;
      `sbmlSetValues` holds the parsed `value` of exactly the parameters
      that carry one; every missing required field is reported; and
      `errorCheck` ends true only if it was true before and nothing was
      missing. */
  lemma ReadParameterInfoSpec(reg: Registry, analysis: string, file: SettingsFile, codec: NumberCodec)
    ensures var r := ReadParameterInfo(reg, analysis, file, codec);
            var ps := file.parameters;
            && (r.Ok? <==> ParseAll(Present(ps, "value"), codec.parseDouble).Ok?)
            && (r.Ok? ==>
                 && r.value.columns == Columns(Texts(ps), Column(ps, "type"), Column(ps, "min"), Column(ps, "max"),
                                               Column(ps, "inc"), Column(ps, "baseline"))
                 && ParseAll(Present(ps, "value"), codec.parseDouble) == Ok(r.value.sbmlSetValues)
                 && r.value.checks.values == (if analysis == "OAT" then Present(ps, "values") else [])
                 && r.value.checks.oatValuesFlag == (reg.checks.oatValuesFlag || (analysis == "OAT" && AnyValues(ps)))
                 && r.value.checks.log == reg.checks.log + Missing(analysis, ps)
                 && r.value.checks.errorCheck == (reg.checks.errorCheck && Missing(analysis, ps) == []))
  {
    ReadParameterInfoColumns(reg, analysis, file, codec);
    ReadParameterInfoValues(reg, analysis, file, codec);
    ReadParameterInfoChecks(reg, analysis, file, codec);
  }

  /** The per-parameter lists part of `ReadParameterInfoSpec`. */
  lemma ReadParameterInfoColumns(reg: Registry, analysis: string, file: SettingsFile, codec: NumberCodec)
    ensures var r := ReadParameterInfo(reg, analysis, file, codec);
            var ps := file.parameters;
            r.Ok? ==> r.value.columns == Columns(Texts(ps), Column(ps, "type"), Column(ps, "min"), Column(ps, "max"),
                                                 Column(ps, "inc"), Column(ps, "baseline"))
  {
    var cleared := Registry(Columns([], [], [], [], [], []), [], reg.checks.(values := []));
    ReadParametersColumns(cleared, analysis, file.parameters, codec);
    ColumnsAfterSpec(cleared.columns, file.parameters);
  }

  /** The `sbmlSetValues` part of `ReadParameterInfoSpec`. */
  lemma ReadParameterInfoValues(reg: Registry, analysis: string, file: SettingsFile, codec: NumberCodec)
    ensures var r := ReadParameterInfo(reg, analysis, file, codec);
            var parsed := ParseAll(Present(file.parameters, "value"), codec.parseDouble);
            && (r.Ok? <==> parsed.Ok?)
            && (r.Ok? ==> parsed == Ok(r.value.sbmlSetValues))
  {
    var cleared := Registry(Columns([], [], [], [], [], []), [], reg.checks.(values := []));
    var r := ReadParameters(cleared, analysis, file.parameters, codec);
    ReadParametersParse(cleared, analysis, file.parameters, codec);
    ReadParametersSetValues(cleared, analysis, file.parameters, codec);
    if r.Ok? {
      var parsed := ParseAll(Present(file.parameters, "value"), codec.parseDouble);
      assert r.value.sbmlSetValues == [] + parsed.value == parsed.value;
    }
  }

  /** The checks part of `ReadParameterInfoSpec`. */
  lemma ReadParameterInfoChecks(reg: Registry, analysis: string, file: SettingsFile, codec: NumberCodec)
    ensures var r := ReadParameterInfo(reg, analysis, file, codec);
            var ps := file.parameters;
            r.Ok? ==>
              && r.value.checks.values == (if analysis == "OAT" then Present(ps, "values") else [])
              && r.value.checks.oatValuesFlag == (reg.checks.oatValuesFlag || (analysis == "OAT" && AnyValues(ps)))
              && r.value.checks.log == reg.checks.log + Missing(analysis, ps)
              && r.value.checks.errorCheck == (reg.checks.errorCheck && Missing(analysis, ps) == [])
  {
    var cleared := Registry(Columns([], [], [], [], [], []), [], reg.checks.(values := []));
    ReadParametersChecks(cleared, analysis, file.parameters, codec);
    ChecksAfterReports(cleared.checks, analysis, file.parameters);
    ChecksAfterValues(cleared.checks, analysis, file.parameters);
    ChecksAfterFlag(cleared.checks, analysis, file.parameters);
  }

  /** Once a check has failed, no later call reports success. */
  lemma ErrorCheckIsSticky(reg: Registry, analysis: string, file: SettingsFile, codec: NumberCodec)
    requires !reg.checks.errorCheck
    ensures var r := ReadParameterInfo(reg, analysis, file, codec);
            r.Ok? ==> !r.value.checks.errorCheck
  {
    ReadParameterInfoSpec(reg, analysis, file, codec);
  }

  /** The six per-parameter lists always have one entry per parameter. */
  lemma ListsStayAligned(reg: Registry, analysis: string, file: SettingsFile, codec: NumberCodec)
    ensures var r := ReadParameterInfo(reg, analysis, file, codec);
            r.Ok? ==>
              var c := r.value.columns;
              var n := |file.parameters|;
              |c.parametersAnalysed| == n && |c.parameterType| == n && |c.minVals| == n && |c.maxVals| == n
              && |c.incVals| == n && |c.baselineVals| == n
  {
    ReadParameterInfoSpec(reg, analysis, file, codec);
  }
}

=== FILE: spartan_scripts.dfy ===
/** The R scripts handed to spartan for sampling: `GenerateSpartanLHCFile`,
    `GenerateSpartanOATFile` and `GenerateSpartanEFASTFile`. Each prints a
    fixed sequence of lines; the parameter names and their bounds become R
    vectors `NAME<-c(a,b,...)`. A script is the list of lines it prints and
    the file it prints them to; the exception that makes a generator give up
    is returned instead. */
module SpartanScripts {
  import opened Wrappers
  import opened JavaText
  import opened Tokenizer
  import opened SampleRows

  /** The lines a generator prints, and the file they go to. */
  datatype Script = Script(path: string, lines: seq<string>)

  // ---------------------------------------------------------------------
  // R vectors
  // ---------------------------------------------------------------------

  /** What the loop over all but the last item appends: each item followed
      by a comma. */
  function Leading(items: seq<string>): string {
    if |items| == 0 then "" else items[0] + "," + Leading(items[1..])
  }

  /** An R vector line as the generators build it: the loop's leading items,
      then the last item and the closing bracket. */
  function VectorLine(name: string, items: seq<string>): string
    requires |items| > 0
  {
    name + "<-c(" + Leading(items[..|items| - 1]) + items[|items| - 1] + ")"
  }

  /** The leading items and the last one make up the comma-joined items. */
  lemma {:induction false} LeadingJoin(items: seq<string>)
    requires |items| > 0
    ensures Leading(items[..|items| - 1]) + items[|items| - 1] == Join(items, ",")
    decreases |items|
  {
    if |items| > 1 {
      var rest := items[1..];
      LeadingJoin(rest);
      assert rest[..|rest| - 1] == items[..|items| - 1][1..];
      assert rest[|rest| - 1] == items[|items| - 1];
    }
  }

  /** A vector line is its name, then the items joined with commas inside
      `c(` and `)`. */
  lemma VectorLineJoins(name: string, items: seq<string>)
    requires |items| > 0
    ensures VectorLine(name, items) == name + "<-c(" + Join(items, ",") + ")"
  {
    LeadingJoin(items);
  }

  /** The text between `NAME<-c(` and the closing bracket, if the line has
      that form. */
  function VectorBody(line: string, name: string): (r: Option<string>)
    ensures r.Some? ==> line == name + "<-c(" + r.value + ")"
  {
    var open := name + "<-c(";
    if |line| > |open| && line[..|open|] == open && line[|line| - 1] == ')' then
      var body := line[|open|..|line| - 1];
      assert line == line[..|open|] + body + [line[|line| - 1]];
      Some(body)
    else None
  }

  /** Reading a vector line back: the body of `NAME<-c(body)`. */
  lemma VectorBodyOf(name: string, body: string)
    ensures VectorBody(name + "<-c(" + body + ")", name) == Some(body)
  {
    var line := name + "<-c(" + body + ")";
    var open := name + "<-c(";
    assert line[..|open|] == open;
    assert line[|open|..|line| - 1] == body;
  }

  /** Each name in double quotes, as the `PARAMETERS` line prints it. */
  function QuotedNames(names: seq<string>): (r: seq<string>)
    ensures |r| == |names|
    ensures forall i :: 0 <= i < |names| ==> r[i] == "\"" + names[i] + "\""
  {
    QuoteAll(names)
  }

  /** `"" + list.get(i)` for every item: a null prints as "null". */
  function Printed(xs: seq<Option<string>>): (r: seq<string>)
    ensures |r| == |xs|
    ensures forall i :: 0 <= i < |xs| ==> r[i] == Str(xs[i])
  {
    if |xs| == 0 then [] else [Str(xs[0])] + Printed(xs[1..])
  }

  /** The `PARAMETERS` line of a script reads back, through the comma
      tokenizer and quote stripping the sample readers use, as the names it
      was built from, provided no name is empty or holds a comma or a quote. */
  lemma ParametersRoundTrip(names: seq<string>)
    requires |names| > 0
    requires forall i :: 0 <= i < |names| ==> PlainField(names[i])
    ensures var body := VectorBody(VectorLine("PARAMETERS", QuotedNames(names)), "PARAMETERS");
            body.Some? && Tokens(body.value) == QuotedNames(names) && UnquoteAll(Tokens(body.value)) == names
  {
    VectorLineJoins("PARAMETERS", QuotedNames(names));
    VectorBodyOf("PARAMETERS", Join(QuotedNames(names), ","));
    TokensOfQuoted(names);
    forall i | 0 <= i < |names| ensures '"' !in names[i] {
      assert PlainField(names[i]);
    }
    UnquoteAllQuoted(names);
  }

  /** A bound vector (`PMIN`, `PMAX`, ...) reads back as the bounds printed
      into it, provided none is empty or holds a comma. */
  lemma BoundsRoundTrip(name: string, bounds: seq<string>)
    requires |bounds| > 0
    requires forall i :: 0 <= i < |bounds| ==> bounds[i] != "" && CommaFree(bounds[i])
    ensures var body := VectorBody(VectorLine(name, bounds), name);
            body.Some? && Tokens(body.value) == bounds
  {
    VectorLineJoins(name, bounds);
    VectorBodyOf(name, Join(bounds, ","));
    TokensOfJoin(bounds);
  }

  // ---------------------------------------------------------------------
  // Reading the lists
  // ---------------------------------------------------------------------

  /** The exception the loops raise when a list is shorter than the
      parameter list: the first `get` out of range is at the shortest list's
      length; with no parameter at all it is `get(-1)` on the names. */
  function Shortfall(n: nat, lengths: seq<nat>): (r: Option<Exception>)
    ensures r.None? <==> n > 0 && forall i :: 0 <= i < |lengths| ==> lengths[i] >= n
    ensures n == 0 ==> r == Some(IndexOutOfBounds(-1))
    ensures n > 0 && r.Some? ==> exists i :: 0 <= i < |lengths| && r == Some(IndexOutOfBounds(lengths[i])) && lengths[i] < n
    ensures n > 0 && r.Some? ==> r.value.IndexOutOfBounds? && forall i :: 0 <= i < |lengths| ==> r.value.index <= lengths[i]
  {
    if n == 0 then Some(IndexOutOfBounds(-1))
    else
      var m := Shortest(lengths, n);
      if m < n then Some(IndexOutOfBounds(m)) else None
  }

  /** The least of `bound` and the lengths. */
  function Shortest(lengths: seq<nat>, bound: nat): (m: nat)
    ensures m <= bound
    ensures forall i :: 0 <= i < |lengths| ==> m <= lengths[i]
    ensures m == bound || exists i :: 0 <= i < |lengths| && m == lengths[i]
  {
    if |lengths| == 0 then bound
    else
      var rest := Shortest(lengths[1..], bound);
      if lengths[0] < rest then lengths[0]
      else
        assert forall i :: 1 <= i < |lengths| ==> lengths[i] == lengths[1..][i - 1];
        rest
  }

  /** The `FILEPATH<-"..."` line: the path between quotes, nothing escaped. */
  function FilePathLine(path: string): string {
    "FILEPATH<-\"" + path + "\""
  }

  // ---------------------------------------------------------------------
  // The three generators
  // ---------------------------------------------------------------------

  /** `GenerateSpartanLHCFile.CreateSpartanLHCScript`. */
  function LhcScript(outputPath: string, parameters: seq<string>, numSamples: int,
                     minVals: seq<Option<string>>, maxVals: seq<Option<string>>, algorithm: Option<string>)
    : (r: Result<Script, Exception>)
    ensures r.Err? <==> Shortfall(|parameters|, [|minVals|, |maxVals|]).Some?
    ensures r.Err? ==> r.error == Shortfall(|parameters|, [|minVals|, |maxVals|]).value
    ensures r.Ok? ==> 0 < |parameters| <= |minVals| && |parameters| <= |maxVals|
    ensures r.Ok? ==> r.value == Script(outputPath + "/LHC_Sampling.R", LhcLines(outputPath, parameters, numSamples, minVals, maxVals, algorithm))
  {
    var n := |parameters|;
    var lengths := [|minVals|, |maxVals|];
    match Shortfall(n, lengths)
    case Some(e) => Err(e)
    case None =>
      assert lengths[0] >= n && lengths[1] >= n;
      Ok(Script(outputPath + "/LHC_Sampling.R", LhcLines(outputPath, parameters, numSamples, minVals, maxVals, algorithm)))
  }

  /** The lines of the LHC script, once the bounds cover every parameter. */
  function LhcLines(outputPath: string, parameters: seq<string>, numSamples: int,
                    minVals: seq<Option<string>>, maxVals: seq<Option<string>>, algorithm: Option<string>)
    : (lines: seq<string>)
    requires 0 < |parameters| <= |minVals| && |parameters| <= |maxVals|
    ensures var n := |parameters|;
      lines == [
           "library(spartan)",
           "library(lhs)",
           "FILEPATH<-\"" + outputPath + "\"",
           "PARAMETERS<-c(" + Join(QuotedNames(parameters), ",") + ")",
           "PMIN<-c(" + Join(Printed(minVals[..n]), ",") + ")",
           "PMAX<-c(" + Join(Printed(maxVals[..n]), ",") + ")",
           "NUMSAMPLES<-" + IntToString(numSamples),
           "ALGORITHM<-\"" + Str(algorithm) + "\"",
           "lhc_generate_lhc_sample(FILEPATH,PARAMETERS,NUMSAMPLES,PMIN,PMAX,ALGORITHM)"]
  {
      var n := |parameters|;
      assert "PARAMETERS" + "<-c(" == "PARAMETERS<-c(";
      VectorLineJoins("PARAMETERS", QuotedNames(parameters));
      assert "PMIN" + "<-c(" == "PMIN<-c(";
      VectorLineJoins("PMIN", Printed(minVals[..n]));
      assert "PMAX" + "<-c(" == "PMAX<-c(";
      VectorLineJoins("PMAX", Printed(maxVals[..n]));
      [
        "library(spartan)",
        "library(lhs)",
        FilePathLine(outputPath),
        VectorLine("PARAMETERS", QuotedNames(parameters)),
        VectorLine("PMIN", Printed(minVals[..n])),
        VectorLine("PMAX", Printed(maxVals[..n])),
        "NUMSAMPLES<-" + IntToString(numSamples),
        "ALGORITHM<-\"" + Str(algorithm) + "\"",
        "lhc_generate_lhc_sample(FILEPATH,PARAMETERS,NUMSAMPLES,PMIN,PMAX,ALGORITHM)"]
  }

  /** `GenerateSpartanOATFile.CreateSpartanLHCScript`. */
  function OatScript(outputPath: string, parameters: seq<string>, minVals: seq<Option<string>>,
                     maxVals: seq<Option<string>>, baseline: seq<Option<string>>, increment: seq<Option<string>>)
    : (r: Result<Script, Exception>)
    ensures r.Err? <==> Shortfall(|parameters|, [|minVals|, |maxVals|, |baseline|, |increment|]).Some?
    ensures r.Err? ==> r.error == Shortfall(|parameters|, [|minVals|, |maxVals|, |baseline|, |increment|]).value
    ensures r.Ok? ==> 0 < |parameters| <= |minVals| && |parameters| <= |maxVals|
                      && |parameters| <= |baseline| && |parameters| <= |increment|
    ensures r.Ok? ==> r.value == Script(outputPath + "/OAT_Sampling.R", OatLines(outputPath, parameters, minVals, maxVals, baseline, increment))
  {
    var n := |parameters|;
    var lengths := [|minVals|, |maxVals|, |baseline|, |increment|];
    match Shortfall(n, lengths)
    case Some(e) => Err(e)
    case None =>
      assert lengths[0] >= n && lengths[1] >= n && lengths[2] >= n && lengths[3] >= n;
      Ok(Script(outputPath + "/OAT_Sampling.R", OatLines(outputPath, parameters, minVals, maxVals, baseline, increment)))
  }

  /** The lines of the OAT script, once the four lists cover every
      parameter. */
  function OatLines(outputPath: string, parameters: seq<string>, minVals: seq<Option<string>>,
                    maxVals: seq<Option<string>>, baseline: seq<Option<string>>, increment: seq<Option<string>>)
    : (lines: seq<string>)
    requires 0 < |parameters| <= |minVals| && |parameters| <= |maxVals|
    requires |parameters| <= |baseline| && |parameters| <= |increment|
    ensures var n := |parameters|;
      lines == [
           "library(spartan)",
           "FILEPATH<-\"" + outputPath + "\"",
           "PARAMETERS<-c(" + Join(QuotedNames(parameters), ",") + ")",
           "PMIN<-c(" + Join(Printed(minVals[..n]), ",") + ")",
           "PMAX<-c(" + Join(Printed(maxVals[..n]), ",") + ")",
           "BASELINE<-c(" + Join(Printed(baseline[..n]), ",") + ")",
           "PINC<-c(" + Join(Printed(increment[..n]), ",") + ")",
           "oat_parameter_sampling(FILEPATH,PARAMETERS,BASELINE,PMIN,PMAX,PINC)"]
  {
      var n := |parameters|;
      assert "PARAMETERS" + "<-c(" == "PARAMETERS<-c(";
      VectorLineJoins("PARAMETERS", QuotedNames(parameters));
      assert "PMIN" + "<-c(" == "PMIN<-c(";
      VectorLineJoins("PMIN", Printed(minVals[..n]));
      assert "PMAX" + "<-c(" == "PMAX<-c(";
      VectorLineJoins("PMAX", Printed(maxVals[..n]));
      assert "BASELINE" + "<-c(" == "BASELINE<-c(";
      VectorLineJoins("BASELINE", Printed(baseline[..n]));
      assert "PINC" + "<-c(" == "PINC<-c(";
      VectorLineJoins("PINC", Printed(increment[..n]));
      [
        "library(spartan)",
        FilePathLine(outputPath),
        VectorLine("PARAMETERS", QuotedNames(parameters)),
        VectorLine("PMIN", Printed(minVals[..n])),
        VectorLine("PMAX", Printed(maxVals[..n])),
        VectorLine("BASELINE", Printed(baseline[..n])),
        VectorLine("PINC", Printed(increment[..n])),
        "oat_parameter_sampling(FILEPATH,PARAMETERS,BASELINE,PMIN,PMAX,PINC)"]
  }

  /** `String.toLowerCase` on the ASCII letters. */
  function Lower(s: string): (r: string)
    ensures |r| == |s|
    ensures forall i :: 0 <= i < |s| ==> r[i] == AsciiLower(s[i])
  {
    if |s| == 0 then "" else [AsciiLower(s[0])] + Lower(s[1..])
  }

  /** The platform test of the eFAST generator: the lower-cased `os.name`
      contains "win". */
  predicate OnWindows(osName: string) {
    Contains(Lower(osName), "win")
  }

  /** The path as the eFAST `FILEPATH` line holds it. */
  function EfastPath(outputPath: string, osName: string): (p: string)
    ensures |p| == |outputPath|
    ensures OnWindows(osName) ==> '\\' !in p && forall i :: 0 <= i < |p| && outputPath[i] != '\\' ==> p[i] == outputPath[i]
    ensures !OnWindows(osName) ==> p == outputPath
  {
    if OnWindows(osName) then ReplaceChar(outputPath, '\\', '/') else outputPath
  }

  /** `GenerateSpartanEFASTFile.CreateSpartanLHCScript`; the platform's
      `os.name` is a parameter. */
  function EfastScript(outputPath: string, parameters: seq<string>, numCurves: int, numSamples: int,
                       minVals: seq<Option<string>>, maxVals: seq<Option<string>>, osName: string)
    : (r: Result<Script, Exception>)
    ensures r.Err? <==> Shortfall(|parameters|, [|minVals|, |maxVals|]).Some?
    ensures r.Err? ==> r.error == Shortfall(|parameters|, [|minVals|, |maxVals|]).value
    ensures r.Ok? ==> 0 < |parameters| <= |minVals| && |parameters| <= |maxVals|
    ensures r.Ok? ==> r.value == Script(outputPath + "/EFAST_Sampling.R", EfastLines(outputPath, parameters, numCurves, numSamples, minVals, maxVals, osName))
  {
    var n := |parameters|;
    var lengths := [|minVals|, |maxVals|];
    match Shortfall(n, lengths)
    case Some(e) => Err(e)
    case None =>
      assert lengths[0] >= n && lengths[1] >= n;
      Ok(Script(outputPath + "/EFAST_Sampling.R", EfastLines(outputPath, parameters, numCurves, numSamples, minVals, maxVals, osName)))
  }

  /** The lines of the eFAST script, once the bounds cover every
      parameter. */
  function EfastLines(outputPath: string, parameters: seq<string>, numCurves: int, numSamples: int,
                      minVals: seq<Option<string>>, maxVals: seq<Option<string>>, osName: string)
    : (lines: seq<string>)
    requires 0 < |parameters| <= |minVals| && |parameters| <= |maxVals|
    ensures var n := |parameters|;
      lines == [
           "library(spartan)",
           "FILEPATH<-\"" + EfastPath(outputPath, osName) + "\"",
           "NUMCURVES<-" + IntToString(numCurves),
           "NUMSAMPLES<-" + IntToString(numSamples),
           "PARAMETERS<-c(" + Join(QuotedNames(parameters), ",") + ")",
           "PMIN<-c(" + Join(Printed(minVals[..n]), ",") + ")",
           "PMAX<-c(" + Join(Printed(maxVals[..n]), ",") + ")",
           "efast_generate_sample(FILEPATH,NUMCURVES,NUMSAMPLES,PARAMETERS,PMIN,PMAX)"]
  {
      var n := |parameters|;
      assert "PARAMETERS" + "<-c(" == "PARAMETERS<-c(";
      VectorLineJoins("PARAMETERS", QuotedNames(parameters));
      assert "PMIN" + "<-c(" == "PMIN<-c(";
      VectorLineJoins("PMIN", Printed(minVals[..n]));
      assert "PMAX" + "<-c(" == "PMAX<-c(";
      VectorLineJoins("PMAX", Printed(maxVals[..n]));
      var path := if OnWindows(osName) then ReplaceChar(outputPath, '\\', '/') else outputPath;
      [
        "library(spartan)",
        FilePathLine(path),
        "NUMCURVES<-" + IntToString(numCurves),
        "NUMSAMPLES<-" + IntToString(numSamples),
        VectorLine("PARAMETERS", QuotedNames(parameters)),
        VectorLine("PMIN", Printed(minVals[..n])),
        VectorLine("PMAX", Printed(maxVals[..n])),
        "efast_generate_sample(FILEPATH,NUMCURVES,NUMSAMPLES,PARAMETERS,PMIN,PMAX)"]
  }

  /** The test ignores letter case: "Windows 10" counts. */
  lemma WindowsDetected()
    ensures OnWindows("Windows 10")
  {
    var l := Lower("Windows 10");
    assert l[0] == 'w' && l[1] == 'i' && l[2] == 'n';
    assert l[0..3] == "win";
    assert OccursAt(l, "win", 0);
  }

  /** "Linux" does not. */
  lemma LinuxKeepsBackslashes()
    ensures !OnWindows("Linux")
  {
    assert Lower("Linux") == "linux";
    NotContainsWithoutFirst("linux", "win");
  }
}

=== FILE: tokenizer.dfy ===
/** `java.util.StringTokenizer` with the single delimiter ',': the tokens
    are the maximal runs of non-comma characters, so empty fields between
    consecutive commas (or at either end) never produce a token. */
module Tokenizer {

  /** A string of text with no comma in it. */
  predicate CommaFree(s: string) {
    ',' !in s
  }

  /** The fields of `s` between commas, empty ones included
      ("a,,b" has the three fields "a", "" and "b"). */
  function Fields(s: string): (r: seq<string>)
    ensures |r| >= 1
    ensures forall i :: 0 <= i < |r| ==> CommaFree(r[i])
  {
    if |s| == 0 then [""]
    else
      var rest := Fields(s[1..]);
      if s[0] == ',' then [""] + rest
      else [[s[0]] + rest[0]] + rest[1..]
  }

  /** The items joined with `sep` between neighbours. */
  function Join(items: seq<string>, sep: string): string {
    if |items| == 0 then ""
    else if |items| == 1 then items[0]
    else items[0] + sep + Join(items[1..], sep)
  }

  /** The fields that are not empty, in order. */
  function NonEmpty(fields: seq<string>): (r: seq<string>)
    ensures |r| <= |fields|
    ensures forall i :: 0 <= i < |r| ==> r[i] != "" && r[i] in fields
  {
    if |fields| == 0 then []
    else if fields[0] == "" then NonEmpty(fields[1..])
    else [fields[0]] + NonEmpty(fields[1..])
  }

  /** The tokens `new StringTokenizer(s, ",")` hands out, in order. */
  function Tokens(s: string): (r: seq<string>)
    ensures forall i :: 0 <= i < |r| ==> r[i] != "" && CommaFree(r[i])
  {
    NonEmpty(Fields(s))
  }

  /** Splitting at every comma loses nothing: the fields joined with commas
      give back the original text. */
  lemma {:induction false} JoinFields(s: string)
    ensures Join(Fields(s), ",") == s
  {
    if |s| > 0 {
      var rest := Fields(s[1..]);
      JoinFields(s[1..]);
      if s[0] == ',' {
        assert s == "," + s[1..];
      } else {
        var r := [[s[0]] + rest[0]] + rest[1..];
        if |rest| == 1 {
          assert s == [s[0]] + s[1..];
        } else {
          assert r[1..] == rest[1..];
          assert Join(rest, ",") == rest[0] + "," + Join(rest[1..], ",");
          assert s == [s[0]] + s[1..];
        }
      }
    }
  }

  /** A comma-free prefix glues onto the first field of what follows. */
  lemma {:induction false} FieldsOfCommaFreePrefix(a: string, t: string)
    requires CommaFree(a)
    ensures Fields(a + t) == [a + Fields(t)[0]] + Fields(t)[1..]
  {
    if |a| > 0 {
      assert (a + t)[1..] == a[1..] + t;
      FieldsOfCommaFreePrefix(a[1..], t);
      var f := Fields(t);
      assert (a + t)[0] == a[0] != ',';
      assert [a[0]] + (a[1..] + f[0]) == a + f[0];
    } else {
      var f := Fields(t);
      assert a + t == t;
      assert a + f[0] == f[0];
      assert f == [f[0]] + f[1..];
    }
  }

  /** Comma-free items joined with commas split back into exactly those items. */
  lemma {:induction false} FieldsOfJoin(items: seq<string>)
    requires |items| >= 1
    requires forall i :: 0 <= i < |items| ==> CommaFree(items[i])
    ensures Fields(Join(items, ",")) == items
  {
    if |items| == 1 {
      FieldsOfCommaFreePrefix(items[0], "");
      assert items[0] + "" == items[0];
    } else {
      var tail := Join(items[1..], ",");
      FieldsOfJoin(items[1..]);
      assert Fields("," + tail) == [""] + Fields(tail) by {
        assert ("," + tail)[1..] == tail;
      }
      assert Join(items, ",") == items[0] + ("," + tail);
      FieldsOfCommaFreePrefix(items[0], "," + tail);
      var f := [""] + items[1..];
      assert f[0] == "" && f[1..] == items[1..];
      assert items[0] + "" == items[0];
      assert [items[0]] + items[1..] == items;
    }
  }

  /** Filtering out empty fields keeps a list that has none. */
  lemma {:induction false} NonEmptyKeeps(items: seq<string>)
    requires forall i :: 0 <= i < |items| ==> items[i] != ""
    ensures NonEmpty(items) == items
  {
    if |items| > 0 {
      NonEmptyKeeps(items[1..]);
    }
  }

  /** Tokenising round trip: non-empty, comma-free items joined with commas
      come back out of the tokenizer unchanged and in order. */
  lemma TokensOfJoin(items: seq<string>)
    requires forall i :: 0 <= i < |items| ==> items[i] != "" && CommaFree(items[i])
    ensures Tokens(Join(items, ",")) == items
  {
    if |items| > 0 {
      FieldsOfJoin(items);
      NonEmptyKeeps(items);
    }
  }

  /** Empty fields never yield a token: a text made of commas only has none. */
  lemma {:induction false} OnlyCommasHaveNoTokens(s: string)
    requires forall i :: 0 <= i < |s| ==> s[i] == ','
    ensures Tokens(s) == []
  {
    if |s| > 0 {
      OnlyCommasHaveNoTokens(s[1..]);
      var rest := Fields(s[1..]);
      assert Fields(s) == [""] + rest;
      assert NonEmpty([""] + rest) == NonEmpty(rest) by {
        assert ([""] + rest)[1..] == rest;
      }
    }
  }
}

=== FILE: wrappers.dfy ===
/** Failure-compatible wrappers used throughout the model: an optional value
    (Java's nullable reference) and a result that is either a value or the
    exception the Java code would have thrown. */
module Wrappers {

  /** A value that may be absent; `None` stands for Java's `null`. */
  datatype Option<+T> = None | Some(value: T) {

    function GetOr(default: T): T {
      match this
      case Some(v) => v
      case None => default
    }
  }

  /** Either a value or the reason the computation was abandoned. */
  datatype Result<+T, +E> = Ok(value: T) | Err(error: E) {

    predicate IsFailure() {
      Err?
    }

    function PropagateFailure<U>(): Result<U, E>
      requires Err?
    {
      Err(error)
    }

    function Extract(): T
      requires Ok?
    {
      value
    }
  }
}
